=== FILE: README.md ===
# RMR core, modelled and verified in Dafny

This project models the core of RMR, the RIC message router library, in Dafny 4.11, and proves properties of that model. The core is the library's message-buffer and routing logic, plus the small pieces of logic in its Python binding. The sockets, threads and foreign-function plumbing around the core are not modelled. The project covers:

- **Message buffers** (`mbuf.dfy`, `mbuf_api.dfy`): the message buffer, the transport header it points into, and the field API. The field API copies the meid, transaction id and payload in with bounds, and copies the meid, transaction id and trace data out.
- **Ring queue** (`ring.dfy`): the bounded ring queue. It is a class over an array with 16-bit head and tail indexes, and one slot is always left empty.
- **Symbol table** (`symtab.dfy`): the chained hash table. It holds string keys per class and numeric keys, with put, map, get, pull, delete and per-class iteration.
- **String tools** (`tools.dfy`): the bounded NUL-terminated copy, the tokeniser, the token searches and the local-address helpers.
- **Route-table parsing** (`rt_generic.dfy`, `route_table.dfy`): the record parser's text helpers and its state machine. The state machine moves tables between new, active and old. This group also covers reference-counted route entries shared between tables, cloning, and route key packing.
- **SI routing** (`rtable_si.dfy`): adding endpoints to round-robin groups and choosing the endpoint. It also covers the entry lookup with its type-only fallback, and the map from connection descriptors to endpoints.
- **Wormholes** (`wormholes.dfy`): the direct-send slot table, with open, reuse, extend, close, state and the send guards.
- **SI stream reassembly** (`si_reassembly.dfy`): length-prefixed framing across split reads, dropping oversized messages, dispatch to a call chute or to the receive ring, and the disconnect callback.
- **NNG message helpers** (`nng_msg.dfy`): status translation, buffer allocation and reuse, the receive clamp, cloning and re-allocation, and the route-key fallback of the multi-group send.
- **Public API guards** (`rmr_si.dfy`): payload size, send timeout, readiness, the zero-wait receive, the receive of a specific transaction id, the call-id checks, and the sender restore around return-to-sender.
- **Wrapper constants** (`wrapper.dfy`): the JSON constant table handed to language wrappers.
- **Python binding** (`py_rmr.dfy`, `stretch.dfy`): the state-name mapping and its cache, the message summary, the payload and transaction-id setters, and the non-blocking drain with its type filter.

`common.dfy` holds the status codes and field widths shared by all modules.

Code that works by updating state in place is modelled as classes whose methods are proved against specification functions. The message buffer, the ring, the symbol table, the route tables, the river accumulator, the wormhole table, the SI context and the Python binding's cache are modelled this way. Pure code is modelled as functions and lemmas. Where the code and its design notes disagree, the model follows the code, except where the code looks wrong. Those places are listed under "## Findings": each has an as-written member that exhibits the behaviour, and the rest of the model follows the corrected behaviour. Every operation that follows the corrected behaviour is named at the head of a line under "## Left out", and so is every lemma about a single run of those operations whose statement would fail for the code as written. The remaining lemmas about their specification functions (the reassembly of si_reassembly.dfy, the table lookup of symtab.dfy, the record effects of rt_generic.dfy) state the corrected behaviour that those lines admit.

## Model

| member | source | states |
|---|---|---|
| Mbuf.HdrLen | src/rmr/common/include/rmr_agnostic.h:116 | the header length counts the fixed part plus the trace and d1 areas (and d2) |
| Mbuf.WithFlag | src/rmr/common/include/rmr_agnostic.h:88-92 | or-ing a single-bit message flag leaves that bit set and changes nothing else |
| Mbuf.WithoutFlag | src/rmr/common/include/rmr_agnostic.h:88-92 | clearing a single-bit message flag leaves that bit clear and changes nothing else |
| Mbuf.Msg.FromView | src/common/include/rmr.h:76-88 | a message buffer built from a description holds exactly that state, length, type, header and payload |
| Mbuf.Overlay | src/rmr/common/src/mbuf_api.c:70 | a memcpy of n bytes over the front of a field: the first n bytes are the source's, the rest of the field is unchanged, the length is kept |
| MbufApi.CString | src/rmr/si/src/rmr_si.c:297-321 | the string a fixed field holds is its bytes before the first NUL, and that NUL ends it |
| MbufApi.Strncpy | src/rmr/si/src/rmr_si.c:300 | strncpy into an n-byte field: the string's bytes, then zeros to the end of the field |
| MbufApi.StrncpyReadsBack | src/rmr/si/src/rmr_si.c:319-320 | a string shorter than the field reads back unchanged after strncpy |
| MbufApi.Truncated | src/rmr/common/src/mbuf_api.c:63-67 | a fixed-width setter copies the whole request when it fits and exactly the field width otherwise |
| MbufApi.BytesToMeid | src/rmr/common/src/mbuf_api.c:55-73 | -1 with EINVAL (nothing changed) on a nil message, header or source; otherwise the bytes copied over the front of the meid, EOVERFLOW when cut to 32; the rest of the message is unchanged |
| MbufApi.StrToMeid | src/rmr/common/src/mbuf_api.c:82-98 | BADARG on nil arguments, OVERFLOW with nothing changed for a string of 32 or more characters, otherwise OK with the string and its NUL at the front of the meid, so the meid reads back as that string |
| MbufApi.StoredStringReadsBack | src/rmr/common/src/mbuf_api.c:94-97 | a string stored with its NUL over the front of a field reads back unchanged |
| MbufApi.BytesToXact | src/rmr/common/src/mbuf_api.c:144-162 | as BytesToMeid, for the 32-byte transaction id |
| MbufApi.StrToXact | src/rmr/common/src/mbuf_api.c:173-189 | as StrToMeid, for the transaction id |
| MbufApi.PayloadClamp | src/rmr/common/src/mbuf_api.c:113-117 | the copy length never exceeds the payload capacity and is the request itself whenever that fits (the unsigned compare treats a negative request as too large) |
| MbufApi.AsWrittenCopyOverrunsPayload | src/rmr/common/src/mbuf_api.c:113-122 | for every message with the library's 4-byte d1 area, a request 4 bytes past the payload passes the clamp as written and is copied in full |
| MbufApi.AsWrittenOverrunExample | src/rmr/common/src/mbuf_api.c:113-122 | a 100-byte payload in a 384-byte allocation: 104 bytes are copied as written, 100 after the correction |
| MbufApi.BytesToPayload | src/rmr/common/src/mbuf_api.c:107-123 | EINVAL with nothing changed on nil arguments; otherwise state OK (errno 0) or OVERFLOW (EMSGSIZE), len set to the length clamped at the payload size (the corrected clamp under Findings) and that many source bytes at the front of the payload |
| MbufApi.StrToPayload | src/rmr/common/src/mbuf_api.c:129-131 | EINVAL on a nil message, and a message without a header is left unchanged; otherwise the whole new state: the string and its NUL are copied over the front of the payload up to the corrected clamp at the payload size, len is the clamped length, state and errno are OK/0 when the string and NUL fit and OVERFLOW/EMSGSIZE otherwise, and every other field is kept; when it fits, the payload reads back as the string |
| MbufApi.GetXact | src/rmr/common/src/mbuf_api.c:204-222 | nil with EINVAL for a nil message or header; otherwise the 32 transaction id bytes, in the caller's buffer when one is given (only its first 32 bytes change) or in a new one |
| MbufApi.GetMeid | src/rmr/common/src/mbuf_api.c:233-254 | as GetXact, for the 32 raw meid bytes |
| MbufApi.CopyInto | src/rmr/common/src/mbuf_api.c:215 | memcpy: the front of the array holds the source, the rest is unchanged |
| MbufApi.GetTrace | src/rmr/common/src/mbuf_api.c:358-378 | 0 for a nil message or buffer or a size of zero or less; otherwise copies min(size, trace length) trace bytes to the buffer and returns that count, leaving the rest of the buffer unchanged |
| Ring.SlotCount | src/rmr/common/src/ring_static.c:70-86 | a requested size below 65535 gives that many slots; 65535 or more is decremented and truncated to 16 bits |
| Ring.BlockedIffFull | src/rmr/common/src/ring_static.c:226-231 | the insert guard fires exactly when the ring holds one item fewer than its slots |
| Ring.CapacityBelowSize | src/rmr/common/src/ring_static.c:70-95 | a ring of the requested size always reports full before that many items, after exactly size-1 below 65535 |
| Ring.Ring.Init | src/rmr/common/src/ring_static.c:78-92 | a new ring is empty, with head and tail 0 |
| Ring.Ring.Insert | src/rmr/common/src/ring_static.c:211-251 | true exactly when the ring was not full, and then the item is appended at the back (FIFO); false leaves the contents unchanged |
| Ring.Ring.Extract | src/rmr/common/src/ring_static.c:164-205 | nil on an empty ring; otherwise the oldest item, which is removed |
| Ring.MkRing | src/rmr/common/src/ring_static.c:70-95 | nil for a size of zero or less; otherwise a fresh empty ring of SlotCount(size) slots |
| RmrSi.SiCtx.constructor | src/rmr/si/src/rmr_si.c:568-572 | a new context, named by a NUL-free host name, retries sends once, has an empty receive ring and no route table |
| RmrSi.PayloadSize | src/rmr/si/src/rmr_si.c:109-117 | -1 with EINVAL exactly for a nil buffer or one without a header; otherwise the allocation less the header and the transport prefix, with errno cleared |
| RmrSi.PayloadSizeIsRoom | src/rmr/si/src/rmr_si.c:116 | for a laid-out SI buffer the size reported is exactly its payload area, and never negative |
| RmrSi.SetStimeout | src/rmr/si/src/rmr_si.c:493-506 | -1 for a nil context; otherwise OK, with the retry budget set to the value given, negative values becoming 0, and nothing else changed |
| RmrSi.Ready | src/rmr/si/src/rmr_si.c:739-751 | true exactly when there is a context and it holds a route table |
| RmrSi.MtRcvPoll | src/rmr/si/src/rmr_si.c:822-849 | with no context the caller's buffer comes back marked BADARG; otherwise the head of the ring is popped and returned, or with an empty ring the caller's buffer comes back marked TIMEOUT with length 0 |
| RmrSi.Others | src/rmr/si/src/rmr_si.c:454-468 | the messages queued while waiting are OK messages without the awaited id, no more than arrived |
| RmrSi.WaitTakes | src/rmr/si/src/rmr_si.c:452-474 | a wait takes arrivals in order; a returned message is the last one taken, is OK and carries the awaited id; nil is returned exactly on a timeout or a full ring |
| RmrSi.WaitQueues | src/rmr/si/src/rmr_si.c:452-474 | the ring gains every OK arrival taken that lacked the awaited id, in arrival order, except the last one when the ring was full |
| RmrSi.WaitCounts | src/rmr/si/src/rmr_si.c:452-474 | no wait queues more than allow2queue or the room on the ring; a timeout has queued exactly allow2queue and a full ring exactly the room there was |
| RmrSi.RcvSpecific | src/rmr/si/src/rmr_si.c:426-475 | with no context the buffer comes back marked BADARG with EINVAL; with no expected id the plain receive is used; otherwise the outcome, errno and messages queued are those of Wait on the arrivals, comparing at most RMR_MAX_XID bytes of the id |
| RmrSi.CallHeader | src/rmr/si/src/rmr_si.c:966-969 | the call header has the call flag set |
| RmrSi.MtCallSetup | src/rmr/si/src/rmr_si.c:936-970 | the call goes on exactly with a context, a buffer, threaded calls enabled and an id in 2..MAX_CALL_ID; otherwise the buffer says BADARG or NOTSUPP and the chutes are untouched; going on, the chute is emptied and told to expect the buffer's transaction id, and the buffer gets the call header and the no-allocation flag |
| RmrSi.RtsView | src/rmr/si/src/rmr_si.c:280-300 | the buffer handed to the transport has the call flag off and a sender field of RMR_MAX_SRC bytes |
| RmrSi.RestoredView | src/rmr/si/src/rmr_si.c:319-321 | the buffer coming back is flagged to add a source |
| RmrSi.RtsMsg | src/rmr/si/src/rmr_si.c:254-327 | BADARG for a nil context or buffer, NOHDR without a header, NOENDPT when the sender cannot be reached, each with nothing sent; otherwise the buffer goes out under our name, and the buffer that comes back carries the original sender name and address again |
| RmrSi.RestoredReadsBack | src/rmr/si/src/rmr_si.c:298-320 | the buffer that comes back reads, as C strings, the sender name and address the original carried |
| RmrSi.CallReplyReachesChute | src/rmr/si/src/rmr_si.c:280 | a call message goes to the receiver's ring, and the reply returned to its sender reaches the chute of the call id |
| Wrapper.Digits | src/rmr/common/src/wrapper.c:45 | %d writes a non-empty run of decimal digits |
| Wrapper.DigitsReadBack | src/rmr/common/src/wrapper.c:45 | reading the digits back in base ten gives the number |
| Wrapper.Decimal | src/rmr/common/src/wrapper.c:45 | the text of a number is non-empty and holds no NUL, quote or comma, so it cannot end the member early |
| Wrapper.DecimalReadsBack | src/rmr/common/src/wrapper.c:45 | atoi of the text of a 32-bit number, followed by anything that is not a digit, gives the number |
| Wrapper.Snprintf | src/rmr/common/src/wrapper.c:45 | snprintf keeps a prefix of the text shorter than the buffer, all of it when it fits |
| Wrapper.BuildIval | src/rmr/common/src/wrapper.c:42-47 | the member is a prefix of `"name": value` with the optional ',' shorter than 512 bytes, and all of it when it fits |
| Wrapper.BuildSval | src/rmr/common/src/wrapper.c:53-58 | the member is a prefix of `"name": "value"` with the optional ',' shorter than 512 bytes, and all of it when it fits |
| Wrapper.UpToQuote | src/rmr/common/src/wrapper.c:45 | splits a text at its first quote: a quote-free part, then the rest starting at the quote |
| Wrapper.UpToQuoteFinds | src/rmr/common/src/wrapper.c:45 | the split of a quote-free text followed by a quote is exactly that text |
| Wrapper.QuotedName | src/rmr/common/src/wrapper.c:45 | a quote-free name comes back out of its quotes |
| Wrapper.IvalRoundTrip | src/rmr/common/src/wrapper.c:42-47 | an integer member that fits its buffer reads back as the name, value and separator it was built from |
| Wrapper.SvalRoundTrip | src/rmr/common/src/wrapper.c:53-58 | a string member that fits its buffer reads back as the name, value and separator it was built from |
| Wrapper.SvalExamples | test/wrapper_static_test.c:51-57 | the two members the library's tests expect, with and without the separator |
| Wrapper.Strncat | src/rmr/common/src/wrapper.c:77 | at most n bytes of src are appended after the C string, followed by a NUL, and the string before is kept |
| Wrapper.BangOn | src/rmr/common/src/wrapper.c:70-85 | src is appended and its length returned when it is no longer than max; otherwise, or with a nil target or src, the target keeps its string and 0 is returned |
| Wrapper.Packed | src/rmr/common/src/wrapper.c:105-164 | the kept members and the room left always add up to the room there was, and the room never goes negative |
| Wrapper.PackedKeepsAll | src/rmr/common/src/wrapper.c:105-164 | members that fit together are all kept, in order |
| Wrapper.PackedStep | src/rmr/common/src/wrapper.c:107-108 | each member is appended when it fits the room left and skipped otherwise |
| Wrapper.AppendMembers | src/rmr/common/src/wrapper.c:105-164 | the buffer holds "{ " and the members Packed keeps, NUL-terminated, and the room left is Packed's |
| Wrapper.GetConsts | src/rmr/common/src/wrapper.c:98-168 | the text is "{ ", the kept members and as much of " }" as the reserved room allows; it starts with '{' and is shorter than 2048 bytes |
| Wrapper.ConstsFramed | test/wrapper_static_test.c:46-48 | a table whose members fit comes out as every member in order, framed by "{ " and " }", so it ends with '}' |
| Wrapper.ShortTableFits | src/rmr/common/src/wrapper.c:105 | a table of up to 40 constants with names of up to 24 characters and values below 100000 in magnitude always fits |
| PyRmr.Get | src/bindings/rmr-python/rmr/rmr.py:382 | dict.get on the dict json.loads builds: the value of the last member with that name, and the default exactly when no member has it |
| PyRmr.StateNameIff | src/bindings/rmr-python/rmr/rmr.py:80 | the names kept are exactly "RMR_OK" and those starting with "RMR_ERR" |
| PyRmr.StateNamesFrom | src/bindings/rmr-python/rmr/rmr.py:79-82 | every value in the mapping comes from a state member of the table that names it |
| PyRmr.StateNamesHas | src/bindings/rmr-python/rmr/rmr.py:79-82 | a state member maps its value to its name unless a later state member has the same value |
| PyRmr.StatusKnown | src/bindings/rmr-python/rmr/rmr.py:87-93 | a state is reported unknown exactly when no state member of the table has its value; otherwise its status names such a member |
| PyRmr.NotUnknown | src/bindings/rmr-python/rmr/rmr.py:93 | no state name is the unknown-state text, so the two cannot be confused |
| PyRmr.LastWithValue | src/bindings/rmr-python/rmr/rmr.py:79-82 | among state members with the same value there is a last one, which the mapping keeps |
| PyRmr.StandardStatuses | src/bindings/rmr-python/tests/test_rmr.py:40-42 | with the library's states, 0 is "RMR_OK", 12 is "RMR_ERR_TIMEOUT" and 666 is "UNKNOWN STATE" |
| PyRmr.Binding.constructor | src/bindings/rmr-python/rmr/rmr.py:53 | the cache starts empty |
| PyRmr.Binding.GetMappingDict | src/bindings/rmr-python/rmr/rmr.py:53-84 | a non-empty cache is returned unchanged; otherwise the cache becomes the state mapping of the table and is returned |
| PyRmr.GetPayload | src/bindings/rmr-python/rmr/rmr.py:347-364 | the payload read is exactly the first len bytes |
| PyRmr.PyPrefix | src/bindings/rmr-python/rmr/rmr.py:383 | Python's s[:n] is a prefix of s, of length n when n is in range |
| PyRmr.Nuls | src/bindings/rmr-python/rmr/rmr.py:404 | "\000" * n is max(n, 0) NUL characters |
| PyRmr.MessageSummary | src/bindings/rmr-python/rmr/rmr.py:386-419 | the malformed text exactly when len exceeds RMR_MAX_RCV_BYTES; otherwise the payload is the first len bytes with its length, and the meid is None exactly when it is all NULs, else the meid read |
| PyRmr.SummaryStatus | src/bindings/rmr-python/rmr/rmr.py:407-419 | a summary carries the buffer's state and type, and its status is unknown exactly when no state member has the state's value |
| PyRmr.SetPayloadAndLength | src/bindings/rmr-python/rmr/rmr.py:422-435 | for any bytes, unchecked: len becomes their count; bytes that fit are written at the front of the payload with the rest kept, and longer ones fill the payload area |
| PyRmr.PayloadOverrun | src/bindings/rmr-python/rmr/rmr.py:434-435 | bytes longer than the payload area leave len past the area, the area holding their first bytes, every other field kept |
| PyRmr.PayloadRoundTrip | src/bindings/rmr-python/rmr/rmr.py:422-435 | what was set is what get_payload reads back, and the payload area keeps its size |
| PyRmr.GenerateAndSetTransactionId | src/bindings/rmr-python/rmr/rmr.py:438-450 | the first RMR_MAX_XID bytes of the generated id overwrite the front of the id field and nothing else changes |
| PyRmr.XactionRoundTrip | src/bindings/rmr-python/rmr/rmr.py:367-383 | an id without NUL that fills the field reads back with get_xaction as the id itself |
| PyRmr.CStrWhole | src/bindings/rmr-python/rmr/rmr.py:381 | a byte string without NUL is its own C string |
| Stretch.Wrapped | src/bindings/rmr-python/rmr/stretch.py:54-56 | a single type becomes a one-element list, and only a missing filter stays missing |
| Stretch.OkRun | src/bindings/rmr-python/rmr/stretch.py:61-66 | the received messages at the front: all of them say "RMR_OK" and the one after them, if any, does not |
| Stretch.Kept | src/bindings/rmr-python/rmr/stretch.py:68-69 | every summary kept passes the filter, and no more are kept than given |
| Stretch.KeptConcat | src/bindings/rmr-python/rmr/stretch.py:61-69 | filtering distributes over concatenation, so the order of arrival is kept |
| Stretch.KeptMembers | src/bindings/rmr-python/rmr/stretch.py:68-69 | a summary is kept exactly when it was given and passes the filter |
| Stretch.KeptAll | src/bindings/rmr-python/rmr/stretch.py:68 | with no filter or an empty list everything is kept |
| Stretch.RcvallMsgs | src/bindings/rmr-python/rmr/stretch.py:27-73 | returns Drain of the arrivals; every receive waits 0 ms, there is one more receive than messages received, and the probe buffer is freed once |
| Stretch.DrainReturns | src/bindings/rmr-python/rmr/stretch.py:61-69 | the drain returns received messages only, each passing the filter, and exactly the passing ones before the first summary that is not "RMR_OK" |
| Stretch.DrainUnfiltered | src/bindings/rmr-python/rmr/stretch.py:68 | with no filter or an empty list every received message is returned, in order |
| Stretch.SingleTypeIsList | src/bindings/rmr-python/rmr/stretch.py:54-56 | a single type filters as the one-element list does |
| Stretch.RcvallAsWrittenRaises | src/bindings/rmr-python/rmr/stretch.py:51-52 | as written the function raises NameError even with a message waiting, where the drain returns it |
| Stretch.DrainAsWrittenAgrees | src/bindings/rmr-python/rmr/stretch.py:61-69 | where no summary is malformed, the loop as written returns what the drain returns |
| Stretch.MalformedRaisesAsWritten | src/bindings/rmr-python/rmr/stretch.py:64-65 | an oversized message makes the loop as written raise TypeError; the drain stops there |
| Symtab.Wrap64 | src/rmr/common/src/symtab.c:78-92 | the signed 64-bit wrap-around of the hash accumulator stays within the range of a `long` |
| Symtab.HashAcc | src/rmr/common/src/symtab.c:85-86 | the running `t*79 + c` value, wrapped at every step, is a valid `long` |
| Symtab.StringBucket | src/rmr/common/src/symtab.c:78-92 | sym_hash: complement of a negative value, then modulo the table size: always a bucket index |
| Symtab.BucketOf | src/rmr/common/src/symtab.c:149-156 | a name hashes with sym_hash, a number goes to nkey % size: always a bucket index |
| Symtab.SymHash | src/rmr/common/src/symtab.c:78-92 | the character-by-character loop computes exactly StringBucket |
| Symtab.Lookup | src/rmr/common/src/symtab.c:125-133 | the element found is in the chain and holds exactly the key asked for; none is found only when no element holds it |
| Symtab.LookupAt | src/rmr/common/src/symtab.c:149-156 | in a chain without duplicate keys, looking up an element's key finds that element |
| Symtab.LookupAfterReplace | src/rmr/common/src/symtab.c:184-186 | updating an element in place keeps keys unique and changes the lookup of that key only |
| Symtab.LookupAfterRemove | src/rmr/common/src/symtab.c:95-120 | unlinking an element keeps keys unique, makes its key absent and leaves every other lookup unchanged |
| Symtab.LookupAfterPush | src/rmr/common/src/symtab.c:158-182 | inserting a new key at the head of its chain finds it there and leaves every other lookup unchanged |
| Symtab.NumericKeyZeroFindsStringEntry | src/rmr/common/src/symtab.c:153-155 | in an 11-bucket table "M" and numeric key 0 share bucket 0; the match as written returns the string entry for key 0, the corrected match finds nothing |
| Symtab.TotalUpdate | src/rmr/common/src/symtab.c:158-182 | replacing one chain changes the element count by the difference of the chain lengths |
| Symtab.ChainOkAfterRemove | src/rmr/common/src/symtab.c:95-120 | unlinking keeps a chain well formed |
| Symtab.PushKeepsChain | src/rmr/common/src/symtab.c:158-182 | pushing a new key onto its own chain keeps the chain well formed and changes only that key |
| Symtab.ReplaceKeepsChain | src/rmr/common/src/symtab.c:184-186 | updating an element in place keeps the chain well formed and changes only that key |
| Symtab.RemoveKeepsChain | src/rmr/common/src/symtab.c:95-120 | unlinking keeps the chain well formed, removes that key and changes nothing else |
| Symtab.EntryAfterChainUpdate | src/rmr/common/src/symtab.c:140-189 | rewriting one key's chain changes what any get reaches for that key only |
| Symtab.SymTab.Alloc | src/rmr/common/src/symtab.c:252-280 | a new table is empty, with no inhabitants or deaths, and its size is raised to 11 when smaller |
| Symtab.SymTab.Find | src/rmr/common/src/symtab.c:149-156 | the chain walk stops at the element holding the key, or at the end only when the key is absent |
| Symtab.SymTab.Putin | src/rmr/common/src/symtab.c:140-189 | returns 1 and counts an inhabitant for a new key, 0 for an existing one; afterwards the key maps to the value with its mcount one higher (1 when new) and every other key is unchanged |
| Symtab.SymTab.Put | src/rmr/common/src/symtab.c:361-371 | putin under the given name, with class 0 raised to class 1 |
| Symtab.SymTab.Map | src/rmr/common/src/symtab.c:378-383 | putin under a numeric key: afterwards the key maps to the value, every other key unchanged |
| Symtab.SymTab.Get | src/rmr/common/src/symtab.c:316-346 | returns the value stored under the key, or none; the element's rcount goes up by one and nothing else changes (rmr_sym_pull with a numeric key too) |
| Symtab.SymTab.Del | src/rmr/common/src/symtab.c:285-313 | afterwards the key is absent and every other key unchanged; inhabitants fall and deaths rise by one when it was present, nothing changes otherwise (rmr_sym_ndel too) |
| Symtab.SymTab.ForeachClass | src/rmr/common/src/symtab.c:456-475 | the callback visits exactly the elements of the class, bucket by bucket in chain order |
| Symtab.OfClass | src/rmr/common/src/symtab.c:468-473 | filtering one chain by class keeps exactly its elements of that class |
| Symtab.ClassMembersIn | src/rmr/common/src/symtab.c:456-475 | every visited element is in some bucket and of the class, and every element of the class is visited |
| Tools.IndexOf | src/rmr/common/src/tools_static.c:117 | strchr returns a position holding the character |
| Tools.IndexOfPrefix | src/rmr/common/src/tools_static.c:117 | no earlier position holds the character |
| Tools.IndexOfFirst | src/rmr/common/src/tools_static.c:117 | strchr finds the first occurrence: every earlier character differs |
| Tools.ZtBufFill | src/rmr/common/src/tools_static.c:78-97 | -1 with nothing written for a nil destination or source; otherwise copies min(strlen, len-1) characters, NUL-terminates, returns that count and leaves the rest of the buffer alone |
| Tools.FillIsTerminated | src/rmr/common/src/tools_static.c:94-96 | the filled buffer holds a string of exactly the returned length |
| Tools.Split | src/rmr/common/src/tools_static.c:115-120 | splitting yields at least one token and never more than the room left |
| Tools.SplitAdvance | src/rmr/common/src/tools_static.c:116-119 | each loop turn keeps recorded tokens plus the split of the rest equal to the final token list |
| Tools.JoinSplit | src/rmr/common/src/tools_static.c:107-123 | putting the separators back between the tokens restores the buffer (the tokens partition it), whatever the limit |
| Tools.JoinSplitStep | src/rmr/common/src/tools_static.c:117-118 | one separator: the head token, the separator, and the join of the rest give back the buffer |
| Tools.JoinTokens | src/rmr/common/src/tools_static.c:107-123 | the tokens join back to the buffer; there are none exactly when the buffer is empty; never more than max |
| Tools.InnerTokensHaveNoSep | src/rmr/common/src/tools_static.c:116-119 | every token but the last holds no separator (only the last can keep the remainder when max is hit) |
| Tools.Tokenise | src/rmr/common/src/tools_static.c:107-123 | the loop records exactly Tokens: none for a nil or empty buffer, otherwise the split of the buffer, the last token keeping the rest once max is reached |
| Tools.SplitCons | src/rmr/common/src/tools_static.c:116-119 | a separator-free head followed by the separator is split off as the first token |
| Tools.SplitJoin | src/rmr/common/src/tools_static.c:107-123 | tokenising a join of separator-free tokens, with room for all of them, gives them back |
| Tools.NotInJoin | src/rmr/common/src/tools_static.c:107-123 | a character in no token, other than the separator, is not in the joined buffer |
| Tools.FlintstonesTokens | test/tools_static_test.c:148-170 | the test buffer splits on ',' into its 10 names with "Betty" fifth, and on '|' into one token |
| Tools.HasStr | src/rmr/common/src/tools_static.c:278-315 | -1 when max < 2; otherwise the index of the first token equal to the string, or -1 exactly when no token is |
| Tools.IsThisMyIp | src/rmr/common/src/tools_static.c:420-438 | true exactly when list and address are present and the address is one of the list |
| Tools.HasMyIp | src/rmr/common/src/tools_static.c:446-493 | true exactly when max >= 2, buffer and list are present, and some token of the buffer is a listed address |
| Tools.NotMine | src/rmr/common/src/tools_static.c:146-156 | the kept tokens are exactly the tokens that are not listed addresses, none added |
| Tools.RmIpTokenise | src/rmr/common/src/tools_static.c:137-160 | the tokens of the buffer with the local addresses removed, in order, and their count |
| Tools.DefaultIp | src/rmr/common/src/tools_static.c:503-510 | the first address of a non-empty list, none for a nil or empty list |
| RtGeneric.DropLeading | src/rmr/common/src/rt_generic_static.c:136-138 | the leading-whitespace skip leaves a string that starts with no whitespace |
| RtGeneric.DropLeadingSuffix | src/rmr/common/src/rt_generic_static.c:136-138 | what is left after the skip is a suffix of the field |
| RtGeneric.DropLeadingDropsSpaces | src/rmr/common/src/rt_generic_static.c:136-138 | only whitespace is skipped |
| RtGeneric.TrimTrailing | src/rmr/common/src/rt_generic_static.c:150-151 | the trailing trim never empties a non-empty field and leaves no trailing whitespace on anything longer than one character (the first character is never examined) |
| RtGeneric.TrimTrailingPrefix | src/rmr/common/src/rt_generic_static.c:150-151 | the trimmed field is a prefix of the field |
| RtGeneric.TrimTrailingDropsSpaces | src/rmr/common/src/rt_generic_static.c:150-151 | only whitespace is trimmed |
| RtGeneric.TrimTrailingIdempotent | src/rmr/common/src/rt_generic_static.c:150-151 | trimming twice trims no more |
| RtGeneric.SkipSpace | src/rmr/common/src/rt_generic_static.c:136-138 | the pointer-advancing loop computes DropLeading |
| RtGeneric.TrimEnd | src/rmr/common/src/rt_generic_static.c:150-151 | the backing-up loop computes TrimTrailing |
| RtGeneric.Clip | src/rmr/common/src/rt_generic_static.c:133-154 | the three scans of clip compute Clipped: leading whitespace skipped, a comment field returned as is, a trailing comment cut at a '#' that follows whitespace, trailing whitespace trimmed |
| RtGeneric.ClippedCuts | src/rmr/common/src/rt_generic_static.c:140-148 | a '#' after whitespace cuts the field there before the trim |
| RtGeneric.ClippedKeeps | src/rmr/common/src/rt_generic_static.c:150-153 | without such a '#' the field is only trimmed |
| RtGeneric.ClipTrims | src/rmr/common/src/rt_generic_static.c:133-154 | a clipped field starts with no whitespace and, unless it is a comment, ends with none |
| RtGeneric.ClipCutsComment | src/rmr/common/src/rt_generic_static.c:140-148 | no '#' survives a trailing comment |
| RtGeneric.ClipKeepsWordHash | src/rmr/common/src/rt_generic_static.c:140-148 | a '#' inside a word is data: it survives, at the same place |
| RtGeneric.ClipIdempotent | src/rmr/common/src/rt_generic_static.c:133-154 | clipping a clipped field changes nothing |
| RtGeneric.NltermAsWrittenDropsChar | src/rmr/common/src/rt_generic_static.c:169-174 | as written the one-character buffer "x" becomes "\n"; the corrected function gives "x\n" |
| RtGeneric.EnsureNlterm | src/rmr/common/src/rt_generic_static.c:163-188 | a nil buffer becomes "\n" |
| RtGeneric.EnsureNltermTerminates | src/rmr/common/src/rt_generic_static.c:163-188 | the result ends in a newline, keeps the buffer as its prefix, adds at most one character, and is the buffer itself exactly when it already ended in a newline |
| RtGeneric.EnsureNltermIdempotent | src/rmr/common/src/rt_generic_static.c:163-188 | terminating a terminated buffer changes nothing |
| RtGeneric.NltermAgreesBeyondOneChar | src/rmr/common/src/rt_generic_static.c:169-185 | the corrected function agrees with the code on nil and on every buffer that is not one character long |
| RtGeneric.Atoi | src/rmr/common/src/rt_generic_static.c:383 | atoi yields a 32-bit int for every string |
| RtGeneric.Low32 | src/rmr/common/src/rt_generic_static.c:383 | the (int) cast keeps a value that fits and wraps any other into 32 bits |
| RtGeneric.DigitRunStops | src/rmr/common/src/rt_generic_static.c:383 | the digits read stop at the first non-digit |
| RtGeneric.AtoiReadsNumber | src/rmr/common/src/rt_generic_static.c:432 | a run of digits followed by anything else reads as its decimal value |
| RtGeneric.AtoiReadsNegative | src/rmr/common/src/rt_generic_static.c:432 | a '-' then digits reads as the negated value |
| RtGeneric.AtoiUnsigned | src/rmr/common/src/rt_generic_static.c:432 | a field starting with a digit reads as the value of its digit run |
| RtGeneric.AtoiSigned | src/rmr/common/src/rt_generic_static.c:432 | the same behind a '-' reads negated |
| RtGeneric.AtoiStopsAtSenderList | src/rmr/common/src/rt_generic_static.c:265 | the type field "1,host:4560" names message type 1 |
| RtGeneric.AtoiReadsMinusTwelve | src/rmr/common/src/rt_generic_static.c:265 | "-12" reads as -12 |
| RtGeneric.SenderMatches | src/rmr/common/src/rt_generic_static.c:261-263 | a record is taken exactly when the type field names no senders, or names this host, or one of this host's addresses |
| RtGeneric.Others | src/rmr/common/src/rt_generic_static.c:277-281 | only tokens that are not this host's name are added, in order |
| RtGeneric.FillSlotHolds | src/rmr/si/src/rtable_si_static.c:159-211 | a group holds the first 32 non-empty names of its tokens other than this host's, in record order, with the round-robin index 0; there is no group when every token is this host's name |
| RtGeneric.Slots | src/rmr/common/src/rt_generic_static.c:269-272 | an entry has one slot per round-robin group of the record |
| RtGeneric.BuildEntry | src/rmr/common/src/rt_generic_static.c:248-289 | clips both fields and has exactly the effect Built describes: for a record this host takes, with at least one group, a fresh entry with refs 1 replaces the key's entry in the table in progress (releasing the old one) and the table learns the endpoint names |
| RtGeneric.FillGroups | src/rmr/common/src/rt_generic_static.c:271-285 | the group loop fills the new entry's slots with Slots and adds exactly EpsOf to the table's endpoints, nothing else changing |
| RtGeneric.AddGroup | src/rmr/common/src/rt_generic_static.c:274-284 | one group: the slot holds FillSlot of its tokens and their names join the table's endpoints |
| RtGeneric.AddToken | src/rmr/common/src/rt_generic_static.c:277-281 | one token other than this host's name is added to its group and, when non-empty, to the endpoints |
| RtGeneric.TrashEntry | src/rmr/common/src/rt_generic_static.c:298-331 | for a record this host takes, the key leaves the table in progress and its entry loses that reference; otherwise nothing changes |
| RtGeneric.Classify | src/rmr/common/src/rt_generic_static.c:366-502 | a record is read by the first character of its first '|' field: del needs 3 fields, newrt 2, mse 4, rte takes its sub-id from the fourth field or UNSET_SUBID, update|end carries an optional count; anything else is ignored; the short newrt, update and rte records the source does not define are given the outcomes listed under Left out |
| RtGeneric.Kind | src/rmr/common/src/rt_generic_static.c:367-502 | the record's numeric fields are 32-bit ints |
| RtGeneric.ParseRtRec | src/rmr/common/src/rt_generic_static.c:346-505 | the record's effect on the routing state is exactly Apply of its classification; a nil buffer changes nothing |
| RtGeneric.DelRecord | src/rmr/common/src/rt_generic_static.c:373-385 | a del record with a table in progress and 3 fields trashes the entry and counts one update |
| RtGeneric.NewRecord | src/rmr/common/src/rt_generic_static.c:387-420 | newrt|end with a table in progress makes it active and the active one old (dropping the old); newrt|start drops any table in progress and starts a clone of the active table's endpoints |
| RtGeneric.MseRecord | src/rmr/common/src/rt_generic_static.c:422-434 | an mse record with a table in progress and 4 fields builds the entry and counts one update |
| RtGeneric.RteRecord | src/rmr/common/src/rt_generic_static.c:436-447 | an rte record with a table in progress counts one update, then builds the entry |
| RtGeneric.CountedThenBuilt | src/rmr/common/src/rt_generic_static.c:441-445 | counting before building, as rte records do, is the same as counting after |
| RtGeneric.UpdateRecord | src/rmr/common/src/rt_generic_static.c:449-498 | update|end activates the table in progress unless the count given differs from the updates received, which discards it; update|start starts a full clone of the active table with the count at 0 |
| RtGeneric.BuiltRoutesRecord | src/rmr/common/src/rt_generic_static.c:265-272 | after an entry record this host takes, the lookup of its type and sub-id in the table in progress finds the new entry, which has the record's key, refs 1 and one slot per group |
| RtGeneric.BuiltIgnoresOthers | src/rmr/common/src/rt_generic_static.c:261-263 | a record for other hosts changes nothing, for entries and deletes alike |
| RtGeneric.TrashedUnroutes | src/rmr/common/src/rt_generic_static.c:298-331 | after a del record this host takes, the lookup of its type and sub-id finds nothing, and no other key comes or goes |
| RtGeneric.RecordsNeedTable | src/rmr/common/src/rt_generic_static.c:374-375 | entry, delete and end records do nothing without a table in progress |
| RtGeneric.ApplyAllCounts | src/rmr/common/src/rt_generic_static.c:384 | every entry, delete or count-only record adds exactly one to the count of the table in progress and leaves the active and old tables alone |
| RtGeneric.ApplyCountsOne | src/rmr/common/src/rt_generic_static.c:433 | one counted record adds one |
| RtGeneric.UpdateSession | src/rmr/common/src/rt_generic_static.c:449-498 | after update|start and n counted records, update|end|n makes the updated table active and the previous one old, while any other count discards the update and keeps the active table |
| RtGeneric.CommentIgnored | src/rmr/common/src/rt_generic_static.c:370-371 | a record whose first field starts with '#' changes nothing |
| RtGeneric.ClassifyFields | src/rmr/common/src/rt_generic_static.c:366 | a record written as '|'-joined fields is classified by those fields |
| RtGeneric.ClipPlain | src/rmr/common/src/rt_generic_static.c:133-154 | a field without whitespace or '#' clips to itself |
| RtGeneric.NewEndRecord | src/rmr/common/src/rt_generic_static.c:388-389 | "newrt|end" is the end of a complete table |
| RtGeneric.UpdateEndRecord | src/rmr/common/src/rt_generic_static.c:451-457 | "update|end|3" ends an update that expects three records |
| RtGeneric.MseRecord7 | src/rmr/common/src/rt_generic_static.c:432 | "mse|2|7|x:1" is an entry for type field "2", sub-id 7 and group "x:1" |
| RtGeneric.RteRecordUnset | src/rmr/common/src/rt_generic_static.c:445 | "rte|1|a:1;b:2" is an entry with sub-id UNSET_SUBID |
| RouteTable.BuildRtKey | src/rmr/common/src/rt_generic_static.c:879-889 | the key is a 64-bit value whose high half is the sub-id's low 32 bits and whose low half is the type's low 32 bits, in both branches |
| RouteTable.ShiftedBits | src/rmr/common/src/rt_generic_static.c:885 | widening a sub-id and shifting it left 32 keeps only its low 32 bits |
| RouteTable.KeyInjective | src/rmr/common/src/rt_generic_static.c:879-889 | distinct sub-id and type pairs give distinct keys |
| RouteTable.UnsetKeyHighHalf | src/rmr/common/src/rt_generic_static.c:882-883 | a key built without a sub-id has all ones in its high half and the type in its low half |
| RouteTable.ReleaseAll | src/rmr/common/src/rt_generic_static.c:593-617 | releasing a set of entries takes one reference from each and frees exactly those whose count reaches zero; every other entry is unchanged |
| RouteTable.RetainAll | src/rmr/common/src/rt_generic_static.c:802-804 | the clone bump gives each entry of the set one more reference and changes nothing else |
| RouteTable.ReleaseOneMore | src/rmr/common/src/rt_generic_static.c:593-617 | releasing entries one at a time is releasing the set |
| RouteTable.ReleaseKeeps | src/rmr/common/src/rt_generic_static.c:593-617 | an entry not released is still live |
| RouteTable.RetainOneMore | src/rmr/common/src/rt_generic_static.c:802-804 | retaining entries one at a time is retaining the set |
| RouteTable.CloneKeepsCounts | src/rmr/common/src/rt_generic_static.c:754-815 | cloning every entry of the active table into a new table with the bump keeps reference counts exact (each count equals the number of tables holding the entry) |
| RouteTable.Routes.constructor | src/rmr/common/src/rt_generic_static.c:683-696 | a context starts with no tables and no entries, counts trivially exact |
| RouteTable.Drop | src/rmr/common/src/rt_generic_static.c:832-840 | dropping a table releases every entry it references once and changes no table |
| RouteTable.ReleaseEach | src/rmr/common/src/rt_generic_static.c:837 | the foreach loop of the drop releases exactly the given entries |
| RouteTable.DelRte | src/rmr/common/src/rt_generic_static.c:593-617 | del_rte takes one reference and frees the entry when none remains |
| RouteTable.CloneAll | src/rmr/common/src/rt_generic_static.c:754-815 | a full clone has the same entries and endpoints with an update count of 0, and every entry it references gains one reference; a nil table clones to nil |
| RouteTable.RetainEach | src/rmr/common/src/rt_generic_static.c:800-805 | the clone loop bumps exactly the given entries |
| RouteTable.AddRef | src/rmr/common/src/rt_generic_static.c:803 | one reference more on one entry |
| RouteTable.ValuesAfterSet | src/rmr/common/src/symtab.c:378-383 | after mapping a key to an entry, the entries referenced are the old ones less the key's previous one, plus the new one |
| RouteTable.ValuesAfterRemove | src/rmr/common/src/symtab.c:311-313 | after unmapping a key, its entry is no longer referenced and the rest still are |
| RouteTable.AddEntryKeepsCounts | src/rmr/common/src/rt_generic_static.c:208-227 | filing a fresh entry with one reference under a key, after releasing the entry it held, keeps the counts exact |
| RouteTable.AddRte | src/rmr/common/src/rt_generic_static.c:195-231 | nothing without a table in progress; otherwise a fresh entry with refs 1 and nrrgroups empty slots (10 when nrrgroups <= 0) is filed under the key, the previous entry under that key is released, and the counts stay exact |
| RouteTable.DropEntry | src/rmr/common/src/rt_generic_static.c:316-322 | the key leaves the table in progress and its entry loses that reference; an absent key changes nothing |
| RouteTable.RemoveEntryKeepsCounts | src/rmr/common/src/rt_generic_static.c:316-322 | unfiling one key and releasing its entry keeps the counts exact |
| RouteTable.RemoveKeepsOthers | src/rmr/common/src/rt_generic_static.c:316-322 | the active and old tables still find all their entries after one key of the new table goes |
| RouteTable.OtherTableKept | src/rmr/common/src/rt_generic_static.c:598-600 | a table whose entries are not the last reference to an entry survives its release |
| RouteTable.ReleaseTable | src/rmr/common/src/rt_generic_static.c:832-840 | dropping one of the three tables keeps the counts of the other two exact |
| RouteTable.TableSurvives | src/rmr/common/src/rt_generic_static.c:832-840 | the tables that are not dropped still find every entry |
| RouteTable.Rotate | src/rmr/common/src/rt_generic_static.c:389-394 | the table in progress becomes active, the active one old, and the old one is dropped, counts exact |
| RouteTable.Abandon | src/rmr/common/src/rt_generic_static.c:457-462 | the table in progress is dropped and nothing replaces it |
| RouteTable.StartNew | src/rmr/common/src/rt_generic_static.c:407-417 | any table in progress is dropped and a new one starts with only the active table's endpoints |
| RouteTable.StartUpdate | src/rmr/common/src/rt_generic_static.c:483-495 | any table in progress is dropped and a new one starts as a full clone of the active table with the count at 0, every active entry gaining a reference |
| RouteTable.CountUpdate | src/rmr/common/src/rt_generic_static.c:384 | the table in progress counts one more record |
| RouteTable.RotatedActivates | src/rmr/common/src/rt_generic_static.c:389-394 | after a rotation the finished table is active and the replaced one old, counts stay exact, and only entries that the dropped old table alone held are freed |
| RtableSi.AddToSlot | src/rmr/si/src/rtable_si_static.c:173-208 | a nil slot becomes an empty group with index 0; the name is appended at the end only when it is not empty and the group holds fewer than MAX_EP_GROUP endpoints, and the rotation index is kept |
| RtableSi.AddEp | src/rmr/si/src/rtable_si_static.c:159-211 | without a table or an entry, or with the group out of range, nothing changes and nil is returned; otherwise the name is recorded among the table's endpoints, the entry's slot becomes AddToSlot of it, the endpoint is returned exactly when it was appended, and the route tables stay well formed |
| RtableSi.AddToSlotAsWrittenAgrees | src/rmr/si/src/rtable_si_static.c:196-206 | for a non-empty name the endpoint pointers as written are exactly the endpoints AddToSlot gives |
| RtableSi.EmptyNameAddsNilAsWritten | src/rmr/si/src/rtable_si_static.c:196-206 | with room in the group, an empty name as written leaves a nil endpoint in it, where AddToSlot leaves the group unchanged |
| RtableSi.RrVisitsEveryEndpoint | src/rmr/si/src/rtable_si_static.c:358 | from any rotation index, every endpoint of a group is picked within nused calls |
| RtableSi.RrPicksDistinct | src/rmr/si/src/rtable_si_static.c:358 | nused successive picks are pairwise different |
| RtableSi.RrRepeatsAtWrap | src/rmr/si/src/rtable_si_static.c:358 | where the 16-bit index wraps, a three-endpoint group gets endpoint 0 twice in a row |
| RtableSi.EpsockRr | src/rmr/si/src/rtable_si_static.c:299-390 | without a socket pointer, an entry, an in-range group or a group, the result is 0 and more is false; otherwise more says whether the next slot is in use, an empty group gives 0, a single endpoint gives 1, several give the picked index plus one and advance the index; the result drops to 0 when the chosen endpoint is neither open nor connectable |
| RtableSi.GetRte | src/rmr/si/src/rtable_si_static.c:460-479 | whatever is found is an entry of the table |
| RtableSi.GetRteRoutesOwnType | src/rmr/si/src/rtable_si_static.c:460-479 | the entry found routes the message's own type, under its own sub-id or, only with the fallback allowed and a sub-id set, under no sub-id |
| RtableSi.GetRtePrefersFullKey | src/rmr/si/src/rtable_si_static.c:468-470 | when the full key is present its entry is returned whether or not the fallback is allowed |
| RtableSi.GetRteFallback | src/rmr/si/src/rtable_si_static.c:468-476 | with the full key missing, nothing is found without the fallback, and with it the type-only entry if there is one |
| RtableSi.GetRteUnsetIgnoresFallback | src/rmr/si/src/rtable_si_static.c:473-476 | a message without a sub-id finds the same entry whether or not the fallback is allowed |
| RtableSi.FdKey | src/rmr/si/src/rtable_si_static.c:543 | casting a descriptor to uint64_t keeps a non-negative one and stays below 2^64 |
| RtableSi.FdKeyInjective | src/rmr/si/src/rtable_si_static.c:543 | distinct descriptors get distinct keys |
| RtableSi.Fd2EpAdd | src/rmr/si/src/rtable_si_static.c:539-547 | the descriptor maps to the endpoint afterwards and no other key changes; without a map nothing happens |
| RtableSi.Fd2EpGet | src/rmr/si/src/rtable_si_static.c:577-589 | the endpoint the descriptor mapped to, or nil; the descriptor's entry keeps its value with its reference count one higher (as rmr_sym_pull does), and every other entry is unchanged |
| RtableSi.Fd2EpDel | src/rmr/si/src/rtable_si_static.c:556-571 | the endpoint the descriptor mapped to, or nil; the mapping is gone afterwards and no other key changes |
| Wormholes.FirstIndex | src/rmr/common/src/wormholes.c:216-230 | the index returned holds the slot sought and no earlier slot does, or it is the table length when no slot does |
| Wormholes.FirstIndexIs | src/rmr/common/src/wormholes.c:216-230 | any index with those two properties is FirstIndex |
| Wormholes.Prepared | src/rmr/common/src/wormholes.c:103-126 | after wh_init the manager exists; a table never set up gets WH_GROW nil slots and an existing one is left alone |
| Wormholes.StateOf | src/rmr/common/src/wormholes.c:338-365 | the state is one of OK, BADARG, NOWHOPEN, WHID and NOENDPT |
| Wormholes.Closed | src/rmr/common/src/wormholes.c:304-325 | closing keeps the table's readiness, its open sessions and its length |
| Wormholes.WhCtx.constructor | src/rmr/common/src/wormholes.c:202 | a context starts with no wormhole manager |
| Wormholes.WhInit | src/rmr/common/src/wormholes.c:94-127 | a nil context fails; otherwise the state becomes Prepared of the old one, a fresh slot array is allocated only when none existed |
| Wormholes.WhExtend | src/rmr/common/src/wormholes.c:133-153 | the slot array is replaced by a fresh one holding the old slots followed by WH_GROW nil slots |
| Wormholes.WhOpen | src/rmr/common/src/wormholes.c:184-245 | a nil context, a missing target or an empty one gives -1 and changes nothing; otherwise the id and the new table are those of Opened |
| Wormholes.Scan | src/rmr/common/src/wormholes.c:216-230 | the open loop leaves the id Chosen names: the target's slot, else the first nil slot, else the table length |
| Wormholes.ChosenIs | src/rmr/common/src/wormholes.c:216-230 | the state in which the loop exits determines Chosen |
| Wormholes.WhClose | src/rmr/common/src/wormholes.c:304-325 | the state becomes Closed of the old one; a nil context changes nothing |
| Wormholes.WhState | src/rmr/common/src/wormholes.c:338-365 | the result is StateOf the context's table |
| Wormholes.WhSendChecks | src/rmr/common/src/wormholes.c:253-298 | a nil message is refused; otherwise the state is BADARG for a nil context, NOWHOPEN before any open, WHID for an id naming no slot, NOHDR for a missing header, and otherwise OK with only the call id in d1 set to NO_CALL_ID and the message sent; a refused message keeps its header, and payload and length never change; the wormhole table changes only when the slot's session is closed, and then as rmr_wh_open opens that endpoint (an empty name changes nothing) |
| Wormholes.OpenedHolds | src/rmr/common/src/wormholes.c:216-244 | an open that succeeds leaves the target in the slot it returns, with its session open |
| Wormholes.OpenTwiceSameId | src/rmr/common/src/wormholes.c:222-225 | opening a target already open returns the same id and leaves the table unchanged |
| Wormholes.FirstOf | src/rmr/common/src/wormholes.c:222 | in a table without duplicates the slot holding an endpoint is the first one |
| Wormholes.OpenedKeepsNoDup | src/rmr/common/src/wormholes.c:216-243 | opening never files an endpoint in a second slot |
| Wormholes.OpenReusesFirstNil | src/rmr/common/src/wormholes.c:216-236 | a target not yet in the table takes the first nil slot, or the first new slot when there is none |
| Wormholes.CloseThenState | src/rmr/common/src/wormholes.c:320-324 | a closed id reports WHID afterwards and every other id keeps its state |
| MtCallSi.PrefixValue | src/rmr/si/src/mt_call_si_static.c:169 | the size field read as a host int lies in the signed 32-bit range |
| MtCallSi.SizeFieldRoundTrip | src/rmr/si/src/mt_call_si_static.c:169-177 | the size a sender writes for a message of n bytes reads back as n |
| MtCallSi.StepOk | src/rmr/si/src/mt_call_si_static.c:149-212 | one byte keeps the river well formed and its accumulator size unchanged |
| MtCallSi.FeedAllOk | src/rmr/si/src/mt_call_si_static.c:149-212 | any run of bytes keeps the river well formed and its accumulator size unchanged |
| MtCallSi.FeedConcat | src/rmr/si/src/mt_call_si_static.c:149-212 | feeding two runs in turn gives the state and the messages, in order, of feeding their concatenation, so the way the transport splits the stream does not matter |
| MtCallSi.PrefixPart | src/rmr/si/src/mt_call_si_static.c:156-162 | part of a size field is kept and completes nothing |
| MtCallSi.PrefixDone | src/rmr/si/src/mt_call_si_static.c:164-183 | the rest of a size field sets the size, and the drop flag when the message does not fit; a size below the field's own length is a skipped four-byte message (the corrected treatment, see Findings) |
| MtCallSi.BodyPart | src/rmr/si/src/mt_call_si_static.c:186-192 | part of a body is counted and, unless skipped, kept; nothing completes |
| MtCallSi.BodyDone | src/rmr/si/src/mt_call_si_static.c:193-210 | the last bytes of a body complete the message: it is handed on, or reported once when skipped, and the river waits for a size field |
| MtCallSi.River.constructor | src/rmr/si/src/mt_call_si_static.c:133-134 | a river starts new |
| MtCallSi.River.Finish | src/rmr/si/src/mt_call_si_static.c:196-208 | the end-of-message step: the message goes out unless skipped, a skip is reported once, and the river is reset for the next size field |
| MtCallSi.River.TakePrefix | src/rmr/si/src/mt_call_si_static.c:153-184 | consumes at least one byte and leaves the river as feeding those bytes one at a time would, including the corrected treatment of sizes below four |
| MtCallSi.River.TakeBody | src/rmr/si/src/mt_call_si_static.c:186-211 | consumes at least one byte and leaves the river as feeding those bytes one at a time would |
| MtCallSi.River.Start | src/rmr/si/src/mt_call_si_static.c:133-147 | a new river gets an accumulator of max_ibm plus 1024 bytes, an interrupted one restarts its message, and the river is receiving afterwards |
| MtCallSi.River.DataCb | src/rmr/si/src/mt_call_si_static.c:108-216 | an empty buffer changes nothing; otherwise every byte is consumed and the river and the messages completed are those of feeding the bytes one at a time, with the corrected handling of the drop flag and of sizes below four |
| MtCallSi.Fitting | src/rmr/si/src/mt_call_si_static.c:181-183 | only messages of the stream that fit the accumulator are kept, no more of them than were sent |
| MtCallSi.OneMessage | src/rmr/si/src/mt_call_si_static.c:149-212 | one framed message on an idle river comes out whole when it fits and is skipped otherwise; the river is idle again |
| MtCallSi.DeliversFraming | src/rmr/si/src/mt_call_si_static.c:149-212 | a stream of framed messages delivers exactly the ones that fit, in order, and leaves the river idle |
| MtCallSi.DeliveredFit | src/rmr/si/src/mt_call_si_static.c:181-198 | every message handed on holds at least its size field and fits the accumulator |
| MtCallSi.AsWrittenTurn | src/rmr/si/src/mt_call_si_static.c:149-211 | one turn of the loop as written never moves the buffer index backwards or past the end |
| MtCallSi.StickyDropAsWritten | src/rmr/si/src/mt_call_si_static.c:181-183 | as written, after a nine-byte message on an eight-byte river, a following five-byte message is skipped too |
| MtCallSi.StickyDropCorrected | src/rmr/si/src/mt_call_si_static.c:181-183 | with the drop flag cleared per message, the five-byte message is delivered |
| MtCallSi.ZeroSizeStallsAsWritten | src/rmr/si/src/mt_call_si_static.c:177-209 | as written, a zero size field hands on an empty message, consumes nothing and leaves the river unchanged, so the loop never ends |
| MtCallSi.ZeroSizeCorrected | src/rmr/si/src/mt_call_si_static.c:177-209 | the corrected reassembly consumes a zero size field as a skipped, reported message and is idle again |
| MtCallSi.SmallSizeFragmentAsWritten | src/rmr/si/src/mt_call_si_static.c:177-209 | as written, a size field of 2 at the start of a buffer hands on the two-byte fragment [2, 0] cut from the field itself and resumes reading inside the old field |
| MtCallSi.NegativeNeedAsWritten | src/rmr/si/src/mt_call_si_static.c:164-197 | as written, a negative size field, or a size of 2 whose field was split across buffers, leaves the copy length negative, so the turn has no defined result |
| MtCallSi.ShortSizeCorrected | src/rmr/si/src/mt_call_si_static.c:164-211 | the corrected reassembly consumes every size field below four (zero, 1 to 3, negative) as a skipped, reported message and is idle again with nothing handed on |
| MtCallSi.RouteOf | src/rmr/si/src/mt_call_si_static.c:77-91 | a message goes to a chute only when it is not call-generated, has d1 data and a non-zero call id, and then to the chute that id names |
| MtCallSi.WormholeMessagesGoNormal | src/rmr/si/src/mt_call_si_static.c:84-85 | a message whose call id was blanked goes to the ring |
| MtCallSi.CallIdSelectsChute | src/rmr/si/src/mt_call_si_static.c:84-89 | a message naming a call that is not call-generated goes to that call's chute |
| MtCallSi.QueueNormal | src/rmr/si/src/mt_call_si_static.c:34-50 | the message is appended to the ring exactly when the ring has room; otherwise it is dropped and the ring is unchanged |
| MtCallSi.Deliver | src/rmr/si/src/mt_call_si_static.c:58-94 | a ring-bound message is queued as QueueNormal does and the chutes are untouched; a chute-bound one replaces what its chute held and the ring is untouched |
| MtCallSi.MtDiscCb | src/rmr/si/src/mt_call_si_static.c:226-241 | the descriptor's mapping is removed and its endpoint marked not open; nothing else changes, and an unknown descriptor changes nothing |
| NngMsg.XlateNngState | src/rmr/nng/src/sr_nng_static.c:46-96 | success gives RMR_OK with errno cleared, and only success clears errno; EAGAIN and ETIMEDOUT give RETRY with errno EAGAIN; every other error gives the caller's default state |
| NngMsg.XlateDistinguishes | src/rmr/nng/src/sr_nng_static.c:46-96 | with a default that is neither OK nor RETRY, the state tells success, soft errors and hard errors apart, in both directions |
| NngMsg.NewHeader | src/rmr/nng/src/sr_nng_static.c:139-157 | the header of a new buffer is well formed |
| NngMsg.AllocZcmsg | src/rmr/nng/src/sr_nng_static.c:111-162 | a reused message is the one passed and a new one is fresh; either way the message is AllocView of the context, the reused size, the requested size and the trace override |
| NngMsg.AllocResets | src/rmr/nng/src/sr_nng_static.c:111-162 | a reused buffer keeps its size, and every buffer comes back empty, with type and sub-id unset, in state OK, marked zero-copy and of the current version |
| NngMsg.AllocPayloadFits | src/rmr/nng/src/sr_nng_static.c:116-129 | a new buffer with the context's trace length is laid out exactly, and its payload area holds the requested size (or the context's maximum) plus the d2 allowance |
| NngMsg.RefTpbuf | src/rmr/nng/src/sr_nng_static.c:209-259 | the message becomes RefView of the received buffer |
| NngMsg.RefNeverOverruns | src/rmr/nng/src/sr_nng_static.c:253-258 | when the buffer is the header and the body, the length never runs past the body; TRUNC is reported exactly when the sender claimed more than arrived, and otherwise the sender's length stands |
| NngMsg.CopiedPayload | src/rmr/nng/src/sr_nng_static.c:308 | corrected clone: the copy's payload area has the original's size and its first len bytes, and nothing of the original beyond them |
| NngMsg.CloneMsg | src/rmr/nng/src/sr_nng_static.c:264-311 | a fresh message that is CloneView of the original: the corrected clone, without the version 1 self-copy and without the trace, d1 and d2 bytes the header copy spills into the payload area |
| NngMsg.CloneCopies | src/rmr/nng/src/sr_nng_static.c:264-311 | a corrected clone keeps the layout, the header, type, sub-id, length, size, state and payload bytes, and the original's flags when those already said zero-copy |
| NngMsg.ReallocMsg | src/rmr/nng/src/sr_nng_static.c:319-380 | a fresh message that is ReallocView of the original with the new trace length |
| NngMsg.ReallocKeepsPayload | src/rmr/nng/src/sr_nng_static.c:319-380 | only the trace area changes size, and the buffer by the same amount; the payload area, its bytes, d1, d2, the transaction id, type and state are kept |
| NngMsg.ReallocSameTraceIsClone | src/rmr/nng/src/sr_nng_static.c:319-380 | re-allocating with the trace length a message already has (and an unwritten trace) gives its corrected clone; realloc_msg copies only the fixed header, then d1 and d2, so it has no spill |
| NngMsg.V1CloneLosesContentAsWritten | src/rmr/nng/src/sr_nng_static.c:285-290 | as written, the clone of a one-byte version 1 message carries neither its header version nor its byte |
| NngMsg.CloneKeepsContentAllVersions | src/rmr/nng/src/sr_nng_static.c:285-308 | corrected, a clone of any version carries the header and the payload's first len bytes, and is zero beyond them; the source builds the same buffer only for a header of version 2 or later whose trace, d1 and d2 lengths together are at most len |
| NngMsg.CloneSpillsAsWritten | src/rmr/nng/src/sr_nng_static.c:291-308 | as written, for a header of version 2 or later: the copy is undefined exactly when trace, d1 and d2 together are longer than the payload area; otherwise the header and the first len bytes are kept, and every byte from len up to that length is the original's where the corrected clone has 0 |
| NngMsg.CloneSpillExampleAsWritten | src/rmr/nng/src/sr_nng_static.c:291-308 | as written, an empty version 3 message with four bytes of d1 and a payload area of eight 9s is cloned with four 9s at the front of its payload, where the corrected clone has zeros; with a payload area of two bytes the copy overruns |
| NngMsg.MtosendRoute | src/rmr/nng/src/sr_nng_static.c:616-693 | a nil context or message gives BADARG and a missing header NOHDR, with nothing sent; otherwise the sends are those of Route from the full key, with the type-only key allowed when a sub-id is set, and the state is OK, or NOENDPT when a group had no endpoint |
| NngMsg.RouteKeys | src/rmr/nng/src/sr_nng_static.c:651-666 | every send uses the full or the type-only key, the switch happens at most once, and never without a sub-id |
| NngMsg.RouteAllGroups | src/rmr/nng/src/sr_nng_static.c:655-690 | when every group of the full key has an endpoint, one send goes to each group in order under that key |
| NngMsg.RouteUnrouted | src/rmr/nng/src/sr_nng_static.c:660-670 | with neither key routed nothing is sent and the message ends with NOENDPT |
| NngMsg.RouteFallsBack | src/rmr/nng/src/sr_nng_static.c:660-665 | a message whose full key is unrouted is routed as the type-only key would be |

## Left out

- Transports: the SI95 socket layer, NNG and nanomsg sockets and dialers, connecting, sending and receiving on the wire. What the transport delivers or hands back is an input of the model: a sequence of arrivals, a returned buffer, a flag saying whether a lookup or connection succeeded.
- Concurrency: threads, locks, semaphores, the ring's eventfd and mutex options, and the blocking paths of rmr_mt_rcv and rmr_mt_call. The model is sequential.
- Clocks and randomness: receive timeouts are counts of attempts, and the uuid of the Python transaction-id helper is a parameter.
- Memory allocation failure: every allocation succeeds, and bytes an allocation has not written read as zero. free is modelled only where its count matters (the drain's probe buffer).
- Byte order: header fields are held as numbers. The wire byte order of the length fields is not modelled.
- Start-up (init in rmr_si.c, the route-table collector threads, host lookup, static route-table file reading), logging, alarms, the superseded copies of the library under src/common, src/nng and src/nanomsg, and the ctypes calls of the Python binding.
- RouteTable.StartNew: a table begun by newrt|start has its update counter set to 0. The source's uta_rt_init leaves that counter as malloc found it; only update|start sets it.
- RtableSi.EpsockRr: models the choice of the endpoint and the more flag. Opening the connection and the per-endpoint send counters are left out.
- Wormholes: wh_can_open is taken to allow every target. The clean-up function wh_nuke is left out.
- RtableSi.Fd2EpDel: removes the mapping only. The endpoint's open flag is cleared by the disconnect callback (MtCallSi.MtDiscCb), as in the source.
- NngMsg.XlateNngState: the contract states the RMR state for every NNG error but not the errno set for each hard error. The NNG error numbers are the ones the model declares, since the NNG headers are not part of this model.
- RMR_ERR_NOTSUPP, RMRFL_MTCALL and the RMR_VOID_* constants come from a newer rmr.h than the one modelled. Wrapper.GetConsts therefore takes its table of constants as a parameter.
- Wrapper.BangOn: the free of the source string is not modelled; the function's result and the buffer are.
- RmrSi.RcvSpecific: a call without an expected transaction id is a plain blocking receive. It is reported as `Delegated`, and that receive is outside the model.
- RmrSi.RtsMsg: requires the sender name and address fields to hold NUL-terminated strings, which the header layout guarantees for buffers the library builds.
- NngMsg.AllocZcmsg, NngMsg.CloneMsg, NngMsg.ReallocMsg: require the length and allocation fields of a buffer to be consistent, as every buffer the library builds is.
- PyRmr.Binding.GetMappingDict: requires the constant table's names to be distinct, as the keys of the JSON object the library returns are.
- PyRmr: the summary's tuple and list conversions and ctypes string decoding are not modelled. Strings are sequences of characters.
- Stretch.RcvallMsgs: each receive is represented by the summary it produces. A filter given as a tuple is treated like a list.
- RtGeneric.Classify: a newrt or update record with one field, and an rte record with fewer than three fields, make parse_rt_rec read token slots that uta_tokenise did not set (rt_generic_static.c:388, :436-446, :450), which is undefined behaviour. The model chooses outcomes for them instead of modelling that behaviour: the one-field newrt and update records are ignored, and the short rte record counts one update and builds no entry.
- RtGeneric.Kind: gives the same chosen outcomes for those short records (`Ignored` for one-field newrt and update records, `CountOnly` for an rte record with fewer than three fields).
- MtCallSi.Sized: a size field below four bytes (zero, 1 to 3, or negative) is treated as a skipped message that ends with its size field. This is the corrected behaviour listed under Findings. The code as written is modelled only by AsWrittenTurn and its lemmas.
- MtCallSi.PrefixDone: states the corrected treatment of sizes below four, not the fragment or negative copy of the code as written.
- MtCallSi.River.TakePrefix: follows the corrected treatment of sizes below four, as Step does.
- MtCallSi.River.DataCb: is proved equal to the corrected byte-by-byte reassembly. It does not model the code as written for sizes below four or for the sticky drop flag; those are under Findings.
- Symtab.HashAcc: names are strings with one character per byte, each character reduced to a signed byte. sym_hash walks the UTF-8 bytes of a name, so a name with non-ASCII characters hashes to a different bucket in the source than in the model.
- Symtab: the doubly linked chains are sequences per bucket, so node aliasing and the back links are not modelled. rmr_sym_stats, the dump helpers, rmr_sym_clear and rmr_sym_free are left out.
- NngMsg.CloneMsg: builds the corrected clone. It does not model the version 1 self-copy (sr_nng_static.c:285-290) or the trace, d1 and d2 bytes the header copy spills into the payload area and beyond (sr_nng_static.c:294); those are modelled only by CloneBufferAsWritten and its lemmas under Findings.
- NngMsg.CloneView: the corrected clone, as CloneMsg builds it; see the line above.
- NngMsg.CopiedPayload: is the corrected clone's payload. As written, bytes from len up to the trace, d1 and d2 length are the original's, not zero.
- NngMsg.CloneCopies: states the layout and fields of the corrected clone, not of the buffer clone_msg builds as written.
- NngMsg.ReallocSameTraceIsClone: relates realloc_msg to the corrected clone. realloc_msg itself has no spill, so the two differ for the code as written whenever the clone spills.
- NngMsg.CloneKeepsContentAllVersions: its equality with the code as written is promised only for headers of version 2 or later whose trace, d1 and d2 lengths are at most len; the other cases are those of CloneSpillsAsWritten and V1CloneLosesContentAsWritten.
- NngMsg.ReallocMsg: models realloc_msg for headers of version 2 or later. For a version 1 header it has the same self-copy as clone_msg (sr_nng_static.c:345-348), which is not modelled.
- Symtab.SymTab.Find: a numeric key matches only an element stored under that numeric key. This is the corrected behaviour listed under Findings (symtab.c:153-155). As written, a numeric lookup stops at the first element in the chain with that numeric key, and a string entry carries numeric key 0.
- Symtab.SymTab.Putin: follows the corrected numeric match of Find. As written, mapping numeric key 0 can update a string entry that sits in bucket 0.
- Symtab.SymTab.Map: follows the corrected numeric match of Find, as Putin does.
- Symtab.SymTab.Get: follows the corrected numeric match of Find. As written, rmr_sym_pull of key 0 can return a string entry's value (symtab.c:336).
- Symtab.SymTab.Del: follows the corrected numeric match of Find. As written, rmr_sym_ndel of key 0 can remove a string entry (symtab.c:302).
- RtableSi.AddEp: an empty endpoint name adds nothing. This is the corrected behaviour listed under Findings (rtable_si_static.c:196-206). As written, a nil endpoint is appended to the group.
- RtGeneric.FillSlotHolds: a group holds only the non-empty names of its tokens, the corrected behaviour. As written, an empty token (as in "a;;b") appends a nil endpoint to the group.
- RtGeneric.AddToken: an empty token adds nothing to its group, the corrected behaviour; see FillSlotHolds.
- RtGeneric.BuildEntry: builds groups without the nil endpoints of empty tokens, the corrected behaviour; see FillSlotHolds.
- RtGeneric.FillGroups: fills slots without the nil endpoints of empty tokens, the corrected behaviour; see FillSlotHolds.
- RtGeneric.AddGroup: one group without the nil endpoints of empty tokens, the corrected behaviour; see FillSlotHolds.
- MtCallSi.River.Finish: clears the drop flag at the end of every message. This is the corrected behaviour listed under Findings; as written RF_DROP is never cleared (mt_call_si_static.c:206-207), and that is modelled only by StickyDropAsWritten.
- MtCallSi.River.TakeBody: follows the corrected, per-message drop flag, as Finish does.
- MtCallSi.OneMessage: holds for the corrected reassembly only. As written, an oversized message leaves the drop flag set, so the river is not idle afterwards.
- MtCallSi.DeliversFraming: holds for the corrected reassembly only. As written, the sticky drop flag also skips every message after an oversized one (StickyDropAsWritten).
- MtCallSi.DeliveredFit: holds for the corrected reassembly only. As written, a size field of 1 to 3 hands on a fragment shorter than the size field (SmallSizeFragmentAsWritten).
- MbufApi.BytesToPayload: clamps at the payload size, the corrected behaviour under Findings (mbuf_api.c:113-122). As written, requests up to alloc_len less the fixed header length pass with state OK, and the copy runs past the payload area.
- MbufApi.StrToPayload: inherits the corrected clamp of BytesToPayload. As written, a string and its NUL longer than the payload area but within that bound are reported OK and copied past the area.
- PyRmr.SetPayloadAndLength: the bytes that set_payload_and_length writes past the payload area (rmr.py:434) go to memory the model does not hold; the model keeps only the area's contents and the length.
- RouteTable.AddRte: a table keeps its route entries in a map and its endpoint names in a separate set. The source files both in the one rt->hash: route entries under numeric keys (rt_generic_static.c:227, :804) and endpoints as class 1 strings with numeric key 0 (:742, :809, :868). With the numeric match of symtab.c:153-155, the key 0 route (type 0, sub-id 0) pulled at :223 can find an endpoint whose name hashes to bucket 0, and rmr_sym_map at :227 then overwrites that endpoint. The model does not have that collision.
- RouteTable.DropEntry: keeps the entries and endpoint names apart, as AddRte does; as written the pull at rt_generic_static.c:316 for key 0 can find an endpoint instead.
- RtableSi.GetRte: looks up route entries only; as written the pulls at rtable_si_static.c:469 and :475 for key 0 can return an endpoint from the shared rt->hash.
- RtGeneric.TrashEntry: keeps the entries and endpoint names apart, as AddRte does; see DropEntry.
- RtGeneric.BuildEntry: files the new entry in the map of route entries only; see AddRte.

## Findings

| source | as written | input that shows it | evidently intended | confidence | as-written member | corrected member |
|---|---|---|---|---|---|---|
| src/rmr/common/src/symtab.c:153-155 | a numeric lookup matches an element by its numeric key alone, and string entries carry numeric key 0 | table of 11 buckets holding the string "M" in class 1; lookup of numeric key 0 | a numeric key matches only numeric (class 0) entries | not executed | Symtab.NumericKeyZeroFindsStringEntry | Symtab.Lookup |
| src/rmr/si/src/mt_call_si_static.c:181-183 | the drop flag set for an oversized message is never cleared | river of 8 bytes; a 9-byte message followed by a 5-byte message | only the oversized message is dropped | not executed | MtCallSi.StickyDropAsWritten | MtCallSi.StickyDropCorrected |
| src/rmr/si/src/mt_call_si_static.c:177-209 | a size field of 0 hands on an empty message and consumes nothing | four zero bytes on a river | the message is consumed and the loop makes progress | not executed | MtCallSi.ZeroSizeStallsAsWritten | MtCallSi.ZeroSizeCorrected |
| src/rmr/si/src/mt_call_si_static.c:177-209 | a size field of 1 to 3 is used as it stands: a fragment of that many bytes of the size field is handed on as a message, and the next size is read from inside the old field | an idle river receiving the bytes 2, 0, 0, 0 | a size below the field's own length is skipped and nothing is handed on | not executed | MtCallSi.SmallSizeFragmentAsWritten | MtCallSi.ShortSizeCorrected |
| src/rmr/si/src/mt_call_si_static.c:164-197 | a negative size, or a size below four whose field was split across two buffers, makes `need` negative, and memcpy is handed that length | an idle river receiving 255, 255, 255, 255; or 2, 0 then 0, 0 | such a size is skipped like any other size below four | not executed | MtCallSi.NegativeNeedAsWritten | MtCallSi.ShortSizeCorrected |
| src/rmr/common/src/mbuf_api.c:113-122 | the copy is clamped to alloc_len minus the fixed header length, leaving out the trace and d1 areas | 100-byte payload in a 384-byte allocation with a 4-byte d1 area; 104-byte copy | the copy is clamped to the payload's capacity | not executed | MbufApi.AsWrittenCopyOverrunsPayload | MbufApi.PayloadClamp |
| src/rmr/common/src/rt_generic_static.c:169-174 | a one-character buffer is overwritten by the newline | buffer "x" | "x\n" | not executed | RtGeneric.NltermAsWrittenDropsChar | RtGeneric.EnsureNltermTerminates |
| src/rmr/nng/src/sr_nng_static.c:285-290 | a version 1 clone copies neither the header nor the payload | one-byte version 1 message | the clone carries header and payload as for other versions | not executed | NngMsg.V1CloneLosesContentAsWritten | NngMsg.CloneKeepsContentAllVersions |
| src/rmr/nng/src/sr_nng_static.c:294 | the header copy adds the trace, d1 and d2 lengths to RMR_HDR_LEN, which already counts them, so that many bytes of the original's payload area land in the clone's payload area, and past both buffers when the payload area is shorter | empty version 3 message with four bytes of d1 and eight payload bytes 9 | the clone's payload area holds only the first len bytes | not executed | NngMsg.CloneSpillExampleAsWritten | NngMsg.CloneKeepsContentAllVersions |
| src/rmr/si/src/rtable_si_static.c:196-206 | an empty endpoint name appends a nil endpoint to the group, which the round-robin choice then dereferences | group with room; name "" | nothing is appended for an empty name | not executed | RtableSi.EmptyNameAddsNilAsWritten | RtableSi.AddToSlot |
| src/bindings/rmr-python/rmr/stretch.py:51-52 | the function starts by calling _get_constants, which the module neither defines nor imports | any call, e.g. with one message waiting | the drain runs | not executed | Stretch.RcvallAsWrittenRaises | Stretch.RcvallMsgs |
| src/bindings/rmr-python/rmr/stretch.py:64-65 | the status is read from the summary by key, but a malformed summary is a string | a waiting message longer than RMR_MAX_RCV_BYTES | the drain stops at a summary that is not "RMR_OK" | not executed | Stretch.MalformedRaisesAsWritten | Stretch.RcvallMsgs |

=== FILE: common.dfy ===
/*
  Shared vocabulary of the RMR model: the public status codes of rmr.h,
  the fixed field widths of the message header, and small helper types.
*/
module Common {

  /** An optional value; `None` stands for the C nil pointer. */
  datatype Option<T> = None | Some(value: T)

  /** An unsigned 8-bit value, as stored in header fields and payloads. */
  newtype byte = x: int | 0 <= x < 256

  // Field widths reserved in the message header.
  const RMR_MAX_XID: int := 32
  const RMR_MAX_SID: int := 32
  const RMR_MAX_MEID: int := 32
  const RMR_MAX_SRC: int := 64
  const RMR_MAX_RCV_BYTES: int := 4096

  // Message states (the `state` field of an mbuf).
  const RMR_OK: int := 0
  const RMR_ERR_BADARG: int := 1
  const RMR_ERR_NOENDPT: int := 2
  const RMR_ERR_EMPTY: int := 3
  const RMR_ERR_NOHDR: int := 4
  const RMR_ERR_SENDFAILED: int := 5
  const RMR_ERR_CALLFAILED: int := 6
  const RMR_ERR_NOWHOPEN: int := 7
  const RMR_ERR_WHID: int := 8
  const RMR_ERR_OVERFLOW: int := 9
  const RMR_ERR_RETRY: int := 10
  const RMR_ERR_RCVFAILED: int := 11
  const RMR_ERR_TIMEOUT: int := 12
  const RMR_ERR_UNSET: int := 13
  const RMR_ERR_TRUNC: int := 14
  const RMR_ERR_INITFAILED: int := 15

  // errno values the library sets (Linux numbering).
  const EINVAL: int := 22
  const EOVERFLOW: int := 75
  const EMSGSIZE: int := 90
  const ENOBUFS: int := 105
  const ETIMEDOUT: int := 110
  const ENXIO: int := 6
  const EAGAIN: int := 11
  const ENOMEM: int := 12
  const EBADE: int := 52
  const EBADMSG: int := 74
  const EBADFD: int := 77
  const ENOTSUP: int := 95

  /** 2^64: the range of the unsigned 64-bit keys. */
  const TWO_64: int := 0x1_0000_0000_0000_0000

  // Values that mark header fields as not yet set.
  const UNSET_SUBID: int := -1
  const UNSET_MSGTYPE: int := -1

  /** The smaller of two integers. */
  function Min(a: int, b: int): (r: int)
    ensures r <= a && r <= b && (r == a || r == b)
  {
    if a <= b then a else b
  }

  /** `n` zero bytes. */
  function Zeros(n: nat): (z: seq<byte>)
    ensures |z| == n && forall i :: 0 <= i < n ==> z[i] == 0
  {
    seq(n, _ => 0)
  }
}

=== FILE: mbuf.dfy ===
/*
  The RMR message buffer (rmr_mbuf_t) and the transport header it points
  into (uta_mhdr_t).  The header's fixed part has a fixed size; the trace,
  d1 and d2 areas follow it, and the payload follows those.  The header is
  held by value here: its bytes are the fields of `Header`.
*/
module Mbuf {
  import opened Common

  /** sizeof(uta_mhdr_t) on an LP64 machine: the fixed part of the header. */
  const MHDR_SIZE: int := 280
  /** Bytes of transport (length-prefix) header in front of an SI message. */
  const TP_HDR_LEN: int := 50
  /** Length of the d1 area the library reserves in every header it builds. */
  const D1_LEN: int := 4
  /** Index of the call id within d1. */
  const D1_CALLID_IDX: int := 0
  const MAX_CALL_ID: int := 255
  const NO_CALL_ID: int := 0

  // Header flags.
  const HFL_HAS_TRACE: int := 1
  const HFL_SUBID: int := 2
  const HFL_CALL_MSG: int := 4

  // Message buffer flags.
  const MFL_ZEROCOPY: int := 1
  const MFL_NOALLOC: int := 2
  const MFL_ADDSRC: int := 4
  const MFL_RAW: int := 8
  const MFL_HUGE: int := 16

  /** Whether the single-bit flag `bit` (a power of two) is set in a non-negative flag word. */
  predicate HasFlag(flags: int, bit: int)
    requires bit > 0
  {
    (flags / bit) % 2 == 1
  }

  /** The header fields the library reads and writes. */
  datatype Header = Header(
    xid: seq<byte>,      // transaction id, RMR_MAX_XID bytes
    meid: seq<byte>,     // managed entity id, RMR_MAX_MEID bytes
    src: seq<byte>,      // sender name, RMR_MAX_SRC bytes
    srcip: seq<byte>,    // sender address, RMR_MAX_SRC bytes
    flags: int,          // HFL_* bits
    trace: seq<byte>,    // the trace area (its length is RMR_TR_LEN)
    d1: seq<byte>,       // the d1 area (its length is RMR_D1_LEN)
    d2Len: nat,          // length of the d2 area
    version: int)

  /** The fixed-width fields have the widths the header reserves for them. */
  predicate HeaderOk(h: Header) {
    |h.xid| == RMR_MAX_XID && |h.meid| == RMR_MAX_MEID &&
    |h.src| == RMR_MAX_SRC && |h.srcip| == RMR_MAX_SRC
  }

  /** RMR_HDR_LEN: the fixed part plus the three variable areas. */
  function HdrLen(h: Header): (n: int)
    ensures n >= MHDR_SIZE + |h.trace| + |h.d1|
  {
    MHDR_SIZE + |h.trace| + |h.d1| + h.d2Len
  }

  /** A snapshot of every field of a message buffer. */
  datatype View = View(
    state: int, mtype: int, subId: int, len: int, allocLen: int, tpPrefix: int,
    flags: int, rtsFd: int, hasTp: bool, hdr: Header, payload: seq<byte>)

  /**
    A buffer with a transport buffer is laid out as the transport prefix,
    the header with its trace, d1 and d2 areas, and the payload, filling
    the allocation exactly.
  */
  predicate ViewOk(v: View) {
    v.hasTp ==> HeaderOk(v.hdr) && 0 <= v.tpPrefix &&
                v.allocLen == v.tpPrefix + HdrLen(v.hdr) + |v.payload|
  }

  /** `flags | bit` for a single-bit flag. */
  function WithFlag(flags: int, bit: int): (r: int)
    requires bit > 0
    ensures HasFlag(r, bit)
    ensures r == flags || r == flags + bit
  {
    if HasFlag(flags, bit) then flags else DivShift(flags, bit); flags + bit
  }

  /** `flags & ~bit` for a single-bit flag. */
  function WithoutFlag(flags: int, bit: int): (r: int)
    requires bit > 0
    ensures !HasFlag(r, bit)
    ensures r == flags || r == flags - bit
  {
    if HasFlag(flags, bit) then DivShift(flags - bit, bit); flags - bit else flags
  }

  lemma DivShift(x: int, d: int)
    requires d > 0
    ensures (x + d) / d == x / d + 1
  {
    assert x == (x / d) * d + x % d;
    DivOf(x + d, d, x / d + 1, x % d);
  }

  /** Division is determined by quotient and remainder. */
  lemma DivOf(n: int, d: int, q: int, r: int)
    requires d > 0 && 0 <= r < d && n == q * d + r
    ensures n / d == q
  {
    var q' := n / d;
    assert n == q' * d + n % d;
    if q' > q {
      MulStep(q', q + 1, d);
    } else if q' < q {
      MulStep(q, q' + 1, d);
    }
  }

  lemma MulStep(a: int, b: int, d: int)
    requires a >= b && d > 0
    ensures a * d >= b * d
  {
  }

  /**
    A message buffer.  `hasTp` is false when the buffer has no transport
    buffer (its header and payload pointers are nil).  `tpPrefix` is the
    number of transport bytes allocated in front of the header (0 for NNG,
    TP_HDR_LEN for SI).  `payload` is the whole payload area, so its length
    is the payload capacity.
  */
  class Msg {
    var state: int
    var mtype: int
    var subId: int
    var len: int
    var allocLen: int
    var tpPrefix: int
    var flags: int
    var rtsFd: int
    var hasTp: bool
    var hdr: Header
    var payload: seq<byte>

    /** The allocation is exactly prefix, header and payload. */
    predicate Valid()
      reads this
    {
      ViewOk(Snapshot())
    }

    function Snapshot(): View
      reads this
    {
      View(state, mtype, subId, len, allocLen, tpPrefix, flags, rtsFd, hasTp, hdr, payload)
    }

    /** Builds a buffer from a snapshot (used for received and allocated messages). */
    constructor FromView(v: View)
      ensures Snapshot() == v
    {
      state, mtype, subId, len, allocLen := v.state, v.mtype, v.subId, v.len, v.allocLen;
      tpPrefix, flags, rtsFd, hasTp := v.tpPrefix, v.flags, v.rtsFd, v.hasTp;
      hdr, payload := v.hdr, v.payload;
    }
  }

  /** `src[..n]` written over the front of `field`; the rest of `field` stays. */
  function Overlay(field: seq<byte>, src: seq<byte>, n: int): (r: seq<byte>)
    requires 0 <= n <= |field| && n <= |src|
    ensures |r| == |field|
    ensures forall i :: 0 <= i < n ==> r[i] == src[i]
    ensures forall i :: n <= i < |field| ==> r[i] == field[i]
  {
    src[..n] + field[n..]
  }
}

=== FILE: mbuf_api.dfy ===
/*
  The message-buffer field API: copying the meid, the transaction id and
  the payload into a message, and copying the meid, the transaction id and
  the trace data out of it.  Every setter guards against nil arguments and
  truncates to the width of the field it writes; errno is an out-parameter.
*/
module MbufApi {
  import opened Common
  import opened Mbuf

  /** A C string as bytes: no NUL inside. */
  predicate CStr(s: seq<byte>) {
    forall i :: 0 <= i < |s| ==> s[i] != 0
  }

  /** The C string stored at the front of a field: the bytes before the first NUL. */
  function CString(f: seq<byte>): (s: seq<byte>)
    ensures |s| <= |f| && CStr(s) && s == f[..|s|]
    ensures |s| < |f| ==> f[|s|] == 0
  {
    if f == [] || f[0] == 0 then [] else [f[0]] + CString(f[1..])
  }

  /**
    strncpy of a C string into an n-byte field: its bytes, cut at n, with
    the rest of the field NUL filled.
  */
  function Strncpy(s: seq<byte>, n: nat): (r: seq<byte>)
    ensures |r| == n
    ensures forall i :: 0 <= i < n ==> r[i] == (if i < |s| then s[i] else 0)
  {
    if |s| >= n then s[..n] else s + Zeros(n - |s|)
  }

  /** A name shorter than the field reads back whole from it. */
  lemma {:induction false} StrncpyReadsBack(s: seq<byte>, n: nat)
    requires CStr(s) && |s| < n
    ensures CString(Strncpy(s, n)) == s
    decreases |s|
  {
    if s == [] {
      assert Strncpy(s, n)[0] == 0;
    } else {
      var f := Strncpy(s, n);
      assert f[0] == s[0] != 0;
      assert f[1..] == Strncpy(s[1..], n - 1);
      StrncpyReadsBack(s[1..], n - 1);
      assert s == [s[0]] + s[1..];
    }
  }

  /** The number of bytes a fixed-width field setter copies for a request of `len`. */
  function Truncated(len: int, width: int): (n: int)
    requires 0 <= len && 0 <= width
    ensures n <= width && n <= len
    ensures len <= width ==> n == len
    ensures len > width ==> n == width
  {
    Min(len, width)
  }

  /**
    rmr_bytes2meid: copies up to RMR_MAX_MEID bytes of `src` into the meid.
    Returns -1 with EINVAL on a nil argument, otherwise the number of bytes
    copied, with EOVERFLOW when `len` was cut down.  The bytes of the field
    beyond the copy are left as they were, not zero padded.
  */
  method BytesToMeid(m: Msg?, src: Option<seq<byte>>, len: int) returns (n: int, errno: int)
    requires m != null && m.hasTp ==> m.Valid()
    requires src.Some? ==> 0 <= len && Min(len, RMR_MAX_MEID) <= |src.value|
    modifies m
    ensures m != null ==> m.hasTp == old(m.hasTp)
    ensures (m == null || !m.hasTp || src.None?) ==> n == -1 && errno == EINVAL
    ensures (m == null || !m.hasTp || src.None?) && m != null ==> m.Snapshot() == old(m.Snapshot())
    ensures m != null && m.hasTp && src.Some? ==>
      n == Truncated(len, RMR_MAX_MEID) &&
      errno == (if len > RMR_MAX_MEID then EOVERFLOW else 0) &&
      m.Snapshot() == old(m.Snapshot()).(hdr := old(m.hdr).(meid := Overlay(old(m.hdr.meid), src.value, n))) &&
      m.Valid()
  {
    if src.None? || m == null || !m.hasTp {
      return -1, EINVAL;
    }
    errno := 0;
    n := len;
    if n > RMR_MAX_MEID {
      n := RMR_MAX_MEID;
      errno := EOVERFLOW;
    }
    m.hdr := m.hdr.(meid := Overlay(m.hdr.meid, src.value, n));
  }

  /**
    rmr_str2meid: a string of at most RMR_MAX_MEID-1 characters is copied
    with its terminating NUL; a longer one is refused with OVERFLOW and
    nothing is copied.
  */
  method StrToMeid(m: Msg?, str: Option<seq<byte>>) returns (rc: int, errno: int)
    requires m != null && m.hasTp ==> m.Valid()
    requires str.Some? ==> CStr(str.value)
    modifies m
    ensures m != null ==> m.hasTp == old(m.hasTp)
    ensures (m == null || !m.hasTp || str.None?) ==> rc == RMR_ERR_BADARG && errno == EINVAL
    ensures m != null && m.hasTp && str.Some? && |str.value| > RMR_MAX_MEID - 1 ==>
      rc == RMR_ERR_OVERFLOW && errno == EOVERFLOW
    ensures rc != RMR_OK && m != null ==> m.Snapshot() == old(m.Snapshot())
    ensures m != null && m.hasTp && str.Some? && |str.value| <= RMR_MAX_MEID - 1 ==>
      rc == RMR_OK && errno == 0 &&
      m.Snapshot() == old(m.Snapshot()).(hdr := old(m.hdr).(meid := Overlay(old(m.hdr.meid), str.value + [0], |str.value| + 1))) &&
      CString(m.hdr.meid) == str.value &&
      m.Valid()
  {
    if str.None? || m == null || !m.hasTp {
      return RMR_ERR_BADARG, EINVAL;
    }
    var s := str.value;
    if |s| > RMR_MAX_MEID - 1 {
      return RMR_ERR_OVERFLOW, EOVERFLOW;
    }
    var n;
    n, errno := BytesToMeid(m, Some(s + [0]), |s| + 1);
    StoredStringReadsBack(old(m.hdr.meid), s);
    rc := RMR_OK;
  }

  /** A C string written with its NUL over the front of a field reads back unchanged. */
  lemma {:induction false} StoredStringReadsBack(field: seq<byte>, s: seq<byte>)
    requires CStr(s) && |s| + 1 <= |field|
    ensures CString(Overlay(field, s + [0], |s| + 1)) == s
    decreases |s|
  {
    var f := Overlay(field, s + [0], |s| + 1);
    if s == [] {
      assert f[0] == 0;
    } else {
      assert f[0] == s[0];
      StoredStringReadsBack(field[1..], s[1..]);
      assert Overlay(field[1..], s[1..] + [0], |s|) == f[1..];
    }
  }

  /** rmr_bytes2xact: as BytesToMeid, for the transaction id field. */
  method BytesToXact(m: Msg?, src: Option<seq<byte>>, len: int) returns (n: int, errno: int)
    requires m != null && m.hasTp ==> m.Valid()
    requires src.Some? ==> 0 <= len && Min(len, RMR_MAX_XID) <= |src.value|
    modifies m
    ensures m != null ==> m.hasTp == old(m.hasTp)
    ensures (m == null || !m.hasTp || src.None?) ==> n == -1 && errno == EINVAL
    ensures (m == null || !m.hasTp || src.None?) && m != null ==> m.Snapshot() == old(m.Snapshot())
    ensures m != null && m.hasTp && src.Some? ==>
      n == Truncated(len, RMR_MAX_XID) &&
      errno == (if len > RMR_MAX_XID then EOVERFLOW else 0) &&
      m.Snapshot() == old(m.Snapshot()).(hdr := old(m.hdr).(xid := Overlay(old(m.hdr.xid), src.value, n))) &&
      m.Valid()
  {
    if src.None? || m == null || !m.hasTp {
      return -1, EINVAL;
    }
    errno := 0;
    n := len;
    if n > RMR_MAX_XID {
      n := RMR_MAX_XID;
      errno := EOVERFLOW;
    }
    m.hdr := m.hdr.(xid := Overlay(m.hdr.xid, src.value, n));
  }

  /** rmr_str2xact: as StrToMeid, for the transaction id field. */
  method StrToXact(m: Msg?, str: Option<seq<byte>>) returns (rc: int, errno: int)
    requires m != null && m.hasTp ==> m.Valid()
    requires str.Some? ==> CStr(str.value)
    modifies m
    ensures m != null ==> m.hasTp == old(m.hasTp)
    ensures (m == null || !m.hasTp || str.None?) ==> rc == RMR_ERR_BADARG && errno == EINVAL
    ensures m != null && m.hasTp && str.Some? && |str.value| > RMR_MAX_XID - 1 ==>
      rc == RMR_ERR_OVERFLOW && errno == EOVERFLOW
    ensures rc != RMR_OK && m != null ==> m.Snapshot() == old(m.Snapshot())
    ensures m != null && m.hasTp && str.Some? && |str.value| <= RMR_MAX_XID - 1 ==>
      rc == RMR_OK && errno == 0 &&
      m.Snapshot() == old(m.Snapshot()).(hdr := old(m.hdr).(xid := Overlay(old(m.hdr.xid), str.value + [0], |str.value| + 1))) &&
      CString(m.hdr.xid) == str.value &&
      m.Valid()
  {
    if str.None? || m == null || !m.hasTp {
      return RMR_ERR_BADARG, EINVAL;
    }
    var s := str.value;
    if |s| > RMR_MAX_XID - 1 {
      return RMR_ERR_OVERFLOW, EOVERFLOW;
    }
    var n;
    n, errno := BytesToXact(m, Some(s + [0]), |s| + 1);
    StoredStringReadsBack(old(m.hdr.xid), s);
    rc := RMR_OK;
  }

  /**
    The length rmr_bytes2payload settles on for a request of `len` bytes into
    a payload area of `cap` bytes.  The C comparison is unsigned, so a
    negative request is treated as too large.
  */
  function PayloadClamp(len: int, cap: nat): (n: nat)
    ensures n <= cap
    ensures 0 <= len <= cap ==> n == len
    ensures (len < 0 || len > cap) ==> n == cap
  {
    if len < 0 || len > cap then cap else len
  }

  /**
    The number of bytes rmr_bytes2payload copies as written: the request is
    compared against the allocation less the fixed part of the header only,
    not less the whole header (see the findings).
  */
  function AsWrittenCopyLen(len: int, allocLen: int): int {
    var limit := allocLen - MHDR_SIZE;
    if len < 0 || len > limit then limit else len
  }

  /**
    As written, a request D1_LEN bytes longer than the payload area (the
    library always reserves D1_LEN bytes of d1) is copied in full, past the
    end of the payload; the corrected clamp copies only the payload's size.
  */
  lemma AsWrittenCopyOverrunsPayload(m: Msg)
    requires m.hasTp && m.Valid() && |m.hdr.d1| == D1_LEN
    ensures AsWrittenCopyLen(|m.payload| + D1_LEN, m.allocLen) == |m.payload| + D1_LEN
    ensures PayloadClamp(|m.payload| + D1_LEN, |m.payload|) == |m.payload|
  {
  }

  /** A concrete instance: a 100-byte payload, no trace, d1 of 4, no d2, 104 bytes requested. */
  lemma AsWrittenOverrunExample()
    ensures var h := Header(Zeros(32), Zeros(32), Zeros(64), Zeros(64), 0, [], Zeros(4), 0, 3);
            var allocLen := HdrLen(h) + 100;
            allocLen == 384 && AsWrittenCopyLen(104, allocLen) == 104 && PayloadClamp(104, 100) == 100
  {
  }

  /**
    rmr_bytes2payload, with the clamp at the payload capacity: sets state OK,
    or OVERFLOW with EMSGSIZE when the request does not fit, sets len to the
    number of bytes copied and copies them to the front of the payload.
  */
  method BytesToPayload(m: Msg?, src: Option<seq<byte>>, len: int) returns (errno: int)
    requires m != null && m.hasTp ==> m.Valid()
    requires m != null && m.hasTp && src.Some? ==> PayloadClamp(len, |m.payload|) <= |src.value|
    modifies m
    ensures m != null ==> m.hasTp == old(m.hasTp)
    ensures (m == null || !m.hasTp || src.None?) ==> errno == EINVAL
    ensures (m == null || !m.hasTp || src.None?) && m != null ==> m.Snapshot() == old(m.Snapshot())
    ensures m != null && m.hasTp && src.Some? ==>
      var fits := 0 <= len <= |old(m.payload)|;
      var n := PayloadClamp(len, |old(m.payload)|);
      errno == (if fits then 0 else EMSGSIZE) &&
      m.Snapshot() == old(m.Snapshot()).(
        state := if fits then RMR_OK else RMR_ERR_OVERFLOW,
        len := n,
        payload := Overlay(old(m.payload), src.value, n)) &&
      m.Valid()
  {
    if src.None? || m == null || !m.hasTp {
      return EINVAL;
    }
    errno := 0;
    m.state := RMR_OK;
    var n := len;
    if len < 0 || len > |m.payload| {
      m.state := RMR_ERR_OVERFLOW;
      errno := EMSGSIZE;
      n := |m.payload|;
    }
    m.len := n;
    m.payload := Overlay(m.payload, src.value, n);
  }

  /**
    rmr_str2payload: the string and its NUL terminator.  The source takes the
    string length before any nil check, so the string must not be nil.
  */
  method StrToPayload(m: Msg?, str: seq<byte>) returns (errno: int)
    requires m != null && m.hasTp ==> m.Valid()
    requires CStr(str)
    modifies m
    ensures m != null ==> m.hasTp == old(m.hasTp)
    ensures (m == null || !m.hasTp) ==> errno == EINVAL
    ensures m != null && !m.hasTp ==> m.Snapshot() == old(m.Snapshot())
    ensures m != null && m.hasTp ==>
      var fits := |str| + 1 <= |old(m.payload)|;
      var n := PayloadClamp(|str| + 1, |old(m.payload)|);
      errno == (if fits then 0 else EMSGSIZE) &&
      m.Snapshot() == old(m.Snapshot()).(
        state := if fits then RMR_OK else RMR_ERR_OVERFLOW,
        len := n,
        payload := Overlay(old(m.payload), str + [0], n)) &&
      m.Valid()
    ensures m != null && m.hasTp && |str| + 1 <= |old(m.payload)| ==> CString(m.payload) == str
  {
    var s := str + [0];
    if m != null && m.hasTp {
      assert PayloadClamp(|s|, |m.payload|) <= |s|;
    }
    errno := BytesToPayload(m, Some(s), |s|);
    if m != null && m.hasTp && |str| + 1 <= |old(m.payload)| {
      StoredStringReadsBack(old(m.payload), str);
    }
  }

  /**
    rmr_get_xact: copies the whole RMR_MAX_XID-byte transaction id into
    `dest`, or into a new buffer of exactly that size when `dest` is nil.
  */
  method GetXact(m: Msg?, dest: array?<byte>) returns (r: array?<byte>, errno: int)
    requires m != null && m.hasTp ==> m.Valid()
    requires dest != null ==> dest.Length >= RMR_MAX_XID
    modifies dest
    ensures (m == null || !m.hasTp) ==> r == null && errno == EINVAL
    ensures (m == null || !m.hasTp) && dest != null ==> dest[..] == old(dest[..])
    ensures m != null && m.hasTp ==>
      r != null && errno == 0 &&
      r.Length >= RMR_MAX_XID && r[..RMR_MAX_XID] == m.hdr.xid &&
      (dest != null ==> r == dest && r[RMR_MAX_XID..] == old(dest[RMR_MAX_XID..])) &&
      (dest == null ==> fresh(r) && r.Length == RMR_MAX_XID)
  {
    if m == null || !m.hasTp {
      return null, EINVAL;
    }
    errno := 0;
    r := dest;
    if r == null {
      r := new byte[RMR_MAX_XID];
    }
    CopyInto(r, m.hdr.xid);
  }

  /**
    rmr_get_meid: copies all RMR_MAX_MEID raw bytes of the meid, NULs
    included, into `dest` or into a new buffer of exactly that size.
  */
  method GetMeid(m: Msg?, dest: array?<byte>) returns (r: array?<byte>, errno: int)
    requires m != null && m.hasTp ==> m.Valid()
    requires dest != null ==> dest.Length >= RMR_MAX_MEID
    modifies dest
    ensures (m == null || !m.hasTp) ==> r == null && errno == EINVAL
    ensures (m == null || !m.hasTp) && dest != null ==> dest[..] == old(dest[..])
    ensures m != null && m.hasTp ==>
      r != null && errno == 0 &&
      r.Length >= RMR_MAX_MEID && r[..RMR_MAX_MEID] == m.hdr.meid &&
      (dest != null ==> r == dest && r[RMR_MAX_MEID..] == old(dest[RMR_MAX_MEID..])) &&
      (dest == null ==> fresh(r) && r.Length == RMR_MAX_MEID)
  {
    if m == null || !m.hasTp {
      return null, EINVAL;
    }
    errno := 0;
    r := dest;
    if r == null {
      r := new byte[RMR_MAX_MEID];
    }
    CopyInto(r, m.hdr.meid);
  }

  /** memcpy of `src` to the front of `a`. */
  method CopyInto(a: array<byte>, src: seq<byte>)
    requires |src| <= a.Length
    modifies a
    ensures a[..|src|] == src && a[|src|..] == old(a[|src|..])
  {
    forall i | 0 <= i < |src| {
      a[i] := src[i];
    }
    assert a[..|src|] == src;
  }

  /**
    rmr_get_trace: copies min(size, trace length) bytes of the trace into
    `dest` and returns that count; 0 when the message or `dest` is nil or
    `size` is not positive.  The source reads the header without checking
    it, so a non-nil message must carry one.
  */
  method GetTrace(m: Msg?, dest: array?<byte>, size: int) returns (n: int)
    requires m != null ==> m.hasTp && m.Valid()
    requires m != null && dest != null && size > 0 ==> dest.Length >= Min(size, |m.hdr.trace|)
    modifies dest
    ensures m == null || dest == null || size <= 0 ==> n == 0
    ensures m != null && dest != null && size > 0 ==>
      n == Min(size, |m.hdr.trace|) && dest[..n] == m.hdr.trace[..n]
    ensures 0 <= n && (dest != null ==> n <= dest.Length && dest[n..] == old(dest[n..]))
  {
    if m == null || size <= 0 || dest == null {
      return 0;
    }
    n := Min(size, |m.hdr.trace|);
    if n <= 0 {
      return 0;
    }
    CopyInto(dest, m.hdr.trace[..n]);
  }
}

=== FILE: nng_msg.dfy ===
/*
  The NNG transport's message-buffer helpers: translating NNG error numbers
  into RMR states, allocating or reusing a zero-copy buffer, pointing a
  received transport buffer's fields and checking it for truncation,
  cloning a message and re-allocating it with a different trace area, and
  the choice of route key in the multi-group send.  The transport calls
  themselves (allocation, send, receive) are outside the model: an
  allocation always succeeds and the bytes it has not written read as zero.
*/
module NngMsg {
  import opened Common
  import opened Mbuf
  import MbufApi
  import RouteTable

  // NNG error numbers (the nng_errno_enum of the NNG library's nng.h).
  const NNG_ENOMEM: int := 2
  const NNG_EINVAL: int := 3
  const NNG_ETIMEDOUT: int := 5
  const NNG_ECLOSED: int := 7
  const NNG_EAGAIN: int := 8
  const NNG_ENOTSUP: int := 9
  const NNG_ESTATE: int := 11

  /** The header version this library writes. */
  const RMR_MSG_VER: int := 3
  /** sizeof(uta_v1mhdr_t): the fixed header of version 1 messages. */
  const V1_HDR_SIZE: int := 144

  // ---- xlate_nng_state --------------------------------------------------------

  /**
    xlate_nng_state: the RMR state and errno for an NNG result.  Success is
    RMR_OK with errno cleared; the two soft errors become RETRY with
    EAGAIN; every other result keeps the caller's default state, with an
    errno that names the cause.
  */
  function XlateNngState(state: int, defState: int): (r: (int, int))
    ensures state == 0 <==> r.1 == 0
    ensures state == 0 ==> r.0 == RMR_OK
    ensures state == NNG_EAGAIN || state == NNG_ETIMEDOUT ==> r == (RMR_ERR_RETRY, EAGAIN)
    ensures state != 0 && state != NNG_EAGAIN && state != NNG_ETIMEDOUT ==> r.0 == defState
  {
    if state == 0 then (RMR_OK, 0)
    else if state == NNG_EAGAIN || state == NNG_ETIMEDOUT then (RMR_ERR_RETRY, EAGAIN)
    else if state == NNG_ENOTSUP then (defState, ENOTSUP)
    else if state == NNG_EINVAL then (defState, EINVAL)
    else if state == NNG_ENOMEM then (defState, ENOMEM)
    else if state == NNG_ESTATE || state == NNG_ECLOSED then (defState, EBADFD)
    else (defState, EBADE)
  }

  /**
    With a default that is neither OK nor RETRY, the state tells the cases
    apart: OK exactly for success, RETRY exactly for the soft errors.
  */
  lemma XlateDistinguishes(state: int, defState: int)
    requires defState != RMR_OK && defState != RMR_ERR_RETRY
    ensures XlateNngState(state, defState).0 == RMR_OK <==> state == 0
    ensures XlateNngState(state, defState).0 == RMR_ERR_RETRY <==> state == NNG_EAGAIN || state == NNG_ETIMEDOUT
    ensures XlateNngState(state, defState).0 == defState <==> state != 0 && state != NNG_EAGAIN && state != NNG_ETIMEDOUT
  {
  }

  // ---- allocation -------------------------------------------------------------

  /** The context values the allocator reads. */
  datatype NngCtx = NngCtx(traceDataLen: nat, d1Len: nat, d2Len: nat, maxPlen: nat,
                           myName: seq<byte>, myIp: seq<byte>)

  /** The header alloc_zcmsg writes: zeroed, current version, the context's lengths, our name and address. */
  function NewHeader(ctx: NngCtx): (h: Header)
    ensures HeaderOk(h)
  {
    Header(Zeros(RMR_MAX_XID), Zeros(RMR_MAX_MEID), MbufApi.Strncpy(ctx.myName, RMR_MAX_SRC),
           MbufApi.Strncpy(ctx.myIp, RMR_MAX_SRC), 0, Zeros(ctx.traceDataLen), Zeros(ctx.d1Len), 0, RMR_MSG_VER)
  }

  /**
    The transport buffer size: a reused buffer keeps its size; otherwise the
    header, the trace area (the override when positive, else the context's
    length), d1, d2 and the payload (the requested size when positive, else
    the context's maximum).
  */
  function AllocLen(ctx: NngCtx, reuse: Option<int>, size: int, trlo: int): int {
    if reuse.Some? then reuse.value
    else
      MHDR_SIZE + (if trlo > 0 then trlo else ctx.traceDataLen) + ctx.d1Len + ctx.d2Len +
      (if size > 0 then size else ctx.maxPlen)
  }

  /** The bytes of an allocation left for the payload once the header is placed (none when it does not fit). */
  function Room(mlen: int, h: Header): nat {
    if mlen >= HdrLen(h) then mlen - HdrLen(h) else 0
  }

  /**
    The message alloc_zcmsg hands back.  The caller's state argument plays
    no part: the allocator's own success result overwrites it, so the
    message always says RMR_OK.
  */
  function AllocView(ctx: NngCtx, reuse: Option<int>, size: int, trlo: int): View {
    var mlen := AllocLen(ctx, reuse, size, trlo);
    var h := NewHeader(ctx);
    View(RMR_OK, UNSET_MSGTYPE, UNSET_SUBID, 0, mlen, 0, MFL_ZEROCOPY, 0, true, h, Zeros(Room(mlen, h)))
  }

  /**
    alloc_zcmsg: a new buffer, or `msg` itself refilled with a fresh
    transport buffer of its old size.
  */
  method AllocZcmsg(ctx: NngCtx, msg: Msg?, size: int, state: int, trlo: int) returns (m: Msg)
    requires msg != null ==> msg.allocLen >= 0
    modifies msg
    ensures msg != null ==> m == msg
    ensures msg == null ==> fresh(m)
    ensures m.Snapshot() == AllocView(ctx, if msg == null then None else Some(old(msg.allocLen)), size, trlo)
  {
    ghost var reuse := if msg == null then None else Some(msg.allocLen);
    var mlen := AllocLen(ctx, None, size, trlo);
    if msg == null {
      m := new Msg.FromView(View(0, 0, 0, 0, 0, 0, 0, 0, false, NewHeader(ctx), []));
    } else {
      m := msg;
      mlen := msg.allocLen;
    }
    assert mlen == AllocLen(ctx, reuse, size, trlo);
    // memset of the mbuf, then the new transport buffer (the allocator's result replaces `state`)
    m.state, m.mtype, m.subId, m.len, m.allocLen, m.tpPrefix, m.flags, m.rtsFd := 0, 0, 0, 0, 0, 0, 0, 0;
    var st := RMR_OK;
    m.hasTp := true;
    m.hdr := NewHeader(ctx);
    m.payload := Zeros(Room(mlen, m.hdr));
    m.len := 0;
    m.allocLen := mlen;
    m.subId := UNSET_SUBID;
    m.mtype := UNSET_MSGTYPE;
    m.state := st;
    m.flags := WithFlag(m.flags, MFL_ZEROCOPY);
    assert m.flags == MFL_ZEROCOPY;
  }

  /**
    A reused buffer keeps its size, and any buffer comes back empty, typed
    and subscribed as unset, in state OK and marked zero-copy.
  */
  lemma AllocResets(ctx: NngCtx, reuse: Option<int>, size: int, trlo: int)
    ensures var v := AllocView(ctx, reuse, size, trlo);
      (reuse.Some? ==> v.allocLen == reuse.value) &&
      v.len == 0 && v.mtype == UNSET_MSGTYPE && v.subId == UNSET_SUBID &&
      v.state == RMR_OK && HasFlag(v.flags, MFL_ZEROCOPY) && v.hdr.version == RMR_MSG_VER
  {
  }

  /**
    A new buffer with the context's trace length is laid out exactly, and
    its payload holds the requested size (or the context's maximum) plus
    the d2 allowance, which the header does not yet claim.
  */
  lemma AllocPayloadFits(ctx: NngCtx, size: int, trlo: int)
    requires trlo <= 0
    ensures var v := AllocView(ctx, None, size, trlo);
      ViewOk(v) && |v.payload| == (if size > 0 then size else ctx.maxPlen) + ctx.d2Len
  {
  }

  // ---- ref_tpbuf --------------------------------------------------------------

  /**
    What ref_tpbuf reads from a received transport buffer: the header
    (whose version selects the layout), the sender's payload length, type
    and sub-id as carried in it, and the bytes after the header.
  */
  datatype Received = Received(hdr: Header, plen: int, mtype: int, subId: int, body: seq<byte>)

  /** The header length the truncation check uses: the fixed v1 header, or the whole current header. */
  function RxHdrLen(rx: Received): int {
    if rx.hdr.version == 1 then V1_HDR_SIZE else HdrLen(rx.hdr)
  }

  /**
    The message after ref_tpbuf: fields taken from the header, the size
    the transport reports as the allocation, and the sender's length cut
    down to the room after the header, with TRUNC, when it claims more.
  */
  function RefView(v: View, rx: Received, alen: int): View {
    var room := alen - RxHdrLen(rx);
    var len := if rx.plen > room then room else rx.plen;
    var st := if rx.plen > room then RMR_ERR_TRUNC else RMR_OK;
    var sid := if rx.hdr.version == 1 then UNSET_SUBID else rx.subId;
    v.(hasTp := true, hdr := rx.hdr, payload := rx.body, len := len, allocLen := alen,
       flags := WithFlag(v.flags, MFL_ZEROCOPY), mtype := rx.mtype, subId := sid, state := st)
  }

  /** ref_tpbuf: points the message at a received transport buffer of `alen` bytes. */
  method RefTpbuf(msg: Msg, rx: Received, alen: int)
    modifies msg
    ensures msg.Snapshot() == RefView(old(msg.Snapshot()), rx, alen)
  {
    msg.hasTp := true;
    msg.hdr := rx.hdr;
    msg.payload := rx.body;
    var hlen: int;
    if rx.hdr.version == 1 {
      msg.len := rx.plen;
      msg.allocLen := alen;
      msg.flags := WithFlag(msg.flags, MFL_ZEROCOPY);
      msg.mtype := rx.mtype;
      msg.subId := UNSET_SUBID;
      msg.state := RMR_OK;
      hlen := V1_HDR_SIZE;
    } else {
      msg.len := rx.plen;
      msg.allocLen := alen;
      msg.flags := WithFlag(msg.flags, MFL_ZEROCOPY);
      msg.mtype := rx.mtype;
      msg.subId := rx.subId;
      hlen := HdrLen(rx.hdr);
    }
    if msg.len > msg.allocLen - hlen {
      msg.state := RMR_ERR_TRUNC;
      msg.len := msg.allocLen - hlen;
    } else {
      msg.state := RMR_OK;
    }
  }

  /**
    When the buffer is the header followed by the body, the length handed
    to the application never runs past the body; TRUNC is reported exactly
    when the sender claimed more than arrived, and otherwise the sender's
    length stands.
  */
  lemma RefNeverOverruns(v: View, rx: Received, alen: int)
    requires alen == RxHdrLen(rx) + |rx.body|
    ensures var r := RefView(v, rx, alen);
      r.len <= |r.payload| &&
      (r.state == RMR_ERR_TRUNC <==> rx.plen > |rx.body|) &&
      (r.state == RMR_OK <==> rx.plen <= |rx.body|) &&
      (r.state == RMR_OK ==> r.len == rx.plen) &&
      (r.state == RMR_ERR_TRUNC ==> r.len == |rx.body|)
  {
  }

  // ---- clone_msg and realloc_msg -------------------------------------------------

  /** The payload of a copy: the first `len` bytes copied, the rest of the area as yet unwritten. */
  function CopiedPayload(v: View): (p: seq<byte>)
    requires 0 <= v.len <= |v.payload|
    ensures |p| == |v.payload| && p[..v.len] == v.payload[..v.len]
  {
    v.payload[..v.len] + Zeros(|v.payload| - v.len)
  }

  /**
    clone_msg (corrected for version 1 headers): a new transport buffer of
    the same size holding a copy of the header and of the payload's first
    `len` bytes; type, sub-id, length, size and state carried over, and the
    zero-copy flag added.
  */
  function CloneView(v: View): View
    requires v.hasTp && 0 <= v.len <= |v.payload|
  {
    v.(rtsFd := 0, flags := WithFlag(v.flags, MFL_ZEROCOPY), payload := CopiedPayload(v))
  }

  method CloneMsg(old_msg: Msg) returns (nm: Msg)
    requires old_msg.hasTp && 0 <= old_msg.len <= |old_msg.payload|
    ensures fresh(nm)
    ensures nm.Snapshot() == CloneView(old_msg.Snapshot())
  {
    var v := old_msg.Snapshot();
    nm := new Msg.FromView(View(0, 0, 0, 0, 0, v.tpPrefix, 0, 0, true, old_msg.hdr, Zeros(|v.payload|)));
    nm.mtype := old_msg.mtype;
    nm.subId := old_msg.subId;
    nm.len := old_msg.len;
    nm.allocLen := old_msg.allocLen;
    nm.state := old_msg.state;
    nm.flags := WithFlag(old_msg.flags, MFL_ZEROCOPY);
    nm.payload := CopiedPayload(v);
  }

  /**
    A clone keeps the layout, carries every field the application reads,
    holds the same payload bytes, and has exactly the original's flags when
    those already marked it zero-copy.
  */
  lemma CloneCopies(v: View)
    requires v.hasTp && 0 <= v.len <= |v.payload| && ViewOk(v)
    ensures var c := CloneView(v);
      ViewOk(c) && c.hdr == v.hdr &&
      c.mtype == v.mtype && c.subId == v.subId && c.len == v.len &&
      c.allocLen == v.allocLen && c.state == v.state &&
      c.payload[..c.len] == v.payload[..v.len] &&
      (HasFlag(v.flags, MFL_ZEROCOPY) ==> c.flags == v.flags)
  {
  }

  /**
    realloc_msg (corrected for version 1 headers): like a clone, but the
    trace area takes the new length (its bytes unwritten) and the buffer
    grows or shrinks by the difference.
  */
  function ReallocView(v: View, trLen: nat): View
    requires v.hasTp && 0 <= v.len <= |v.payload|
  {
    v.(allocLen := v.allocLen + (trLen - |v.hdr.trace|), hdr := v.hdr.(trace := Zeros(trLen)),
       rtsFd := 0, flags := WithFlag(v.flags, MFL_ZEROCOPY), payload := CopiedPayload(v))
  }

  method ReallocMsg(old_msg: Msg, trLen: nat) returns (nm: Msg)
    requires old_msg.hasTp && 0 <= old_msg.len <= |old_msg.payload|
    ensures fresh(nm)
    ensures nm.Snapshot() == ReallocView(old_msg.Snapshot(), trLen)
  {
    var v := old_msg.Snapshot();
    var trOld := |old_msg.hdr.trace|;
    var mlen := old_msg.allocLen + (trLen - trOld);
    var h := old_msg.hdr.(trace := Zeros(trLen));     // header copied, trace length set, d1 and d2 copied
    nm := new Msg.FromView(View(0, 0, 0, 0, 0, v.tpPrefix, 0, 0, true, h, Zeros(|v.payload|)));
    nm.mtype := old_msg.mtype;
    nm.subId := old_msg.subId;
    nm.len := old_msg.len;
    nm.allocLen := mlen;
    nm.state := old_msg.state;
    nm.flags := WithFlag(old_msg.flags, MFL_ZEROCOPY);
    nm.payload := CopiedPayload(v);
  }

  /**
    Only the trace area changes size: the layout stays exact, the payload
    area keeps its size and bytes, and d1, d2 and the fixed fields are
    carried over.
  */
  lemma ReallocKeepsPayload(v: View, trLen: nat)
    requires v.hasTp && 0 <= v.len <= |v.payload| && ViewOk(v)
    ensures var r := ReallocView(v, trLen);
      ViewOk(r) && |r.hdr.trace| == trLen && |r.payload| == |v.payload| &&
      r.allocLen - v.allocLen == trLen - |v.hdr.trace| &&
      r.hdr.d1 == v.hdr.d1 && r.hdr.d2Len == v.hdr.d2Len && r.hdr.xid == v.hdr.xid &&
      r.payload[..r.len] == v.payload[..v.len] && r.mtype == v.mtype && r.state == v.state
  {
  }

  /** Re-allocating with the trace length a message already has gives its clone. */
  lemma ReallocSameTraceIsClone(v: View)
    requires v.hasTp && 0 <= v.len <= |v.payload| && v.hdr.trace == Zeros(|v.hdr.trace|)
    ensures ReallocView(v, |v.hdr.trace|) == CloneView(v)
  {
  }

  // ---- clone_msg as written ---------------------------------------------------

  /** A header area no one has written. */
  function BlankHeader(h: Header): Header {
    Header(Zeros(RMR_MAX_XID), Zeros(RMR_MAX_MEID), Zeros(RMR_MAX_SRC), Zeros(RMR_MAX_SRC), 0,
           Zeros(|h.trace|), Zeros(|h.d1|), h.d2Len, 0)
  }

  /** The bytes of trace, d1 and d2 a header announces: what RMR_HDR_LEN leaves out of the fixed part. */
  function VarLen(h: Header): (k: nat)
    ensures k >= |h.d1|
  {
    |h.trace| + |h.d1| + h.d2Len
  }

  /**
    The new transport buffer clone_msg fills as written, or None where the
    copy reaches past the original's payload area (the behaviour is then
    undefined). For a version 1 header the copy's destination is the
    original's own header, so the new buffer receives neither header nor
    payload: the clone's payload pointer is set past the original's header
    and the payload copy lands on itself. For later versions the header copy
    counts trace, d1 and d2 twice (RMR_HDR_LEN already holds them), so that
    many bytes of the original's payload area land at the front of the
    clone's payload area before its first `len` bytes are copied over them.
  */
  function CloneBufferAsWritten(v: View): Option<View>
    requires v.hasTp && 0 <= v.len <= |v.payload|
  {
    if v.hdr.version == 1 then Some(CloneView(v).(hdr := BlankHeader(v.hdr), payload := Zeros(|v.payload|)))
    else if VarLen(v.hdr) > |v.payload| then None
    else
      var m := if v.len < VarLen(v.hdr) then VarLen(v.hdr) else v.len;
      Some(CloneView(v).(payload := v.payload[..m] + Zeros(|v.payload| - m)))
  }

  /** A one-byte version 1 message whose clone, as written, carries neither its header nor its byte. */
  lemma V1CloneLosesContentAsWritten()
    ensures var h := Header(Zeros(32), Zeros(32), Zeros(64), Zeros(64), 0, [], [], 0, 1);
      var v := View(RMR_OK, 1, UNSET_SUBID, 1, 0, 0, MFL_ZEROCOPY, 0, true, h, [7]);
      var c := CloneBufferAsWritten(v);
      c.Some? && c.value.hdr.version != v.hdr.version && c.value.payload[..1] != v.payload[..1]
  {
    var h := Header(Zeros(32), Zeros(32), Zeros(64), Zeros(64), 0, [], [], 0, 1);
    var v := View(RMR_OK, 1, UNSET_SUBID, 1, 0, 0, MFL_ZEROCOPY, 0, true, h, [7]);
    assert CloneBufferAsWritten(v).value.payload[0] == 0;
  }

  /**
    As written, for a header of version 2 or later every byte of the clone's
    payload area between `len` and the announced trace, d1 and d2 length is
    the original's byte there, where the corrected clone leaves it unwritten;
    and a payload area shorter than that length is overrun.
  */
  lemma CloneSpillsAsWritten(v: View)
    requires v.hasTp && 0 <= v.len <= |v.payload| && v.hdr.version != 1
    ensures VarLen(v.hdr) > |v.payload| <==> CloneBufferAsWritten(v).None?
    ensures CloneBufferAsWritten(v).Some? ==>
      var c := CloneBufferAsWritten(v).value;
      c.hdr == v.hdr && c.payload[..v.len] == v.payload[..v.len] &&
      forall i :: v.len <= i < VarLen(v.hdr) ==> c.payload[i] == v.payload[i] && CloneView(v).payload[i] == 0
  {
  }

  /**
    A version 3 message with four bytes of d1 and an empty payload of eight
    bytes 9: as written its clone's payload starts with four 9s, corrected
    it starts with zeros; with a payload area of two bytes the copy is
    overrun.
  */
  lemma CloneSpillExampleAsWritten()
    ensures var h := Header(Zeros(32), Zeros(32), Zeros(64), Zeros(64), 0, [], [1, 2, 3, 4], 0, 3);
      var v := View(RMR_OK, 1, UNSET_SUBID, 0, 0, 0, 0, 0, true, h, [9, 9, 9, 9, 9, 9, 9, 9]);
      CloneBufferAsWritten(v).Some? && CloneBufferAsWritten(v).value.payload[..4] == [9, 9, 9, 9] &&
      CloneView(v).payload[..4] == [0, 0, 0, 0] &&
      CloneBufferAsWritten(v.(payload := [9, 9])).None?
  {
    var h := Header(Zeros(32), Zeros(32), Zeros(64), Zeros(64), 0, [], [1, 2, 3, 4], 0, 3);
    var v := View(RMR_OK, 1, UNSET_SUBID, 0, 0, 0, 0, 0, true, h, [9, 9, 9, 9, 9, 9, 9, 9]);
    CloneSpillsAsWritten(v);
    assert CloneView(v).payload[..4] == Zeros(4);
  }

  /**
    Corrected, the clone of a message of any version carries its header and
    the first `len` bytes of its payload and nothing more; as written, the
    source builds the same buffer when the header is not version 1 and
    announces no more trace, d1 and d2 bytes than `len`.
  */
  lemma CloneKeepsContentAllVersions(v: View)
    requires v.hasTp && 0 <= v.len <= |v.payload|
    ensures CloneView(v).hdr == v.hdr && CloneView(v).payload[..v.len] == v.payload[..v.len]
    ensures forall i :: v.len <= i < |v.payload| ==> CloneView(v).payload[i] == 0
    ensures v.hdr.version != 1 && VarLen(v.hdr) <= v.len ==> CloneBufferAsWritten(v) == Some(CloneView(v))
  {
  }

  // ---- mtosend_msg: route key and groups ------------------------------------------

  /**
    What the round-robin selector yields for a key and a group: the
    per-group outcome list of the key's entry (true when an endpoint's
    socket is obtained) and whether a further group follows.
  */
  function Probe(routes: map<int, seq<bool>>, key: int, group: int): (r: (bool, bool)) {
    if key in routes && 0 <= group < |routes[key]| then (routes[key][group], group + 1 < |routes[key]|)
    else (false, false)
  }

  function Groups(routes: map<int, seq<bool>>, key: int): nat {
    if key in routes then |routes[key]| else 0
  }

  /**
    The sends of mtosend_msg from `group` on, as (key, group) pairs, and
    whether it ended with a send (false: it ended with NOENDPT).  A group
    with no socket switches once to the alternate key, at the same group,
    when that is still allowed.
  */
  function Route(routes: map<int, seq<bool>>, key: int, alt: int, altOk: bool, group: nat): (r: (seq<(int, int)>, bool))
    decreases if altOk then 1 else 0, Groups(routes, key) - group
  {
    var (ok, more) := Probe(routes, key, group);
    if !ok then
      if altOk then Route(routes, alt, alt, false, group) else ([], false)
    else if more then
      var rest := Route(routes, key, alt, altOk, group + 1);
      ([(key, group)] + rest.0, rest.1)
    else ([(key, group)], true)
  }

  /**
    mtosend_msg, the routing part: argument checks, the key from the
    message's sub-id and type, and one send per group, with the mtype-only
    key tried once when the message carries a sub-id.  Returns the sends in
    order and the state left in the message (RMR_OK when every group was
    handed to the transport; the transport's own result is not modelled).
  */
  method MtosendRoute(ctxOk: bool, msg: Msg?, routes: map<int, seq<bool>>) returns (sends: seq<(int, int)>, rc: int)
    requires msg != null ==> RouteTable.Int32(msg.subId) && RouteTable.Int32(msg.mtype)
    modifies msg
    ensures !ctxOk || msg == null ==> sends == [] && rc == RMR_ERR_BADARG
    ensures ctxOk && msg != null && !old(msg.hasTp) ==> sends == [] && rc == RMR_ERR_NOHDR
    ensures ctxOk && msg != null && old(msg.hasTp) ==>
      var r := Route(routes, RouteTable.BuildRtKey(old(msg.subId), old(msg.mtype)),
                     RouteTable.BuildRtKey(UNSET_SUBID, old(msg.mtype)), old(msg.subId) != UNSET_SUBID, 0);
      sends == r.0 && rc == (if r.1 then RMR_OK else RMR_ERR_NOENDPT)
    ensures msg != null && rc != RMR_OK ==> msg.state == rc
  {
    sends := [];
    if !ctxOk || msg == null {
      rc := RMR_ERR_BADARG;
      if msg != null {
        msg.state := rc;
      }
      return;
    }
    if !msg.hasTp {
      rc := RMR_ERR_NOHDR;
      msg.state := rc;
      return;
    }
    var alt := RouteTable.BuildRtKey(UNSET_SUBID, msg.mtype);
    var key := RouteTable.BuildRtKey(msg.subId, msg.mtype);
    var altOk := msg.subId != UNSET_SUBID;
    ghost var whole := Route(routes, key, alt, altOk, 0);
    var group: nat := 0;
    var sendAgain := true;
    while sendAgain
      invariant sendAgain ==> sends + Route(routes, key, alt, altOk, group).0 == whole.0 &&
                              Route(routes, key, alt, altOk, group).1 == whole.1
      invariant !sendAgain ==> sends == whole.0 && whole.1
      decreases sendAgain, if altOk then 1 else 0, Groups(routes, key) - group
    {
      var (ok, more) := Probe(routes, key, group);
      if !ok {
        if altOk {
          altOk := false;
          key := alt;
          sendAgain := true;
          continue;
        }
        assert Route(routes, key, alt, altOk, group) == ([], false);
        rc := RMR_ERR_NOENDPT;
        msg.state := rc;
        return;
      }
      ghost var rest := Route(routes, key, alt, altOk, group);
      assert more ==> rest.0 == [(key, group)] + Route(routes, key, alt, altOk, group + 1).0;
      assert !more ==> rest == ([(key, group)], true);
      sends := sends + [(key, group)];
      group := group + 1;
      sendAgain := more;
    }
    rc := RMR_OK;
  }

  /**
    Every send uses the full key or the mtype-only key; once a send has
    used the mtype-only key every later one does, so the switch happens at
    most once; without the fallback every send uses the full key.
  */
  predicate SwitchesOnce(s: seq<(int, int)>, key: int, alt: int, altOk: bool) {
    (forall i :: 0 <= i < |s| ==> s[i].0 == key || s[i].0 == alt) &&
    (forall i, j :: 0 <= i < j < |s| && s[i].0 == alt ==> s[j].0 == alt) &&
    (!altOk ==> forall i :: 0 <= i < |s| ==> s[i].0 == key)
  }

  lemma {:induction false} RouteKeys(routes: map<int, seq<bool>>, key: int, alt: int, altOk: bool, group: nat)
    ensures SwitchesOnce(Route(routes, key, alt, altOk, group).0, key, alt, altOk)
    decreases if altOk then 1 else 0, Groups(routes, key) - group
  {
    var s := Route(routes, key, alt, altOk, group).0;
    var (ok, more) := Probe(routes, key, group);
    if !ok {
      if altOk {
        assert s == Route(routes, alt, alt, false, group).0;
        RouteKeys(routes, alt, alt, false, group);
      } else {
        assert s == [];
      }
    } else if more {
      RouteKeys(routes, key, alt, altOk, group + 1);
      var rest := Route(routes, key, alt, altOk, group + 1).0;
      assert SwitchesOnce(rest, key, alt, altOk);
      assert s == [(key, group)] + rest;
      forall i | 0 <= i < |s|
        ensures s[i].0 == key || s[i].0 == alt
        ensures !altOk ==> s[i].0 == key
      {
        if i > 0 {
          assert s[i] == rest[i - 1];
        }
      }
      forall i, j | 0 <= i < j < |s| && s[i].0 == alt
        ensures s[j].0 == alt
      {
        assert s[j] == rest[j - 1];
        if i > 0 {
          assert s[i] == rest[i - 1];
        } else {
          assert key == alt;
        }
      }
    } else {
      assert s == [(key, group)];
    }
  }

  /** With every group of the full key reachable, one send goes to each group in order, under that key. */
  lemma {:induction false} RouteAllGroups(routes: map<int, seq<bool>>, key: int, alt: int, altOk: bool, group: nat)
    requires key in routes && group < |routes[key]|
    requires forall g :: 0 <= g < |routes[key]| ==> routes[key][g]
    ensures var r := Route(routes, key, alt, altOk, group);
      r.1 && |r.0| == |routes[key]| - group &&
      forall i :: 0 <= i < |r.0| ==> r.0[i] == (key, group + i)
    decreases |routes[key]| - group
  {
    if group + 1 < |routes[key]| {
      RouteAllGroups(routes, key, alt, altOk, group + 1);
    }
  }

  /** With neither key routed, nothing is sent and the message ends with NOENDPT. */
  lemma RouteUnrouted(routes: map<int, seq<bool>>, key: int, alt: int, altOk: bool)
    requires key !in routes && (altOk ==> alt !in routes)
    ensures Route(routes, key, alt, altOk, 0) == ([], false)
  {
  }

  /** A message with a sub-id whose full key is unrouted reaches the mtype-only key's groups. */
  lemma RouteFallsBack(routes: map<int, seq<bool>>, key: int, alt: int)
    requires key !in routes
    ensures Route(routes, key, alt, true, 0) == Route(routes, alt, alt, false, 0)
  {
  }
}

=== FILE: py_rmr.dfy ===
/*
  The Python binding's own logic (rmr.py): the state-code to state-name
  mapping built from the library's constant table and cached, the status
  name of a state, the summary of a message, and the helpers that set a
  payload and a transaction id.  Calls into the C library are outside the
  model: the constant table, the meid and source strings, the payload size
  and the transport errno arrive as parameters; the uuid is a parameter.
*/
module PyRmr {
  import opened Common
  import opened Mbuf
  import MbufApi

  /** The constant table as json.loads returns it: members in order. */
  type Consts = seq<(string, int)>

  /** A dict: no member name twice. */
  predicate DistinctKeys(c: Consts) {
    forall i, j :: 0 <= i < j < |c| ==> c[i].0 != c[j].0
  }

  /**
    dict.get(key, default) on the dict json.loads builds, where a later
    member overwrites an earlier one with the same name: the value of the
    last member with that name, or the default when there is none.
  */
  function Get(c: Consts, key: string, default: int): (v: int)
    ensures (forall i :: 0 <= i < |c| ==> c[i].0 != key) ==> v == default
    ensures (exists i :: 0 <= i < |c| && c[i].0 == key) ==>
      exists j :: 0 <= j < |c| && c[j] == (key, v) && forall k :: j < k < |c| ==> c[k].0 != key
  {
    if c == [] then default
    else if c[|c| - 1].0 == key then c[|c| - 1].1
    else Get(c[..|c| - 1], key, default)
  }

  // ---- _get_mapping_dict, _state_to_status -----------------------------------------

  /** The test `key[:7] in ["RMR_ERR", "RMR_OK"]`. */
  predicate StateName(key: string) {
    var p := if |key| <= 7 then key else key[..7];
    p == "RMR_ERR" || p == "RMR_OK"
  }

  /** The names kept are exactly "RMR_OK" and those starting "RMR_ERR". */
  lemma StateNameIff(key: string)
    ensures StateName(key) <==> key == "RMR_OK" || (|key| >= 7 && key[..7] == "RMR_ERR")
  {
  }

  /** The mapping the loop builds: state value to name, a later name overwriting an earlier one. */
  function StateNames(c: Consts): map<int, string> {
    if c == [] then map[]
    else
      var m := StateNames(c[..|c| - 1]);
      var kv := c[|c| - 1];
      if StateName(kv.0) then m[kv.1 := kv.0] else m
  }

  /** Every value in the mapping came from a state member, and is named by one. */
  lemma {:induction false} StateNamesFrom(c: Consts, n: int)
    requires n in StateNames(c)
    ensures exists i :: 0 <= i < |c| && StateName(c[i].0) && c[i] == (StateNames(c)[n], n)
    decreases |c|
  {
    var p := c[..|c| - 1];
    var kv := c[|c| - 1];
    if !(StateName(kv.0) && kv.1 == n) {
      StateNamesFrom(p, n);
      var i :| 0 <= i < |p| && StateName(p[i].0) && p[i] == (StateNames(p)[n], n);
      assert c[i] == p[i];
    }
  }

  /**
    A state member's value is in the mapping, and names that member unless
    a later state member has the same value.
  */
  lemma {:induction false} StateNamesHas(c: Consts, i: int)
    requires 0 <= i < |c| && StateName(c[i].0)
    requires forall j :: i < j < |c| && StateName(c[j].0) ==> c[j].1 != c[i].1
    ensures c[i].1 in StateNames(c) && StateNames(c)[c[i].1] == c[i].0
    decreases |c|
  {
    if i < |c| - 1 {
      var p := c[..|c| - 1];
      assert p[i] == c[i];
      StateNamesHas(p, i);
    }
  }

  /** _state_to_status: the name of a state, "UNKNOWN STATE" for a value the mapping lacks. */
  function StateToStatus(sdict: map<int, string>, n: int): string {
    if n in sdict then sdict[n] else "UNKNOWN STATE"
  }

  /**
    A state is reported unknown exactly when no state member of the table
    has its value; otherwise its status is the name of such a member.
  */
  lemma StatusKnown(c: Consts, n: int)
    ensures StateToStatus(StateNames(c), n) == "UNKNOWN STATE" <==>
            forall i :: 0 <= i < |c| && StateName(c[i].0) ==> c[i].1 != n
    ensures StateToStatus(StateNames(c), n) != "UNKNOWN STATE" ==>
            exists i :: 0 <= i < |c| && StateName(c[i].0) && c[i] == (StateToStatus(StateNames(c), n), n)
  {
    if n in StateNames(c) {
      StateNamesFrom(c, n);
      var i :| 0 <= i < |c| && StateName(c[i].0) && c[i] == (StateNames(c)[n], n);
      NotUnknown(c[i].0);
    } else {
      forall i | 0 <= i < |c| && StateName(c[i].0)
        ensures c[i].1 != n
      {
        if c[i].1 == n {
          var j := LastWithValue(c, i);
          StateNamesHas(c, j);
        }
      }
    }
  }

  lemma NotUnknown(key: string)
    requires StateName(key)
    ensures key != "UNKNOWN STATE"
  {
    assert "UNKNOWN STATE"[..7] == "UNKNOWN";
  }

  /** The last state member with the same value as member i. */
  lemma {:induction false} LastWithValue(c: Consts, i: int) returns (j: int)
    requires 0 <= i < |c| && StateName(c[i].0)
    ensures i <= j < |c| && StateName(c[j].0) && c[j].1 == c[i].1
    ensures forall k :: j < k < |c| && StateName(c[k].0) ==> c[k].1 != c[i].1
    decreases |c| - i
  {
    if exists k :: i < k < |c| && StateName(c[k].0) && c[k].1 == c[i].1 {
      var k :| i < k < |c| && StateName(c[k].0) && c[k].1 == c[i].1;
      j := LastWithValue(c, k);
    } else {
      j := i;
    }
  }

  /** The state constants of rmr.h, as rmr_get_consts lists them. */
  const RmrStates: Consts := [
    ("RMR_OK", RMR_OK), ("RMR_ERR_BADARG", RMR_ERR_BADARG), ("RMR_ERR_NOENDPT", RMR_ERR_NOENDPT),
    ("RMR_ERR_EMPTY", RMR_ERR_EMPTY), ("RMR_ERR_NOHDR", RMR_ERR_NOHDR),
    ("RMR_ERR_SENDFAILED", RMR_ERR_SENDFAILED), ("RMR_ERR_CALLFAILED", RMR_ERR_CALLFAILED),
    ("RMR_ERR_NOWHOPEN", RMR_ERR_NOWHOPEN), ("RMR_ERR_WHID", RMR_ERR_WHID),
    ("RMR_ERR_OVERFLOW", RMR_ERR_OVERFLOW), ("RMR_ERR_RETRY", RMR_ERR_RETRY),
    ("RMR_ERR_RCVFAILED", RMR_ERR_RCVFAILED), ("RMR_ERR_TIMEOUT", RMR_ERR_TIMEOUT),
    ("RMR_ERR_UNSET", RMR_ERR_UNSET), ("RMR_ERR_TRUNC", RMR_ERR_TRUNC),
    ("RMR_ERR_INITFAILED", RMR_ERR_INITFAILED)]

  /** With the library's states, 0 reads "RMR_OK", 12 "RMR_ERR_TIMEOUT" and 666 is unknown. */
  lemma StandardStatuses()
    ensures StateToStatus(StateNames(RmrStates), RMR_OK) == "RMR_OK"
    ensures StateToStatus(StateNames(RmrStates), RMR_ERR_TIMEOUT) == "RMR_ERR_TIMEOUT"
    ensures StateToStatus(StateNames(RmrStates), 666) == "UNKNOWN STATE"
  {
    forall j | 0 < j < |RmrStates|
      ensures RmrStates[j].1 == j
    {
    }
    assert StateName(RmrStates[0].0) && StateName(RmrStates[12].0);
    StateNamesHas(RmrStates, 0);
    StateNamesHas(RmrStates, 12);
    StatusKnown(RmrStates, 666);
  }

  /** The binding's module state: the mapping cache (a mutable default argument in Python). */
  class Binding {
    var cache: map<int, string>

    constructor ()
      ensures cache == map[]
    {
      cache := map[];
    }

    /**
      _get_mapping_dict: a non-empty cache is returned as it is; otherwise
      the state members of the table are entered into the cache, value to
      name, and the cache is returned.  A second call therefore returns
      the same mapping.
    */
    method GetMappingDict(c: Consts) returns (r: map<int, string>)
      requires DistinctKeys(c)
      modifies this
      ensures old(cache) != map[] ==> r == old(cache)
      ensures old(cache) == map[] ==> r == StateNames(c)
      ensures cache == r
    {
      if cache != map[] {
        return cache;
      }
      for k := 0 to |c|
        invariant cache == StateNames(c[..k])
      {
        assert c[..k + 1][..k] == c[..k];
        if StateName(c[k].0) {
          cache := cache[c[k].1 := c[k].0];
        }
      }
      assert c[..|c|] == c;
      r := cache;
    }
  }

  // ---- message_summary and the payload and id helpers ------------------------------

  /** The text message_summary returns for an oversized message. */
  const MALFORMED: string := "Malformed message: message length is greater than the maximum possible"

  datatype Summary =
    | Malformed(text: string)
    | Summary(payload: seq<byte>, payloadLen: int, mtype: int, subId: int, xid: seq<byte>,
              state: int, status: string, payloadMax: int, meid: Option<string>,
              source: string, errno: int)

  /** get_payload: the first `len` bytes of the payload. */
  function GetPayload(v: View): (p: seq<byte>)
    requires 0 <= v.len <= |v.payload|
    ensures |p| == v.len && p == v.payload[..v.len]
  {
    v.payload[..v.len]
  }

  /** Python's s[:n]. */
  function PyPrefix<T>(s: seq<T>, n: int): (r: seq<T>)
    ensures |r| <= |s| && r == s[..|r|]
    ensures 0 <= n <= |s| ==> |r| == n
  {
    if n >= 0 then s[..Min(n, |s|)] else s[..if |s| + n < 0 then 0 else |s| + n]
  }

  /** get_xaction: the C string in the id field, cut to RMR_MAX_XID (0 when the table lacks it). */
  function GetXaction(xid: seq<byte>, c: Consts): seq<byte> {
    PyPrefix(MbufApi.CString(xid), Get(c, "RMR_MAX_XID", 0))
  }

  /** "\000" * n. */
  function Nuls(n: int): (s: string)
    ensures |s| == (if n < 0 then 0 else n) && forall i :: 0 <= i < |s| ==> s[i] == '\0'
  {
    if n <= 0 then [] else seq(n, _ => '\0')
  }

  /**
    message_summary: the malformed-message text when len exceeds
    RMR_MAX_RCV_BYTES; otherwise the fields of the buffer, its payload,
    the status name of its state, and its meid, which is None when it is
    all NUL characters.
  */
  function MessageSummary(v: View, c: Consts, sdict: map<int, string>, maxRcv: int,
                          meid: string, src: string, payloadMax: int, errno: int): (r: Summary)
    requires v.len <= maxRcv ==> 0 <= v.len <= |v.payload|
    ensures r.Malformed? <==> v.len > maxRcv
    ensures r.Summary? ==> r.payload == v.payload[..v.len] && r.payloadLen == |r.payload|
    ensures r.Summary? ==> (r.meid == None <==> meid == Nuls(Get(c, "RMR_MAX_MEID", 32)))
    ensures r.Summary? && r.meid.Some? ==> r.meid.value == meid
  {
    if v.len > maxRcv then Malformed(MALFORMED)
    else
      var m := if meid == Nuls(Get(c, "RMR_MAX_MEID", 32)) then None else Some(meid);
      Summary(GetPayload(v), v.len, v.mtype, v.subId, GetXaction(v.hdr.xid, c), v.state,
              StateToStatus(sdict, v.state), payloadMax, m, src, errno)
  }

  /** A summarised message reports its state by the name the table gives it. */
  lemma SummaryStatus(v: View, c: Consts, maxRcv: int, meid: string, src: string, payloadMax: int, errno: int)
    requires 0 <= v.len <= maxRcv && v.len <= |v.payload|
    ensures var r := MessageSummary(v, c, StateNames(c), maxRcv, meid, src, payloadMax, errno);
      r.Summary? && r.state == v.state && r.mtype == v.mtype &&
      (r.status == "UNKNOWN STATE" <==> forall i :: 0 <= i < |c| && StateName(c[i].0) ==> c[i].1 != v.state)
  {
    StatusKnown(c, v.state);
  }

  /**
    The buffer after set_payload_and_length: the bytes at the front of the
    payload and len their count. Nothing checks that they fit: bytes longer
    than the payload area fill it, the rest are written past it (memory the
    model does not hold), and len still becomes their count.
  */
  function WithPayload(v: View, bytes: seq<byte>): View
  {
    if |bytes| <= |v.payload| then v.(payload := bytes + v.payload[|bytes|..], len := |bytes|)
    else v.(payload := bytes[..|v.payload|], len := |bytes|)
  }

  /** set_payload_and_length. */
  method SetPayloadAndLength(bytes: seq<byte>, m: Msg)
    modifies m
    ensures m.Snapshot() == WithPayload(old(m.Snapshot()), bytes)
  {
    if |bytes| <= |m.payload| {
      m.payload := bytes + m.payload[|bytes|..];
    } else {
      m.payload := bytes[..|m.payload|];
    }
    m.len := |bytes|;
  }

  /**
    Bytes longer than the payload area leave len beyond the area, with the
    area holding their first bytes and every other field kept: the overrun
    the binding does not guard against.
  */
  lemma PayloadOverrun(v: View, bytes: seq<byte>)
    requires |bytes| > |v.payload|
    ensures var w := WithPayload(v, bytes);
      w.len > |w.payload| && |w.payload| == |v.payload| && bytes == w.payload + bytes[|v.payload|..] &&
      w == v.(payload := w.payload, len := |bytes|)
  {
  }

  /** What was set is what get_payload reads back, and the payload area keeps its size. */
  lemma PayloadRoundTrip(v: View, bytes: seq<byte>)
    requires |bytes| <= |v.payload|
    ensures |WithPayload(v, bytes).payload| == |v.payload|
    ensures GetPayload(WithPayload(v, bytes)) == bytes
  {
    assert (bytes + v.payload[|bytes|..])[..|bytes|] == bytes;
  }

  /**
    generate_and_set_transaction_id with the generated id `uid` (the hex
    form of a uuid1): its first RMR_MAX_XID bytes (0 when the table lacks
    the constant) are copied over the front of the id field.
  */
  method GenerateAndSetTransactionId(m: Msg, uid: seq<byte>, c: Consts)
    requires 0 <= Get(c, "RMR_MAX_XID", 0) <= |uid| && Get(c, "RMR_MAX_XID", 0) <= |m.hdr.xid|
    modifies m
    ensures m.Snapshot() == old(m.Snapshot()).(hdr := old(m.hdr).(xid := Overlay(old(m.hdr.xid), uid, Get(c, "RMR_MAX_XID", 0))))
  {
    var sz := Get(c, "RMR_MAX_XID", 0);
    m.hdr := m.hdr.(xid := Overlay(m.hdr.xid, uid, sz));
  }

  /**
    An id that fills the field and has no NUL in it reads back with
    get_xaction as the id itself.
  */
  lemma XactionRoundTrip(xid: seq<byte>, uid: seq<byte>, c: Consts)
    requires Get(c, "RMR_MAX_XID", 0) == |xid| <= |uid|
    requires MbufApi.CStr(uid)
    ensures GetXaction(Overlay(xid, uid, |xid|), c) == uid[..|xid|]
  {
    var f := Overlay(xid, uid, |xid|);
    assert f == uid[..|xid|];
    CStrWhole(f);
  }

  lemma {:induction false} CStrWhole(s: seq<byte>)
    requires MbufApi.CStr(s)
    ensures MbufApi.CString(s) == s
    decreases |s|
  {
    if s != [] {
      CStrWhole(s[1..]);
      assert [s[0]] + s[1..] == s;
    }
  }
}

=== FILE: ring.dfy ===
/*
  The bounded ring queue of ring_static.c: a fixed array of slots with a
  16-bit head (next slot to fill) and tail (next slot to drain). One slot is
  always left empty so that head == tail means "empty", so a ring built with
  nelements slots holds at most nelements - 1 items.
*/
module Ring {
  import opened Common

  /** The largest uint16 value, (uint16)(0 - 1). */
  const U16_MAX: int := 65535

  /**
    The slot count uta_mk_ring stores for a requested size: sizes at or above
    U16_MAX are reduced by one, and the result is truncated to 16 bits.
  */
  function SlotCount(size: int): (n: int)
    requires size > 0
    ensures 0 <= n <= U16_MAX
    ensures size < U16_MAX ==> n == size
  {
    (if size >= U16_MAX then size - 1 else size) % 65536
  }

  /** How many items a ring of n slots can hold. */
  function Capacity(n: int): int
  {
    if n <= 0 then 0 else n - 1
  }

  /** The slot i places after start, wrapping once at n. */
  function Slot(start: int, i: int, n: int): int
  {
    if start + i < n then start + i else start + i - n
  }

  /** The insert guard of uta_ring_insert: true when the ring is full. */
  predicate InsertBlocked(head: int, tail: int, n: int)
  {
    head + 1 == tail || (head + 1 >= n && tail == 0)
  }

  /**
    With head placed count slots after tail, the insert guard fires exactly
    when count has reached the capacity.
  */
  lemma BlockedIffFull(head: int, tail: int, n: int, count: int)
    requires n > 0 && 0 <= tail < n && 0 <= count < n
    requires head == Slot(tail, count, n)
    ensures InsertBlocked(head, tail, n) <==> count == Capacity(n)
  {
    if tail + count < n {
      assert head == tail + count;
    } else {
      assert head == tail + count - n;
    }
  }

  /** Every requested size gives a ring that reports full before size items. */
  lemma CapacityBelowSize(size: int)
    requires size > 0
    ensures Capacity(SlotCount(size)) < size
    ensures size < U16_MAX ==> Capacity(SlotCount(size)) == size - 1
  {
  }

  class Ring<T(0)> {
    var data: array<T>
    var head: int        // uint16 in the source
    var tail: int        // uint16 in the source
    var nelements: int   // uint16 in the source
    ghost var Contents: seq<T>

    ghost predicate Valid()
      reads this, data
    {
      0 <= nelements <= U16_MAX && data.Length == nelements + 1 &&
      (if nelements == 0 then head == 0 && tail == 0 && Contents == []
       else 0 <= tail < nelements && |Contents| < nelements &&
            head == Slot(tail, |Contents|, nelements) &&
            forall i :: 0 <= i < |Contents| ==> Contents[i] == data[Slot(tail, i, nelements)])
    }

    constructor Init(n: int)
      requires 0 <= n <= U16_MAX
      ensures Valid() && fresh(data) && nelements == n && Contents == []
    {
      data := new T[n + 1];
      head, tail, nelements := 0, 0, n;
      Contents := [];
    }

    /** uta_ring_insert: 1 (true) when stored, 0 (false) when the ring is full. */
    method Insert(x: T) returns (ok: bool)
      requires Valid()
      modifies this, data
      ensures Valid() && data == old(data) && nelements == old(nelements)
      ensures ok <==> |old(Contents)| < Capacity(nelements)
      ensures Contents == if ok then old(Contents) + [x] else old(Contents)
    {
      if nelements > 0 {
        BlockedIffFull(head, tail, nelements, |Contents|);
      }
      if head + 1 == tail || (head + 1 >= nelements && tail == 0) {
        return false;
      }
      data[head] := x;
      head := head + 1;
      if head >= nelements {
        head := 0;
      }
      Contents := Contents + [x];
      return true;
    }

    /** uta_ring_extract: the oldest item, or None (nil) when the ring is empty. */
    method Extract() returns (r: Option<T>)
      requires Valid()
      modifies this
      ensures Valid() && data == old(data) && nelements == old(nelements)
      ensures old(Contents) == [] ==> r == None && Contents == []
      ensures old(Contents) != [] ==> r == Some(old(Contents)[0]) && Contents == old(Contents)[1..]
    {
      if tail == head {
        return None;
      }
      var ti := tail;
      tail := tail + 1;
      if tail >= nelements {
        tail := 0;
      }
      Contents := Contents[1..];
      return Some(data[ti]);
    }
  }

  /** uta_mk_ring: nil for a size of zero or less, else an empty ring. */
  method MkRing<T(0)>(size: int) returns (r: Ring?<T>)
    ensures size <= 0 ==> r == null
    ensures size > 0 ==> r != null && fresh(r) && fresh(r.data) && r.Valid() &&
                         r.Contents == [] && r.nelements == SlotCount(size)
  {
    if size <= 0 {
      return null;
    }
    r := new Ring.Init(SlotCount(size));
  }
}

=== FILE: rmr_si.dfy ===
/*
  The argument checks and bookkeeping of the SI public API (rmr_si.c):
  the payload size of a buffer, the send timeout, readiness, the zero-wait
  receive from the message ring, receiving a specific transaction id while
  queueing the others, the call-id checks and header set-up of the
  multi-threaded call, and the sender fields around a return-to-sender.

  The transport is outside the model.  Messages a blocking receive would
  deliver are a sequence of snapshots; what a send hands back is a
  parameter; the endpoint lookup by address is a boolean parameter.
*/
module RmrSi {
  import opened Common
  import opened Mbuf
  import MbufApi
  import Ring
  import MtCallSi

  /** The "not supported" status the multi-threaded call reports. */
  const RMR_ERR_NOTSUPP: int := 16

  /** The parts of the SI context these operations read and write. */
  class SiCtx {
    var sendRetries: int
    var hasRtable: bool          // ctx->rtable != NULL
    var mtcEnabled: bool         // CFL_MTC_ENABLED
    var myName: seq<byte>
    /** The ring received messages wait on. */
    const mring: Ring.Ring<View>
    /** Per call id: the reply parked for the caller, and the transaction id it waits for. */
    const chuteMsg: array<Option<View>>
    const chuteExpect: array<seq<byte>>

    ghost predicate Valid()
      reads this, mring, mring.data
    {
      mring.Valid() && chuteMsg.Length == MAX_CALL_ID + 1 && chuteExpect.Length == MAX_CALL_ID + 1 &&
      MbufApi.CStr(myName)
    }

    constructor (name: seq<byte>, ringSize: int)
      requires MbufApi.CStr(name)
      requires 0 <= ringSize <= Ring.U16_MAX
      ensures Valid() && myName == name && mring.Contents == []
      ensures sendRetries == 1 && !hasRtable && !mtcEnabled
    {
      sendRetries, hasRtable, mtcEnabled, myName := 1, false, false, name;
      mring := new Ring.Ring.Init(ringSize);
      chuteMsg := new Option<View>[MAX_CALL_ID + 1](_ => None);
      chuteExpect := new seq<byte>[MAX_CALL_ID + 1](_ => []);
    }
  }

  // ---------------------------------------------------------------------------
  // rmr_payload_size, rmr_set_stimeout, rmr_ready
  // ---------------------------------------------------------------------------

  /**
    The payload space of a buffer: -1 with EINVAL for a nil buffer or one
    without a transport buffer, otherwise the allocation less the header
    and the transport prefix.
  */
  method PayloadSize(msg: Msg?) returns (n: int, errno: int)
    ensures msg == null || !msg.hasTp <==> n == -1 && errno == EINVAL
    ensures msg != null && msg.hasTp ==> n == msg.allocLen - HdrLen(msg.hdr) - TP_HDR_LEN && errno == 0
  {
    if msg == null || !msg.hasTp {
      return -1, EINVAL;
    }
    n, errno := msg.allocLen - HdrLen(msg.hdr) - TP_HDR_LEN, 0;
  }

  /** For a laid-out SI buffer the size reported is exactly its payload area. */
  lemma PayloadSizeIsRoom(v: View)
    requires v.hasTp && ViewOk(v) && v.tpPrefix == TP_HDR_LEN
    ensures v.allocLen - HdrLen(v.hdr) - TP_HDR_LEN == |v.payload| >= 0
  {
  }

  /** Sets the send retry budget; negative values become 0.  -1 for a nil context. */
  method SetStimeout(ctx: SiCtx?, time: int) returns (rc: int)
    modifies ctx
    ensures ctx == null ==> rc == -1
    ensures ctx != null ==> rc == RMR_OK && ctx.sendRetries == (if time < 0 then 0 else time) >= 0
    ensures ctx != null ==> ctx.hasRtable == old(ctx.hasRtable) && ctx.mtcEnabled == old(ctx.mtcEnabled) && ctx.myName == old(ctx.myName)
  {
    if ctx == null {
      return -1;
    }
    var t := time;
    if t < 0 {
      t := 0;
    }
    ctx.sendRetries := t;
    rc := RMR_OK;
  }

  /** True exactly when there is a context and it holds a route table. */
  method Ready(ctx: SiCtx?) returns (r: bool)
    ensures r <==> ctx != null && ctx.hasRtable
  {
    if ctx == null {
      return false;
    }
    if ctx.hasRtable {
      return true;
    }
    return false;
  }

  // ---------------------------------------------------------------------------
  // rmr_mt_rcv with a zero wait
  // ---------------------------------------------------------------------------

  /**
    The one-shot poll: with no context the caller's buffer comes back
    marked BADARG; otherwise the head of the ring is popped and returned,
    or, when the ring is empty, the caller's buffer comes back marked
    TIMEOUT with length 0.  `r` is the returned buffer.
  */
  method MtRcvPoll(ctx: SiCtx?, mbuf: Msg?) returns (r: Option<View>)
    requires ctx != null ==> ctx.mring.Valid()
    modifies mbuf, if ctx != null then {ctx.mring} else {}
    ensures ctx == null ==>
      (mbuf == null ==> r == None) &&
      (mbuf != null ==> mbuf.Snapshot() == old(mbuf.Snapshot()).(state := RMR_ERR_BADARG) && r == Some(mbuf.Snapshot()))
    ensures ctx != null ==> ctx.mring.Valid() && ctx.mring.data == old(ctx.mring.data)
    ensures ctx != null && old(ctx.mring.Contents) != [] ==>
      r == Some(old(ctx.mring.Contents)[0]) && ctx.mring.Contents == old(ctx.mring.Contents)[1..]
    ensures ctx != null && old(ctx.mring.Contents) == [] ==>
      ctx.mring.Contents == [] &&
      (mbuf == null ==> r == None) &&
      (mbuf != null ==> mbuf.Snapshot() == old(mbuf.Snapshot()).(state := RMR_ERR_TIMEOUT, len := 0) && r == Some(mbuf.Snapshot()))
  {
    if ctx == null {
      if mbuf != null {
        mbuf.state := RMR_ERR_BADARG;
        return Some(mbuf.Snapshot());
      }
      return None;
    }
    r := ctx.mring.Extract();
    if r.None? && mbuf != null {
      mbuf.state := RMR_ERR_TIMEOUT;
      mbuf.len := 0;
      r := Some(mbuf.Snapshot());
    }
  }

  // ---------------------------------------------------------------------------
  // rmr_rcv_specific
  // ---------------------------------------------------------------------------

  /** The message's transaction id starts with the n bytes expected. */
  predicate Matches(m: View, want: seq<byte>, n: int)
  {
    0 <= n <= |want| && n <= |m.hdr.xid| && m.hdr.xid[..n] == want[..n]
  }

  /** Received with an OK state, but not the awaited reply: such messages are queued. */
  predicate Other(m: View, want: seq<byte>, n: int)
  {
    m.state == RMR_OK && !Matches(m, want, n)
  }

  /** The messages of `s` that are queued while waiting, in arrival order. */
  function Others(s: seq<View>, want: seq<byte>, n: int): (r: seq<View>)
    ensures |r| <= |s|
    ensures forall k :: 0 <= k < |r| ==> Other(r[k], want, n)
  {
    if s == [] then []
    else (if Other(s[0], want, n) then [s[0]] else []) + Others(s[1..], want, n)
  }

  /** How a wait ends: a buffer (or nil) is returned, or the transport has nothing more yet. */
  datatype Outcome = Returned(m: Option<View>) | Waiting | Delegated

  /**
    The end of a wait: its outcome and errno, the messages pushed onto the
    ring, and how many arrivals were taken from the transport.
  */
  datatype Waited = Waited(out: Outcome, errno: int, queued: seq<View>, used: nat)

  /**
    The wait loop over the arrivals from index i, with `acc` queued so far:
    it stops with ETIMEDOUT once allow2queue messages are queued, returns
    the first OK message whose id matches, skips messages whose state is
    not OK, and queues the others until the ring has no room (ENOBUFS; the
    message in hand is then neither queued nor returned).
  */
  function Wait(arr: seq<View>, i: nat, want: seq<byte>, n: int, allow: int, room: int, acc: seq<View>): Waited
    requires i <= |arr|
    decreases |arr| - i
  {
    if |acc| >= allow then Waited(Returned(None), ETIMEDOUT, acc, i)
    else if i == |arr| then Waited(Waiting, 0, acc, i)
    else if arr[i].state != RMR_OK then Wait(arr, i + 1, want, n, allow, room, acc)
    else if Matches(arr[i], want, n) then Waited(Returned(Some(arr[i])), 0, acc, i + 1)
    else if |acc| >= room then Waited(Returned(None), ENOBUFS, acc, i + 1)
    else Wait(arr, i + 1, want, n, allow, room, acc + [arr[i]])
  }

  lemma OthersCons(arr: seq<View>, i: nat, u: nat, want: seq<byte>, n: int)
    requires i < u <= |arr|
    ensures Others(arr[i..u], want, n) ==
            (if Other(arr[i], want, n) then [arr[i]] else []) + Others(arr[i + 1..u], want, n)
  {
    assert arr[i..u][0] == arr[i];
    assert arr[i..u][1..] == arr[i + 1..u];
  }

  lemma OthersOne(arr: seq<View>, i: nat, want: seq<byte>, n: int)
    requires i < |arr|
    ensures Others(arr[i..i + 1], want, n) == if Other(arr[i], want, n) then [arr[i]] else []
  {
    assert arr[i..i + 1][1..] == [];
  }

  /**
    A wait takes arrivals from index i on; a returned message is the last
    arrival taken, and it is OK and carries the awaited id; nil is returned
    only on a timeout or a full ring.
  */
  lemma {:induction false} WaitTakes(arr: seq<View>, i: nat, want: seq<byte>, n: int, allow: int, room: int, acc: seq<View>, w: Waited)
    requires i <= |arr| && w == Wait(arr, i, want, n, allow, room, acc)
    ensures i <= w.used <= |arr|
    ensures w.errno == ENOBUFS ==> i < w.used
    ensures w.out == Returned(None) <==> w.errno == ETIMEDOUT || w.errno == ENOBUFS
    ensures w.out.Returned? && w.out.m.Some? ==>
      i < w.used && w.errno == 0 && w.out.m.value == arr[w.used - 1] &&
      w.out.m.value.state == RMR_OK && Matches(w.out.m.value, want, n)
    decreases |arr| - i
  {
    if |acc| >= allow || i == |arr| {
    } else if arr[i].state != RMR_OK {
      WaitTakes(arr, i + 1, want, n, allow, room, acc, w);
    } else if Matches(arr[i], want, n) || |acc| >= room {
    } else {
      WaitTakes(arr, i + 1, want, n, allow, room, acc + [arr[i]], w);
    }
  }

  /**
    What a wait leaves on the ring: the messages queued before it, then
    every OK arrival it took that did not carry the awaited id, in arrival
    order -- all but the last such arrival when the ring was full, since
    that one is dropped.
  */
  lemma {:induction false} WaitQueues(arr: seq<View>, i: nat, want: seq<byte>, n: int, allow: int, room: int, acc: seq<View>, w: Waited)
    requires i <= |arr| && w == Wait(arr, i, want, n, allow, room, acc)
    ensures i <= w.used <= |arr|
    ensures w.errno == ENOBUFS ==>
      i < w.used && w.queued + [arr[w.used - 1]] == acc + Others(arr[i..w.used], want, n)
    ensures w.errno != ENOBUFS ==> w.queued == acc + Others(arr[i..w.used], want, n)
    decreases |arr| - i
  {
    WaitTakes(arr, i, want, n, allow, room, acc, w);
    if |acc| >= allow || i == |arr| {
      assert arr[i..i] == [];
    } else if arr[i].state != RMR_OK {
      WaitQueues(arr, i + 1, want, n, allow, room, acc, w);
      OthersCons(arr, i, w.used, want, n);
      assert Others(arr[i..w.used], want, n) == Others(arr[i + 1..w.used], want, n);
    } else if Matches(arr[i], want, n) || |acc| >= room {
      OthersOne(arr, i, want, n);
    } else {
      WaitQueues(arr, i + 1, want, n, allow, room, acc + [arr[i]], w);
      OthersCons(arr, i, w.used, want, n);
      var rest := Others(arr[i + 1..w.used], want, n);
      assert Others(arr[i..w.used], want, n) == [arr[i]] + rest;
      assert (acc + [arr[i]]) + rest == acc + ([arr[i]] + rest);
    }
  }

  /**
    The counts of a wait that starts with room for at least what it may
    queue: a timeout has queued exactly allow2queue messages, a full ring
    exactly the room there was, and no wait queues more than either.
  */
  lemma {:induction false} WaitCounts(arr: seq<View>, i: nat, want: seq<byte>, n: int, allow: int, room: int, acc: seq<View>)
    requires i <= |arr| && |acc| <= allow && |acc| <= room
    ensures var w := Wait(arr, i, want, n, allow, room, acc);
      |w.queued| <= allow && |w.queued| <= room &&
      (w.errno == ETIMEDOUT ==> |w.queued| == allow) &&
      (w.errno == ENOBUFS ==> |w.queued| == room)
    decreases |arr| - i
  {
    if |acc| >= allow || i == |arr| {
    } else if arr[i].state != RMR_OK {
      WaitCounts(arr, i + 1, want, n, allow, room, acc);
    } else if Matches(arr[i], want, n) || |acc| >= room {
    } else {
      WaitCounts(arr, i + 1, want, n, allow, room, acc + [arr[i]]);
    }
  }

  /**
    rmr_rcv_specific.  With no context the caller's buffer comes back marked
    BADARG with errno EINVAL.  With no expected id (nil or empty) the call
    is a plain receive, which is outside the model (`Delegated`).  Otherwise
    the arrivals are taken one at a time as `Wait` describes, comparing the
    first min(length of want, RMR_MAX_XID) bytes of each transaction id and
    pushing the others onto the context's ring.
  */
  method RcvSpecific(ctx: SiCtx?, msg: Msg?, want: Option<seq<byte>>, allow2queue: int, arrivals: seq<View>)
    returns (r: Outcome, errno: int)
    requires ctx != null ==> ctx.mring.Valid()
    requires want.Some? ==> MbufApi.CStr(want.value)
    modifies msg, if ctx != null then {ctx.mring, ctx.mring.data} else {}
    ensures ctx == null ==> errno == EINVAL
    ensures ctx == null ==>
      (msg == null ==> r == Returned(None)) &&
      (msg != null ==> msg.Snapshot() == old(msg.Snapshot()).(state := RMR_ERR_BADARG) && r == Returned(Some(msg.Snapshot())))
    ensures ctx != null ==> ctx.mring.Valid() && ctx.mring.data == old(ctx.mring.data)
    ensures ctx != null && (want.None? || want.value == []) ==>
      r == Delegated && errno == 0 && ctx.mring.Contents == old(ctx.mring.Contents)
    ensures ctx != null && want.Some? && want.value != [] ==>
      var w := Wait(arrivals, 0, want.value, Min(|want.value|, RMR_MAX_XID), allow2queue,
                    Ring.Capacity(ctx.mring.nelements) - |old(ctx.mring.Contents)|, []);
      r == w.out && errno == w.errno && ctx.mring.Contents == old(ctx.mring.Contents) + w.queued
  {
    if ctx == null {
      errno := EINVAL;
      if msg != null {
        msg.state := RMR_ERR_BADARG;
        return Returned(Some(msg.Snapshot())), errno;
      }
      return Returned(None), errno;
    }
    errno := 0;
    if want.None? || want.value == [] {
      return Delegated, errno;
    }
    var x := want.value;
    var n := Min(|x|, RMR_MAX_XID);
    ghost var room := Ring.Capacity(ctx.mring.nelements) - |ctx.mring.Contents|;
    ghost var c0 := ctx.mring.Contents;
    ghost var whole := Wait(arrivals, 0, x, n, allow2queue, room, []);
    ghost var acc: seq<View> := [];
    var queued := 0;
    var i := 0;
    while queued < allow2queue
      invariant 0 <= i <= |arrivals| && queued == |acc|
      invariant ctx.mring.Valid() && ctx.mring.data == old(ctx.mring.data)
      invariant ctx.mring.nelements == old(ctx.mring.nelements)
      invariant ctx.mring.Contents == c0 + acc
      invariant room == Ring.Capacity(ctx.mring.nelements) - |c0|
      invariant Wait(arrivals, i, x, n, allow2queue, room, acc) == whole
      decreases |arrivals| - i
    {
      if i == |arrivals| {
        return Waiting, errno;
      }
      var m := arrivals[i];
      i := i + 1;
      if m.state == RMR_OK {
        if Matches(m, x, n) {
          return Returned(Some(m)), errno;
        }
        var ok := ctx.mring.Insert(m);
        if !ok {
          return Returned(None), ENOBUFS;
        }
        queued := queued + 1;
        acc := acc + [m];
      }
    }
    r, errno := Returned(None), ETIMEDOUT;
  }

  // ---------------------------------------------------------------------------
  // rmr_mt_call: the checks and the header set-up before the send
  // ---------------------------------------------------------------------------

  /** The header of a call: the call flag set and the call id in d1. */
  function CallHeader(h: Header, callId: int): (r: Header)
    requires |h.d1| > D1_CALLID_IDX && 0 <= callId <= MAX_CALL_ID
    ensures HasFlag(r.flags, HFL_CALL_MSG)
  {
    h.(flags := WithFlag(h.flags, HFL_CALL_MSG), d1 := h.d1[D1_CALLID_IDX := callId as byte])
  }

  /**
    The checks of rmr_mt_call and what it sets up before the send: BADARG
    for a nil context or buffer, NOTSUPP when multi-threaded calls are not
    enabled, BADARG for a call id outside 2..MAX_CALL_ID (0 and 1 are
    reserved).  Past the checks the chute for the id is emptied and told to
    expect the buffer's transaction id, the header becomes a call header,
    and the buffer is flagged to be sent without a replacement allocation.
    `proceed` says the call goes on to the send.
  */
  method MtCallSetup(ctx: SiCtx?, mbuf: Msg?, callId: int) returns (proceed: bool)
    requires ctx != null ==> ctx.Valid()
    requires mbuf != null ==> |mbuf.hdr.d1| > D1_CALLID_IDX
    modifies mbuf, if ctx != null then {ctx.chuteMsg, ctx.chuteExpect} else {}
    ensures proceed <==> ctx != null && mbuf != null && ctx.mtcEnabled && 2 <= callId <= MAX_CALL_ID
    ensures mbuf != null && (ctx == null || (ctx.mtcEnabled && !(2 <= callId <= MAX_CALL_ID))) ==>
      mbuf.Snapshot() == old(mbuf.Snapshot()).(state := RMR_ERR_BADARG)
    ensures mbuf != null && ctx != null && !ctx.mtcEnabled ==>
      mbuf.Snapshot() == old(mbuf.Snapshot()).(state := RMR_ERR_NOTSUPP)
    ensures !proceed && ctx != null ==>
      ctx.chuteMsg[..] == old(ctx.chuteMsg[..]) && ctx.chuteExpect[..] == old(ctx.chuteExpect[..])
    ensures proceed ==>
      mbuf.Snapshot() == old(mbuf.Snapshot()).(flags := WithFlag(old(mbuf.flags), MFL_NOALLOC),
                                               hdr := CallHeader(old(mbuf.hdr), callId)) &&
      ctx.chuteMsg[..] == old(ctx.chuteMsg[..])[callId := None] &&
      ctx.chuteExpect[..] == old(ctx.chuteExpect[..])[callId := old(mbuf.hdr.xid)]
  {
    if ctx == null || mbuf == null {
      if mbuf != null {
        mbuf.state := RMR_ERR_BADARG;
      }
      return false;
    }
    if !ctx.mtcEnabled {
      mbuf.state := RMR_ERR_NOTSUPP;
      return false;
    }
    if callId > MAX_CALL_ID || callId < 2 {
      mbuf.state := RMR_ERR_BADARG;
      return false;
    }
    if ctx.chuteMsg[callId].Some? {
      ctx.chuteMsg[callId] := None;
    }
    mbuf.hdr := mbuf.hdr.(flags := WithFlag(mbuf.hdr.flags, HFL_CALL_MSG));
    ctx.chuteExpect[callId] := mbuf.hdr.xid;
    mbuf.hdr := mbuf.hdr.(d1 := mbuf.hdr.d1[D1_CALLID_IDX := callId as byte]);
    mbuf.flags := WithFlag(mbuf.flags, MFL_NOALLOC);
    proceed := true;
  }

  // ---------------------------------------------------------------------------
  // rmr_rts_msg
  // ---------------------------------------------------------------------------

  /** The buffer as handed to the transport: OK state, call flag off, our name as sender. */
  function RtsView(v: View, myName: seq<byte>): (r: View)
    ensures !HasFlag(r.hdr.flags, HFL_CALL_MSG) && |r.hdr.src| == RMR_MAX_SRC
  {
    v.(state := RMR_OK,
       hdr := v.hdr.(flags := WithoutFlag(v.hdr.flags, HFL_CALL_MSG),
                     src := MbufApi.Strncpy(myName, RMR_MAX_SRC)))
  }

  /** A buffer coming back from the send: the held sender fields copied back, and flagged to add a source. */
  function RestoredView(v: View, orig: Header): (r: View)
    ensures HasFlag(r.flags, MFL_ADDSRC)
  {
    v.(flags := WithFlag(v.flags, MFL_ADDSRC),
       hdr := v.hdr.(src := MbufApi.Strncpy(MbufApi.CString(orig.src), RMR_MAX_SRC),
                     srcip := MbufApi.Strncpy(MbufApi.CString(orig.srcip), RMR_MAX_SRC)))
  }

  /**
    rmr_rts_msg.  BADARG for a nil context or buffer; NOHDR for a buffer
    without a transport buffer.  The call flag is then cleared.  A buffer
    without the connection it arrived on needs an endpoint for its sender
    address, looked up only for header versions above 2 (`ipKnown` is that
    lookup's answer); without one the result is NOENDPT.  Otherwise the
    buffer is sent under our name (`sent`), and the buffer the send hands
    back (`back`, which is the same buffer when the send failed, with
    `sendState` in it) gets the original sender name and address back.
  */
  method RtsMsg(ctx: SiCtx?, msg: Msg?, ipKnown: bool, back: Msg?, sendState: int)
    returns (r: Msg?, sent: Option<View>)
    requires msg != null ==> msg.Valid()
    requires msg != null && msg.hasTp ==>
      |MbufApi.CString(msg.hdr.src)| < |msg.hdr.src| && |MbufApi.CString(msg.hdr.srcip)| < |msg.hdr.srcip|
    modifies msg, back
    ensures ctx == null || msg == null ==>
      r == msg && sent == None && (msg != null ==> msg.Snapshot() == old(msg.Snapshot()).(state := RMR_ERR_BADARG))
    ensures ctx != null && msg != null && !old(msg.hasTp) ==>
      r == msg && sent == None && msg.Snapshot() == old(msg.Snapshot()).(state := RMR_ERR_NOHDR)
    ensures ctx != null && msg != null && old(msg.hasTp) && old(msg.rtsFd) < 0 && !(old(msg.hdr.version) > 2 && ipKnown) ==>
      r == msg && sent == None &&
      msg.Snapshot() == old(msg.Snapshot()).(state := RMR_ERR_NOENDPT,
                                             hdr := old(msg.hdr).(flags := WithoutFlag(old(msg.hdr.flags), HFL_CALL_MSG)))
    ensures ctx != null && msg != null && old(msg.hasTp) && (old(msg.rtsFd) >= 0 || (old(msg.hdr.version) > 2 && ipKnown)) ==>
      sent == Some(RtsView(old(msg.Snapshot()), ctx.myName)) && r == back &&
      (back == msg ==> msg.Snapshot() == RestoredView(RtsView(old(msg.Snapshot()), ctx.myName).(state := sendState), old(msg.hdr))) &&
      (back != msg ==> msg.Snapshot() == RtsView(old(msg.Snapshot()), ctx.myName)) &&
      (back != null && back != msg ==> back.Snapshot() == RestoredView(old(back.Snapshot()), old(msg.hdr)))
  {
    if ctx == null || msg == null {
      if msg != null {
        msg.state := RMR_ERR_BADARG;
      }
      return msg, None;
    }
    if !msg.hasTp {
      msg.state := RMR_ERR_NOHDR;
      return msg, None;
    }
    msg.hdr := msg.hdr.(flags := WithoutFlag(msg.hdr.flags, HFL_CALL_MSG));
    if msg.rtsFd < 0 {
      var sockOk := false;
      if msg.hdr.version > 2 {
        sockOk := ipKnown;
      }
      if !sockOk {
        msg.state := RMR_ERR_NOENDPT;
        return msg, None;
      }
    }
    msg.state := RMR_OK;
    var holdSrc := MbufApi.CString(msg.hdr.src);
    var holdIp := MbufApi.CString(msg.hdr.srcip);
    msg.hdr := msg.hdr.(src := MbufApi.Strncpy(ctx.myName, RMR_MAX_SRC));
    sent := Some(msg.Snapshot());
    r := back;
    if r != null {
      if r == msg {
        r.state := sendState;
      }
      r.hdr := r.hdr.(src := MbufApi.Strncpy(holdSrc, RMR_MAX_SRC));
      r.hdr := r.hdr.(srcip := MbufApi.Strncpy(holdIp, RMR_MAX_SRC));
      r.flags := WithFlag(r.flags, MFL_ADDSRC);
    }
  }

  /**
    Whatever buffer comes back from a return-to-sender reads, as C strings,
    the sender name and address the original message carried, so it can be
    returned to the same sender again.
  */
  lemma RestoredReadsBack(v: View, orig: Header)
    requires HeaderOk(orig)
    requires |MbufApi.CString(orig.src)| < |orig.src| && |MbufApi.CString(orig.srcip)| < |orig.srcip|
    ensures MbufApi.CString(RestoredView(v, orig).hdr.src) == MbufApi.CString(orig.src)
    ensures MbufApi.CString(RestoredView(v, orig).hdr.srcip) == MbufApi.CString(orig.srcip)
  {
    MbufApi.StrncpyReadsBack(MbufApi.CString(orig.src), RMR_MAX_SRC);
    MbufApi.StrncpyReadsBack(MbufApi.CString(orig.srcip), RMR_MAX_SRC);
  }

  /**
    A call's reply finds its caller: the responder returns the call message
    to its sender, which clears the call flag and keeps d1, and the
    receiving side then routes the reply to the chute of the call id.
    The call message itself is never taken for a reply.
  */
  lemma CallReplyReachesChute(v: View, callId: int, myName: seq<byte>)
    requires |v.hdr.d1| > D1_CALLID_IDX && 2 <= callId <= MAX_CALL_ID
    ensures MtCallSi.RouteOf(CallHeader(v.hdr, callId)) == MtCallSi.Normal
    ensures MtCallSi.RouteOf(RtsView(v.(hdr := CallHeader(v.hdr, callId)), myName).hdr) == MtCallSi.ToChute(callId)
  {
    var h := RtsView(v.(hdr := CallHeader(v.hdr, callId)), myName).hdr;
    assert h.d1[D1_CALLID_IDX] as int == callId;
  }
}

=== FILE: route_table.dfy ===
/*
  Route tables and their reference-counted entries.

  A route table maps a 64-bit key (sub-id and message type) to a route table
  entry, and holds the set of endpoint names it knows.  Entries are shared:
  a partial update clones the active table's entries into the table under
  construction, so one entry can be referenced from the new, the active and
  the old table at once.  Entries therefore live in a store indexed by
  identity, and each table maps keys to identities.  An entry's `refs`
  counts the tables that reference it, and the entry is freed when that
  count drops to zero.
*/
module RouteTable {
  import opened Common

  const TWO_32: int := 0x1_0000_0000
  /** The high half of a key built without a sub-id. */
  const UNSET_HIGH: int := 0xffff_ffff_0000_0000
  /** Group slots allocated when the caller asks for none. */
  const DEFAULT_GROUPS: int := 10
  /** Endpoints a round-robin group can hold. */
  const MAX_EP_GROUP: int := 32
  /** ep_idx is an unsigned 16-bit counter. */
  const TWO_16: int := 0x1_0000

  /** A round-robin group: the endpoints in use (nused == |epts|) and the next index. */
  datatype Group = Group(epts: seq<string>, epIdx: int)

  /** A route table entry: its key, reference count and group slots (nil slots are None). */
  datatype Rte = Rte(key: int, refs: int, groups: seq<Option<Group>>)

  /** A route table: entry identities by key, known endpoint names, update count. */
  datatype Table = Table(entries: map<int, nat>, eps: set<string>, updates: int)

  predicate Int32(x: int) {
    -0x8000_0000 <= x < 0x8000_0000
  }

  /**
    build_rt_key.  Without a sub-id the key is the constant high half OR-ed
    with the sign-extended message type; otherwise the sub-id, widened and
    shifted left by 32 bits, is OR-ed with the low 32 bits of the message
    type.  Either way the key holds the 32-bit sub-id above the 32-bit
    message type, so UNSET_SUBID gives a high half of all ones.
  */
  function BuildRtKey(subId: int, mtype: int): (key: int)
    requires Int32(subId) && Int32(mtype)
    ensures 0 <= key < TWO_64
    ensures key / TWO_32 == subId % TWO_32 && key % TWO_32 == mtype % TWO_32
  {
    if subId == UNSET_SUBID then
      var ext := if mtype < 0 then TWO_64 + mtype else mtype;   // (uint64_t) mtype
      // OR with all ones in the high half: a negative type already has them.
      if mtype < 0 then ext else UNSET_HIGH + ext
    else
      var shifted := ((subId % TWO_64) * TWO_32) % TWO_64;         // (uint64_t) sub_id << 32
      ShiftedBits(subId);
      shifted + mtype % TWO_32                                  // disjoint bits: OR is addition
  }

  /** Shifting a widened sub-id left by 32 keeps only its low 32 bits. */
  lemma ShiftedBits(subId: int)
    requires Int32(subId)
    ensures ((subId % TWO_64) * TWO_32) % TWO_64 == (subId % TWO_32) * TWO_32
  {
    if subId < 0 {
      assert subId % TWO_64 == TWO_64 + subId;
      assert subId % TWO_32 == TWO_32 + subId;
      calc {
        ((TWO_64 + subId) * TWO_32) % TWO_64;
        { assert (TWO_64 + subId) * TWO_32 == (TWO_32 + subId) * TWO_32 + (TWO_32 - 1) * TWO_64; }
        ((TWO_32 + subId) * TWO_32 + (TWO_32 - 1) * TWO_64) % TWO_64;
        (TWO_32 + subId) * TWO_32;
      }
    }
  }

  /** Distinct sub-id/type pairs give distinct keys. */
  lemma KeyInjective(s1: int, m1: int, s2: int, m2: int)
    requires Int32(s1) && Int32(m1) && Int32(s2) && Int32(m2)
    requires BuildRtKey(s1, m1) == BuildRtKey(s2, m2)
    ensures s1 == s2 && m1 == m2
  {
    var k := BuildRtKey(s1, m1);
    assert s1 % TWO_32 == s2 % TWO_32 && m1 % TWO_32 == m2 % TWO_32;
    Int32ModInjective(s1, s2);
    Int32ModInjective(m1, m2);
  }

  lemma Int32ModInjective(a: int, b: int)
    requires Int32(a) && Int32(b) && a % TWO_32 == b % TWO_32
    ensures a == b
  {
    assert a % TWO_32 == (if a < 0 then a + TWO_32 else a);
    assert b % TWO_32 == (if b < 0 then b + TWO_32 else b);
  }

  /** A key built without a sub-id has all ones in its high 32 bits. */
  lemma UnsetKeyHighHalf(mtype: int)
    requires Int32(mtype)
    ensures BuildRtKey(UNSET_SUBID, mtype) / TWO_32 == 0xffff_ffff
    ensures BuildRtKey(UNSET_SUBID, mtype) == UNSET_HIGH + mtype % TWO_32
  {
    var k := BuildRtKey(UNSET_SUBID, mtype);
    assert k == (k / TWO_32) * TWO_32 + k % TWO_32;
  }

  // ---- tables and the entry store ------------------------------------------------

  /** No two keys of a table map to the same entry. */
  predicate Injective(m: map<int, nat>) {
    forall k1, k2 :: k1 in m && k2 in m && m[k1] == m[k2] ==> k1 == k2
  }

  /** Every entry a table references is live and filed under its own key. */
  predicate TableOk(t: Option<Table>, store: map<nat, Rte>) {
    t.Some? ==>
      Injective(t.value.entries) &&
      forall k :: k in t.value.entries ==> t.value.entries[k] in store && store[t.value.entries[k]].key == k
  }

  /** The entry identities a map of keys references. */
  function Vals(m: map<int, nat>): set<nat> {
    set k | k in m :: m[k]
  }

  /** The entry identities a table references. */
  function Ids(t: Option<Table>): set<nat> {
    if t.Some? then Vals(t.value.entries) else {}
  }

  /** 1 when the table references the entry, else 0. */
  function In(t: Option<Table>, id: nat): int {
    if id in Ids(t) then 1 else 0
  }

  /**
    An endpoint list fits its group and names real endpoints, and the
    round-robin index is a 16-bit value.
  */
  predicate GroupOk(g: Group) {
    |g.epts| <= MAX_EP_GROUP && 0 <= g.epIdx < TWO_16 &&
    forall j :: 0 <= j < |g.epts| ==> g.epts[j] != ""
  }

  /** Every group an entry holds is well formed. */
  predicate GroupsOk(e: Rte) {
    forall g :: 0 <= g < |e.groups| && e.groups[g].Some? ==> GroupOk(e.groups[g].value)
  }

  /**
    del_rte applied once to every entry in `ids`: the count drops by one and
    an entry whose count reaches zero is freed.
  */
  function ReleaseAll(store: map<nat, Rte>, ids: set<nat>): (s: map<nat, Rte>)
    ensures forall id :: id in s <==> id in store && (id !in ids || store[id].refs > 1)
    ensures forall id :: id in s && id in ids ==> s[id] == store[id].(refs := store[id].refs - 1)
    ensures forall id :: id in s && id !in ids ==> s[id] == store[id]
  {
    map id | id in store && (id !in ids || store[id].refs > 1) ::
      if id in ids then store[id].(refs := store[id].refs - 1) else store[id]
  }

  /** The clone_all reference bump: every entry in `ids` gains one reference. */
  function RetainAll(store: map<nat, Rte>, ids: set<nat>): (s: map<nat, Rte>)
    ensures s.Keys == store.Keys
    ensures forall id :: id in s && id in ids ==> s[id] == store[id].(refs := store[id].refs + 1)
    ensures forall id :: id in s && id !in ids ==> s[id] == store[id]
  {
    map id | id in store :: if id in ids then store[id].(refs := store[id].refs + 1) else store[id]
  }

  lemma ReleaseOneMore(store: map<nat, Rte>, done: set<nat>, x: nat)
    requires x !in done
    ensures x in ReleaseAll(store, done) ==> ReleaseAll(ReleaseAll(store, done), {x}) == ReleaseAll(store, done + {x})
  {
    if x in ReleaseAll(store, done) {
      var l := ReleaseAll(ReleaseAll(store, done), {x});
      var r := ReleaseAll(store, done + {x});
      assert l.Keys == r.Keys;
    }
  }

  /** An entry not yet released is still in the store. */
  lemma ReleaseKeeps(store: map<nat, Rte>, done: set<nat>, x: nat)
    requires x in store && x !in done
    ensures x in ReleaseAll(store, done)
  {
  }

  lemma ReleaseNone(store: map<nat, Rte>)
    ensures ReleaseAll(store, {}) == store
  {
    assert ReleaseAll(store, {}).Keys == store.Keys;
  }

  lemma RetainNone(store: map<nat, Rte>)
    ensures RetainAll(store, {}) == store
  {
    assert RetainAll(store, {}).Keys == store.Keys;
  }

  lemma RetainOneMore(store: map<nat, Rte>, done: set<nat>, x: nat)
    requires x !in done
    ensures RetainAll(RetainAll(store, done), {x}) == RetainAll(store, done + {x})
  {
    var l := RetainAll(RetainAll(store, done), {x});
    var r := RetainAll(store, done + {x});
    assert l.Keys == r.Keys;
  }

  /**
    Reference counting is exact: an entry is live iff some table references
    it, and its count is the number of tables (new, active, old) that do.
  */
  predicate RoutesOk(n: Option<Table>, a: Option<Table>, o: Option<Table>, store: map<nat, Rte>, nextId: nat) {
    TableOk(n, store) && TableOk(a, store) && TableOk(o, store) &&
    forall id :: id in store ==>
      id < nextId && store[id].refs == In(n, id) + In(a, id) + In(o, id) &&
      store[id].refs >= 1 && GroupsOk(store[id])
  }

  /** Starting a clone of the active table keeps the counts exact. */
  lemma CloneKeepsCounts(a: Option<Table>, o: Option<Table>, store: map<nat, Rte>, nextId: nat)
    requires RoutesOk(None, a, o, store, nextId)
    ensures a.Some? ==> RoutesOk(Some(Table(a.value.entries, a.value.eps, 0)), a, o, RetainAll(store, Ids(a)), nextId)
  {
  }

  /** The routing state of a context, as a value. */
  datatype RtState = RtState(newRt: Option<Table>, rt: Option<Table>, oldRt: Option<Table>,
                             store: map<nat, Rte>, nextId: nat)

  /**
    The routing part of the context: the table under construction, the
    active table and the previous one, and the entries they share.
  */
  class Routes {
    var newRt: Option<Table>
    var rt: Option<Table>
    var oldRt: Option<Table>
    var store: map<nat, Rte>
    var nextId: nat

    /** The reference counts are exact (RoutesOk). */
    predicate Valid()
      reads this
    {
      RoutesOk(newRt, rt, oldRt, store, nextId)
    }

    function State(): RtState
      reads this
    {
      RtState(newRt, rt, oldRt, store, nextId)
    }

    /** A context with no tables yet. */
    constructor ()
      ensures Valid() && newRt == None && rt == None && oldRt == None && store == map[]
    {
      newRt, rt, oldRt := None, None, None;
      store := map[];
      nextId := 0;
    }
  }

  /**
    uta_rt_drop: del_rte on every entry the table references, in table
    order.  The table itself is discarded by the caller.
  */
  method Drop(r: Routes, t: Option<Table>)
    requires Ids(t) <= r.store.Keys
    modifies r
    ensures r.store == ReleaseAll(old(r.store), Ids(t))
    ensures r.newRt == old(r.newRt) && r.rt == old(r.rt) && r.oldRt == old(r.oldRt) && r.nextId == old(r.nextId)
  {
    ReleaseEach(r, Ids(t));
  }

  /** The drop loop: del_rte on every entry in `ids`, one at a time. */
  method ReleaseEach(r: Routes, ids: set<nat>)
    requires ids <= r.store.Keys
    modifies r
    ensures r.store == ReleaseAll(old(r.store), ids)
    ensures r.newRt == old(r.newRt) && r.rt == old(r.rt) && r.oldRt == old(r.oldRt) && r.nextId == old(r.nextId)
  {
    var todo := ids;
    ghost var done: set<nat> := {};
    ghost var s0 := r.store;
    ReleaseNone(s0);
    while todo != {}
      invariant todo <= ids && done == ids - todo && ids <= s0.Keys
      invariant r.store == ReleaseAll(s0, done)
      invariant r.newRt == old(r.newRt) && r.rt == old(r.rt) && r.oldRt == old(r.oldRt) && r.nextId == old(r.nextId)
      decreases |todo|
    {
      var id :| id in todo;
      ReleaseNext(r, id, s0, done);
      todo := todo - {id};
      done := done + {id};
    }
  }

  /** One turn of the drop loop: the entry joins the released ones. */
  method ReleaseNext(r: Routes, id: nat, ghost s0: map<nat, Rte>, ghost done: set<nat>)
    requires r.store == ReleaseAll(s0, done) && id in s0 && id !in done
    modifies r
    ensures r.store == ReleaseAll(s0, done + {id})
    ensures r.newRt == old(r.newRt) && r.rt == old(r.rt) && r.oldRt == old(r.oldRt) && r.nextId == old(r.nextId)
  {
    ReleaseKeeps(s0, done, id);
    ReleaseOneMore(s0, done, id);
    DelRte(r, id);
  }

  /** del_rte: one reference fewer; freed when none remain. */
  method DelRte(r: Routes, id: nat)
    requires id in r.store
    modifies r
    ensures r.store == ReleaseAll(old(r.store), {id})
    ensures r.newRt == old(r.newRt) && r.rt == old(r.rt) && r.oldRt == old(r.oldRt) && r.nextId == old(r.nextId)
  {
    var e := r.store[id];
    if e.refs - 1 > 0 {
      r.store := r.store[id := e.(refs := e.refs - 1)];
    } else {
      r.store := r.store - {id};
    }
    assert r.store.Keys == ReleaseAll(old(r.store), {id}).Keys;
  }

  /**
    The entry-copying half of uta_rt_clone_all: every entry of the source
    gains a reference.  Returns the new table, which references the same
    entries and endpoints as the source.
  */
  method CloneAll(r: Routes, src: Option<Table>) returns (t: Option<Table>)
    modifies r
    ensures src.None? ==> t.None? && r.store == old(r.store)
    ensures src.Some? ==> t == Some(Table(src.value.entries, src.value.eps, 0))
    ensures r.store == RetainAll(old(r.store), Ids(src))
    ensures r.newRt == old(r.newRt) && r.rt == old(r.rt) && r.oldRt == old(r.oldRt) && r.nextId == old(r.nextId)
  {
    if src.None? {
      assert RetainAll(r.store, {}) == r.store;
      return None;
    }
    RetainEach(r, Ids(src));
    t := Some(Table(src.value.entries, src.value.eps, 0));
  }

  /** The clone loop: add_ref on every entry in `ids`, one at a time. */
  method RetainEach(r: Routes, ids: set<nat>)
    modifies r
    ensures r.store == RetainAll(old(r.store), ids)
    ensures r.newRt == old(r.newRt) && r.rt == old(r.rt) && r.oldRt == old(r.oldRt) && r.nextId == old(r.nextId)
  {
    var todo := ids;
    ghost var done: set<nat> := {};
    ghost var s0 := r.store;
    RetainNone(s0);
    while todo != {}
      invariant todo <= ids && done == ids - todo
      invariant r.store == RetainAll(s0, done)
      invariant r.newRt == old(r.newRt) && r.rt == old(r.rt) && r.oldRt == old(r.oldRt) && r.nextId == old(r.nextId)
      decreases |todo|
    {
      var id :| id in todo;
      RetainNext(r, id, s0, done);
      todo := todo - {id};
      done := done + {id};
    }
  }

  /** One turn of the clone loop: the entry joins the retained ones. */
  method RetainNext(r: Routes, id: nat, ghost s0: map<nat, Rte>, ghost done: set<nat>)
    requires r.store == RetainAll(s0, done) && id !in done
    modifies r
    ensures r.store == RetainAll(s0, done + {id})
    ensures r.newRt == old(r.newRt) && r.rt == old(r.rt) && r.oldRt == old(r.oldRt) && r.nextId == old(r.nextId)
  {
    RetainOneMore(s0, done, id);
    AddRef(r, id);
  }

  /** rte->refs++ on one entry. */
  method AddRef(r: Routes, id: nat)
    modifies r
    ensures r.store == RetainAll(old(r.store), {id})
    ensures r.newRt == old(r.newRt) && r.rt == old(r.rt) && r.oldRt == old(r.oldRt) && r.nextId == old(r.nextId)
  {
    if id in r.store {
      r.store := r.store[id := r.store[id].(refs := r.store[id].refs + 1)];
    }
    assert r.store.Keys == RetainAll(old(r.store), {id}).Keys;
  }

  // ---- entry maintenance in the table under construction -------------------------

  lemma ValuesAfterSet(m: map<int, nat>, key: int, v: nat, id: nat)
    requires Injective(m)
    ensures id in Vals(m[key := v]) <==> id == v || (id in Vals(m) && !(key in m && m[key] == id))
  {
    var m' := m[key := v];
    if id in Vals(m') && id != v {
      var k :| k in m' && m'[k] == id;
      assert k != key && m[k] == id;
    }
    if id in Vals(m) && !(key in m && m[key] == id) {
      var k :| k in m && m[k] == id;
      assert k != key && m'[k] == id;
    }
    if id == v {
      assert m'[key] == v;
    }
  }

  lemma ValuesAfterRemove(m: map<int, nat>, key: int, id: nat)
    requires Injective(m)
    ensures id in Vals(m - {key}) <==> id in Vals(m) && !(key in m && m[key] == id)
  {
    var m' := m - {key};
    if id in Vals(m') {
      var k :| k in m' && m'[k] == id;
      assert m[k] == id;
    }
    if id in Vals(m) && !(key in m && m[key] == id) {
      var k :| k in m && m[k] == id;
      assert k in m' && m'[k] == id;
    }
  }

  /** Filing a fresh entry under a key, in place of the one it held, keeps the counts exact. */
  lemma AddEntryKeepsCounts(t: Table, a: Option<Table>, o: Option<Table>, s0: map<nat, Rte>, s1: map<nat, Rte>,
                            nextId: nat, key: int, n: nat)
    requires RoutesOk(Some(t), a, o, s0, nextId)
    requires s1 == if key in t.entries then ReleaseAll(s0, {t.entries[key]}) else s0
    ensures RoutesOk(Some(t.(entries := t.entries[key := nextId])), a, o,
                     s1[nextId := Rte(key, 1, seq(n, _ => None))], nextId + 1)
  {
    var t' := t.(entries := t.entries[key := nextId]);
    var s := s1[nextId := Rte(key, 1, seq(n, _ => None))];
    AddEntryTablesOk(t, t', a, o, s0, s1, s, nextId, key, n);
    forall i | i in s
      ensures i < nextId + 1 && s[i].refs == In(Some(t'), i) + In(a, i) + In(o, i)
      ensures s[i].refs >= 1 && GroupsOk(s[i])
    {
      AddEntryCount(t, t', a, o, s0, s1, s, nextId, key, n, i);
    }
  }

  lemma AddEntryTablesOk(t: Table, t': Table, a: Option<Table>, o: Option<Table>,
                         s0: map<nat, Rte>, s1: map<nat, Rte>, s: map<nat, Rte>, nextId: nat, key: int, n: nat)
    requires RoutesOk(Some(t), a, o, s0, nextId)
    requires s1 == if key in t.entries then ReleaseAll(s0, {t.entries[key]}) else s0
    requires t' == t.(entries := t.entries[key := nextId]) && s == s1[nextId := Rte(key, 1, seq(n, _ => None))]
    ensures TableOk(Some(t'), s) && TableOk(a, s) && TableOk(o, s)
  {
    assert nextId !in s0;
  }

  lemma AddEntryCount(t: Table, t': Table, a: Option<Table>, o: Option<Table>,
                      s0: map<nat, Rte>, s1: map<nat, Rte>, s: map<nat, Rte>, nextId: nat, key: int, n: nat, i: nat)
    requires RoutesOk(Some(t), a, o, s0, nextId)
    requires s1 == if key in t.entries then ReleaseAll(s0, {t.entries[key]}) else s0
    requires t' == t.(entries := t.entries[key := nextId]) && s == s1[nextId := Rte(key, 1, seq(n, _ => None))]
    requires i in s
    ensures i < nextId + 1 && s[i].refs == In(Some(t'), i) + In(a, i) + In(o, i)
    ensures s[i].refs >= 1 && GroupsOk(s[i])
  {
    ValuesAfterSet(t.entries, key, nextId, i);
    if i == nextId {
      assert nextId !in s0;
      assert GroupsOk(s[i]);
    }
  }

  /**
    uta_add_rte on the table under construction: a new entry with one
    reference and `nrrgroups` empty group slots (10 when none are asked for)
    replaces whatever the key held, and the replaced entry loses the
    reference this table held on it.  Nil when no table is in progress.
  */
  method AddRte(r: Routes, key: int, nrrgroups: int) returns (id: Option<nat>)
    requires r.Valid()
    modifies r
    ensures r.Valid()
    ensures r.rt == old(r.rt) && r.oldRt == old(r.oldRt)
    ensures old(r.newRt).None? ==> id.None? && r.newRt == None && r.store == old(r.store) && r.nextId == old(r.nextId)
    ensures old(r.newRt).Some? ==>
      var t := old(r.newRt).value;
      var n := if nrrgroups <= 0 then DEFAULT_GROUPS else nrrgroups;
      var s := if key in t.entries then ReleaseAll(old(r.store), {t.entries[key]}) else old(r.store);
      id == Some(old(r.nextId)) && old(r.nextId) !in old(r.store) && r.nextId == old(r.nextId) + 1 &&
      r.newRt == Some(t.(entries := t.entries[key := old(r.nextId)])) &&
      r.store == s[old(r.nextId) := Rte(key, 1, seq(n, _ => None))]
  {
    if r.newRt.None? {
      return None;
    }
    var t := r.newRt.value;
    var n := if nrrgroups <= 0 then DEFAULT_GROUPS else nrrgroups;
    var newId := r.nextId;
    ghost var s0 := r.store;
    if key in t.entries {
      DelRte(r, t.entries[key]);
    }
    ghost var s1 := r.store;
    AddEntryKeepsCounts(t, r.rt, r.oldRt, s0, s1, newId, key, n);
    r.store := r.store[newId := Rte(key, 1, seq(n, _ => None))];
    r.newRt := Some(t.(entries := t.entries[key := newId]));
    r.nextId := r.nextId + 1;
    id := Some(newId);
  }

  /**
    The removal half of trash_entry: the key is unlinked from the table
    under construction and its entry loses that table's reference.
  */
  method DropEntry(r: Routes, key: int)
    requires r.Valid()
    modifies r
    ensures r.Valid()
    ensures r.rt == old(r.rt) && r.oldRt == old(r.oldRt) && r.nextId == old(r.nextId)
    ensures old(r.newRt).None? || key !in old(r.newRt).value.entries ==>
      r.newRt == old(r.newRt) && r.store == old(r.store)
    ensures old(r.newRt).Some? && key in old(r.newRt).value.entries ==>
      var t := old(r.newRt).value;
      r.newRt == Some(t.(entries := t.entries - {key})) &&
      r.store == ReleaseAll(old(r.store), {t.entries[key]})
  {
    if r.newRt.None? || key !in r.newRt.value.entries {
      return;
    }
    var t := r.newRt.value;
    RemoveEntryKeepsCounts(t, r.rt, r.oldRt, r.store, r.nextId, key);
    DelRte(r, t.entries[key]);
    r.newRt := Some(t.(entries := t.entries - {key}));
  }

  /** Unfiling one key of the table in progress, and releasing its entry, keeps the counts exact. */
  lemma RemoveEntryKeepsCounts(t: Table, a: Option<Table>, o: Option<Table>, store: map<nat, Rte>, nextId: nat, key: int)
    requires RoutesOk(Some(t), a, o, store, nextId) && key in t.entries
    ensures RoutesOk(Some(t.(entries := t.entries - {key})), a, o, ReleaseAll(store, {t.entries[key]}), nextId)
  {
    var t' := t.(entries := t.entries - {key});
    var s := ReleaseAll(store, {t.entries[key]});
    forall i | i in s
      ensures i < nextId && s[i].refs == In(Some(t'), i) + In(a, i) + In(o, i)
      ensures s[i].refs >= 1 && GroupsOk(s[i])
    {
      ValuesAfterRemove(t.entries, key, i);
    }
    forall k | k in t'.entries
      ensures t'.entries[k] in s && s[t'.entries[k]].key == k
    {
      ValuesAfterRemove(t.entries, key, t.entries[k]);
      assert t.entries[k] in Ids(Some(t));
    }
    RemoveKeepsOthers(t, a, o, store, nextId, key);
  }

  /** The active and old tables still find their entries once one key of the new table goes. */
  lemma RemoveKeepsOthers(t: Table, a: Option<Table>, o: Option<Table>, store: map<nat, Rte>, nextId: nat, key: int)
    requires RoutesOk(Some(t), a, o, store, nextId) && key in t.entries
    ensures TableOk(a, ReleaseAll(store, {t.entries[key]})) && TableOk(o, ReleaseAll(store, {t.entries[key]}))
  {
    assert t.entries[key] in Ids(Some(t));
    OtherTableKept(a, store, t.entries[key]);
    OtherTableKept(o, store, t.entries[key]);
  }

  /** A table whose entries are not the last reference to `id` survives releasing it. */
  lemma OtherTableKept(y: Option<Table>, store: map<nat, Rte>, id: nat)
    requires TableOk(y, store) && id in store
    requires id in Ids(y) ==> store[id].refs > 1
    ensures TableOk(y, ReleaseAll(store, {id}))
  {
    if y.Some? {
      forall k | k in y.value.entries
        ensures y.value.entries[k] in ReleaseAll(store, {id})
      {
        assert y.value.entries[k] in Ids(y);
      }
    }
  }

  // ---- table rotation ------------------------------------------------------------

  /**
    The end of a complete or partial table: the old table is dropped, the
    active table becomes the old one and the new table becomes active.
  */
  function Rotated(st: RtState): RtState {
    st.(oldRt := st.rt, rt := st.newRt, newRt := None, store := ReleaseAll(st.store, Ids(st.oldRt)))
  }

  /** The in-progress table is discarded and nothing replaces it. */
  function Abandoned(st: RtState): RtState {
    st.(newRt := None, store := ReleaseAll(st.store, Ids(st.newRt)))
  }

  /**
    newrt|start: the table in progress is dropped and a new one begins with
    only the active table's endpoints (uta_rt_clone), or empty.
  */
  function StartedNew(st: RtState): RtState {
    var a := Abandoned(st);
    a.(newRt := Some(Table(map[], if st.rt.Some? then st.rt.value.eps else {}, 0)))
  }

  /**
    update|start: the table in progress is dropped and a new one begins as
    a clone of everything in the active table (uta_rt_clone_all), or
    empty; its update count starts at zero.
  */
  function StartedUpdate(st: RtState): RtState {
    var a := Abandoned(st);
    if st.rt.Some? then
      a.(newRt := Some(Table(st.rt.value.entries, st.rt.value.eps, 0)), store := RetainAll(a.store, Ids(st.rt)))
    else a.(newRt := Some(Table(map[], {}, 0)))
  }

  /** One more record counted against the table in progress. */
  function Counted(st: RtState): RtState {
    if st.newRt.Some? then st.(newRt := Some(st.newRt.value.(updates := st.newRt.value.updates + 1))) else st
  }

  /** Releasing every entry of one of the three tables keeps the counts of the other two exact. */
  lemma ReleaseTable(x: Option<Table>, y: Option<Table>, z: Option<Table>, store: map<nat, Rte>, nextId: nat)
    requires RoutesOk(x, y, z, store, nextId)
    ensures RoutesOk(None, y, z, ReleaseAll(store, Ids(x)), nextId)
  {
    var s := ReleaseAll(store, Ids(x));
    forall id | id in s
      ensures id < nextId && s[id].refs == In(None, id) + In(y, id) + In(z, id)
      ensures s[id].refs >= 1 && GroupsOk(s[id])
    {
    }
    TableSurvives(y, x, z, store, nextId);
    TableSurvives(z, x, y, store, nextId);
  }

  /** A table other than the released one still finds its entries. */
  lemma TableSurvives(y: Option<Table>, x: Option<Table>, z: Option<Table>, store: map<nat, Rte>, nextId: nat)
    requires RoutesOk(x, y, z, store, nextId)
    ensures TableOk(y, ReleaseAll(store, Ids(x)))
  {
    if y.Some? {
      var s := ReleaseAll(store, Ids(x));
      forall k | k in y.value.entries
        ensures y.value.entries[k] in s && s[y.value.entries[k]].key == k
      {
        var id := y.value.entries[k];
        assert id in Ids(y);
      }
    }
  }

  method Rotate(r: Routes)
    requires r.Valid() && r.newRt.Some?
    modifies r
    ensures r.Valid()
    ensures r.State() == Rotated(old(r.State()))
  {
    ReleaseTable(r.oldRt, r.newRt, r.rt, r.store, r.nextId);
    Drop(r, r.oldRt);
    r.oldRt, r.rt, r.newRt := r.rt, r.newRt, None;
  }

  method Abandon(r: Routes)
    requires r.Valid()
    modifies r
    ensures r.Valid()
    ensures r.State() == Abandoned(old(r.State()))
  {
    ReleaseTable(r.newRt, r.rt, r.oldRt, r.store, r.nextId);
    Drop(r, r.newRt);
    r.newRt := None;
  }

  method StartNew(r: Routes)
    requires r.Valid()
    modifies r
    ensures r.Valid()
    ensures r.State() == StartedNew(old(r.State()))
  {
    Abandon(r);
    r.newRt := Some(Table(map[], if r.rt.Some? then r.rt.value.eps else {}, 0));
    assert Ids(r.newRt) == {};
  }

  method StartUpdate(r: Routes)
    requires r.Valid()
    modifies r
    ensures r.Valid()
    ensures r.State() == StartedUpdate(old(r.State()))
  {
    Abandon(r);
    ghost var s1 := r.store;
    var t := CloneAll(r, r.rt);
    if t.None? {
      r.newRt := Some(Table(map[], {}, 0));
      assert RetainAll(s1, Ids(r.rt)) == s1;
      assert Ids(r.newRt) == {};
    } else {
      CloneKeepsCounts(r.rt, r.oldRt, s1, r.nextId);
      r.newRt := t;
    }
  }

  /** new_rtable->updates++ on the table in progress. */
  method CountUpdate(r: Routes)
    requires r.Valid() && r.newRt.Some?
    modifies r
    ensures r.Valid()
    ensures r.State() == Counted(old(r.State()))
  {
    r.newRt := Some(r.newRt.value.(updates := r.newRt.value.updates + 1));
    assert Ids(r.newRt) == Ids(old(r.newRt));
  }

  /**
    A rotation makes the finished table active and keeps the one it
    replaces as the old table, whose entries lose their reference; an entry
    only the dropped old table held is freed, and every other entry stays.
  */
  lemma RotatedActivates(st: RtState)
    requires RoutesOk(st.newRt, st.rt, st.oldRt, st.store, st.nextId) && st.newRt.Some?
    ensures var s := Rotated(st);
      s.rt == st.newRt && s.oldRt == st.rt && s.newRt == None &&
      RoutesOk(s.newRt, s.rt, s.oldRt, s.store, s.nextId) &&
      forall id :: id in st.store && id !in Ids(st.oldRt) ==> id in s.store && s.store[id] == st.store[id]
  {
    ReleaseTable(st.oldRt, st.newRt, st.rt, st.store, st.nextId);
  }
}

=== FILE: rt_generic.dfy ===
/*
  The route-table record parser of rt_generic_static.c: the text helpers it
  uses (clip, ensure_nlterm, atoi), the building and deleting of entries
  from a record's fields, and parse_rt_rec, the state machine that moves
  tables between new, active and old.
*/
module RtGeneric {
  import opened Common
  import opened Tools
  import opened RouteTable
  import opened RtableSi

  // ---- whitespace ----------------------------------------------------------------

  /** isspace in the C locale. */
  predicate IsSpace(c: char) {
    c == ' ' || c == '\t' || c == '\n' || c == '\U{0B}' || c == '\U{0C}' || c == '\r'
  }

  /** The string after its leading whitespace. */
  function DropLeading(s: string): (r: string)
    ensures |r| <= |s|
    ensures r == [] || !IsSpace(r[0])
  {
    if s != [] && IsSpace(s[0]) then DropLeading(s[1..]) else s
  }

  /** DropLeading leaves a suffix of its argument. */
  lemma {:induction false} DropLeadingSuffix(s: string)
    ensures DropLeading(s) == s[|s| - |DropLeading(s)|..]
  {
    if s != [] && IsSpace(s[0]) {
      DropLeadingSuffix(s[1..]);
    }
  }

  /** What DropLeading drops is whitespace. */
  lemma {:induction false} DropLeadingDropsSpaces(s: string)
    ensures forall j :: 0 <= j < |s| - |DropLeading(s)| ==> IsSpace(s[j])
  {
    if s != [] && IsSpace(s[0]) {
      DropLeadingDropsSpaces(s[1..]);
      assert forall j :: 1 <= j < |s| - |DropLeading(s)| ==> s[j] == s[1..][j - 1];
    }
  }

  /**
    The trailing-whitespace trim clip and parse_rt_rec share: the scan walks
    back from the last character and never examines the first one, so a
    string of one character is left alone.
  */
  function TrimTrailing(s: string): (r: string)
    ensures |r| <= |s|
    ensures s != [] ==> r != []
    ensures |r| >= 2 ==> !IsSpace(r[|r| - 1])
  {
    if |s| <= 1 || !IsSpace(s[|s| - 1]) then s else TrimTrailing(s[..|s| - 1])
  }

  /** TrimTrailing leaves a prefix of its argument. */
  lemma {:induction false} TrimTrailingPrefix(s: string)
    ensures TrimTrailing(s) == s[..|TrimTrailing(s)|]
  {
    if !(|s| <= 1 || !IsSpace(s[|s| - 1])) {
      TrimTrailingPrefix(s[..|s| - 1]);
    }
  }

  /** What TrimTrailing drops is whitespace. */
  lemma {:induction false} TrimTrailingDropsSpaces(s: string)
    ensures forall j :: |TrimTrailing(s)| <= j < |s| ==> IsSpace(s[j])
  {
    if !(|s| <= 1 || !IsSpace(s[|s| - 1])) {
      TrimTrailingDropsSpaces(s[..|s| - 1]);
    }
  }

  /** Trimming twice trims no more. */
  lemma TrimTrailingIdempotent(s: string)
    ensures TrimTrailing(TrimTrailing(s)) == TrimTrailing(s)
  {
  }

  /** The leading-whitespace scan: skip characters while they are spaces. */
  method SkipSpace(buf: string) returns (b: string)
    ensures b == DropLeading(buf)
  {
    var i := 0;
    while i < |buf| && IsSpace(buf[i])
      invariant 0 <= i <= |buf|
      invariant DropLeading(buf[i..]) == DropLeading(buf)
    {
      assert buf[i..][1..] == buf[i + 1..];
      i := i + 1;
    }
    b := buf[i..];
  }

  /** The trailing-whitespace scan: back up from the end while the character is a space. */
  method TrimEnd(b: string) returns (r: string)
    ensures r == TrimTrailing(b)
  {
    if |b| == 0 {
      return b;
    }
    var e := |b| - 1;
    assert b[..e + 1] == b;
    while e > 0 && IsSpace(b[e])
      invariant 0 <= e < |b|
      invariant TrimTrailing(b[..e + 1]) == TrimTrailing(b)
    {
      assert b[..e + 1][..e] == b[..e];
      e := e - 1;
    }
    r := b[..e + 1];
  }

  // ---- clip ----------------------------------------------------------------------

  /** Cut the field at a '#' that follows whitespace (a trailing comment). */
  function CutComment(b: string): string {
    if '#' in b && IndexOf(b, '#') > 0 && IsSpace(b[IndexOf(b, '#') - 1]) then b[..IndexOf(b, '#')] else b
  }

  /**
    What clip leaves of a field: leading whitespace goes; a field that then
    starts with '#' is returned as it is; a '#' that follows whitespace
    starts a comment, which is cut off; trailing whitespace goes.
  */
  function Clipped(s: string): string {
    var b := DropLeading(s);
    if b != [] && b[0] == '#' then b else TrimTrailing(CutComment(b))
  }

  /** clip: the steps of the C function, one scan at a time. */
  method Clip(buf: string) returns (r: string)
    ensures r == Clipped(buf)
  {
    var b := SkipSpace(buf);
    if '#' in b {
      var tok := IndexOf(b, '#');
      if tok == 0 {
        return b;
      }
      if IsSpace(b[tok - 1]) {
        ClippedCuts(buf, tok);
        r := TrimEnd(b[..tok]);
        return;
      }
    }
    ClippedKeeps(buf);
    r := TrimEnd(b);
  }

  /** The comment case of Clipped: the field up to the '#' that follows whitespace. */
  lemma ClippedCuts(s: string, tok: int)
    requires '#' in DropLeading(s) && tok == IndexOf(DropLeading(s), '#')
    requires tok > 0 && IsSpace(DropLeading(s)[tok - 1])
    ensures Clipped(s) == TrimTrailing(DropLeading(s)[..tok])
  {
    IndexOfFirst(DropLeading(s), '#', 0);
  }

  /** The other cases of Clipped: the field with its trailing whitespace trimmed. */
  lemma ClippedKeeps(s: string)
    requires !('#' in DropLeading(s) && IndexOf(DropLeading(s), '#') > 0 && IsSpace(DropLeading(s)[IndexOf(DropLeading(s), '#') - 1]))
    requires !('#' in DropLeading(s) && IndexOf(DropLeading(s), '#') == 0)
    ensures Clipped(s) == TrimTrailing(DropLeading(s))
  {
  }

  /** A prefix of a string without c has no c either. */
  lemma PrefixLacks(x: string, r: string, c: char)
    requires |r| <= |x| && r == x[..|r|] && c !in x
    ensures c !in r
  {
    assert forall j :: 0 <= j < |r| ==> r[j] == x[j];
  }

  /** A clipped field starts with no whitespace and, unless it is a comment, ends with none. */
  lemma ClipTrims(s: string)
    ensures Clipped(s) == [] || !IsSpace(Clipped(s)[0])
    ensures Clipped(s) != [] && Clipped(s)[0] != '#' ==> !IsSpace(Clipped(s)[|Clipped(s)| - 1])
  {
    var b := DropLeading(s);
    if !(b != [] && b[0] == '#') {
      var c := CutComment(b);
      var r := TrimTrailing(c);
      assert r == Clipped(s);
      if c != [] {
        TrimTrailingPrefix(c);
        assert c[0] == b[0];
        assert r[0] == c[0];
        assert |r| == 1 ==> r[|r| - 1] == b[0];
      }
    }
  }

  /** A '#' that follows whitespace starts a comment: no '#' survives. */
  lemma ClipCutsComment(s: string)
    requires '#' in DropLeading(s)
    requires 0 < IndexOf(DropLeading(s), '#') && IsSpace(DropLeading(s)[IndexOf(DropLeading(s), '#') - 1])
    ensures '#' !in Clipped(s)
  {
    var b := DropLeading(s);
    IndexOfPrefix(b, '#');
    TrimTrailingPrefix(CutComment(b));
    PrefixLacks(CutComment(b), Clipped(s), '#');
  }

  /** A '#' inside a word is data: it survives the clip, where it stood. */
  lemma ClipKeepsWordHash(s: string)
    requires '#' in DropLeading(s)
    requires 0 < IndexOf(DropLeading(s), '#') && !IsSpace(DropLeading(s)[IndexOf(DropLeading(s), '#') - 1])
    ensures '#' in Clipped(s)
    ensures IndexOf(Clipped(s), '#') == IndexOf(DropLeading(s), '#')
  {
    var b := DropLeading(s);
    var i := IndexOf(b, '#');
    IndexOfFirst(b, '#', 0);
    assert CutComment(b) == b;
    var r := TrimTrailing(b);
    assert Clipped(s) == r;
    TrimTrailingDropsSpaces(b);
    assert !IsSpace(b[i]);
    assert i < |r|;
    TrimTrailingPrefix(b);
    IndexOfInPrefix(b, r, '#');
  }

  /** The first c of a string is the first c of any prefix that reaches it. */
  lemma {:induction false} IndexOfInPrefix(s: string, p: string, c: char)
    requires c in s && |p| <= |s| && p == s[..|p|] && IndexOf(s, c) < |p|
    ensures c in p && IndexOf(p, c) == IndexOf(s, c)
  {
    assert p[IndexOf(s, c)] == c;
    if s[0] != c {
      assert p[1..] == s[1..][..|p[1..]|];
      IndexOfInPrefix(s[1..], p[1..], c);
    }
  }

  /** Clipping a clipped field changes nothing. */
  lemma ClipIdempotent(s: string)
    ensures Clipped(Clipped(s)) == Clipped(s)
  {
    var b := DropLeading(s);
    var r := Clipped(s);
    ClipTrims(s);
    assert DropLeading(r) == r;
    if b != [] && b[0] == '#' {
    } else if '#' in b && IndexOf(b, '#') > 0 && IsSpace(b[IndexOf(b, '#') - 1]) {
      ClipCutsComment(s);
      ReclipNoHash(b, r);
    } else if '#' in b {
      ClipKeepsWordHash(s);
      ReclipWordHash(b, r);
    } else {
      TrimTrailingPrefix(b);
      PrefixLacks(b, r, '#');
      ReclipNoHash(b, r);
    }
  }

  /** A trimmed field without a '#' clips to itself. */
  lemma ReclipNoHash(b: string, r: string)
    requires '#' !in r && r == TrimTrailing(CutComment(b)) && DropLeading(r) == r
    ensures Clipped(r) == r
  {
    assert CutComment(r) == r;
    TrimTrailingIdempotent(CutComment(b));
  }

  /** A trimmed field whose first '#' sits inside a word clips to itself. */
  lemma ReclipWordHash(b: string, r: string)
    requires b != [] && b[0] != '#' && '#' in b && IndexOf(b, '#') > 0 && !IsSpace(b[IndexOf(b, '#') - 1])
    requires r == TrimTrailing(b) && DropLeading(r) == r
    requires '#' in r && IndexOf(r, '#') == IndexOf(b, '#')
    ensures Clipped(r) == r
  {
    var i := IndexOf(b, '#');
    TrimTrailingPrefix(b);
    assert r[i - 1] == b[i - 1];
    assert r[0] == b[0];
    assert CutComment(r) == r;
    TrimTrailingIdempotent(b);
  }

  // ---- ensure_nlterm -------------------------------------------------------------

  /**
    ensure_nlterm as written: a nil buffer or one shorter than two
    characters becomes a fresh "\n", discarding a one-character buffer's
    contents; a buffer not ending in a newline gets one appended.
  */
  function NltermAsWritten(buf: Option<string>): string {
    if buf.None? || |buf.value| < 2 then "\n"
    else if buf.value[|buf.value| - 1] != '\n' then buf.value + "\n"
    else buf.value
  }

  /** The one-character buffer "x" comes back as "\n": its character is lost. */
  lemma NltermAsWrittenDropsChar()
    ensures NltermAsWritten(Some("x")) == "\n"
    ensures EnsureNlterm(Some("x")) == "x\n"
  {
  }

  /**
    ensure_nlterm as intended: nil becomes "\n"; a buffer already ending in
    a newline is returned unchanged; any other buffer, however short, gets
    a newline appended.
  */
  function EnsureNlterm(buf: Option<string>): (r: string)
    ensures buf.None? ==> r == "\n"
  {
    if buf.None? then "\n"
    else if buf.value != [] && buf.value[|buf.value| - 1] == '\n' then buf.value
    else buf.value + "\n"
  }

  /**
    The result is newline-terminated, keeps the input as its prefix and
    adds at most the one newline; it is the input itself exactly when the
    input already ended in a newline.
  */
  lemma EnsureNltermTerminates(buf: string)
    ensures var r := EnsureNlterm(Some(buf));
      r != [] && r[|r| - 1] == '\n' && r[..|buf|] == buf && |r| <= |buf| + 1 &&
      (r == buf <==> buf != [] && buf[|buf| - 1] == '\n')
  {
  }

  /** Terminating a terminated buffer changes nothing. */
  lemma EnsureNltermIdempotent(buf: Option<string>)
    ensures EnsureNlterm(Some(EnsureNlterm(buf))) == EnsureNlterm(buf)
  {
  }

  /** The intended function agrees with the code on every buffer but the one-character ones. */
  lemma NltermAgreesBeyondOneChar(buf: Option<string>)
    requires buf.None? || |buf.value| != 1
    ensures NltermAsWritten(buf) == EnsureNlterm(buf)
  {
  }

  // ---- atoi ----------------------------------------------------------------------

  const TWO_63: int := 0x8000_0000_0000_0000

  predicate IsDigit(c: char) {
    '0' <= c <= '9'
  }

  function DigitVal(c: char): nat
    requires IsDigit(c)
  {
    c as int - '0' as int
  }

  /** The value of the leading run of digits of s, read in base ten after acc. */
  function DigitRun(s: string, acc: nat): nat {
    if s != [] && IsDigit(s[0]) then DigitRun(s[1..], acc * 10 + DigitVal(s[0])) else acc
  }

  /**
    atoi, which glibc computes as (int) strtol(s, NULL, 10): leading
    whitespace and one sign are skipped, the digits that follow are read,
    strtol saturates at the 64-bit limits and the cast keeps the low 32
    bits.
  */
  function Atoi(s: string): (n: int)
    ensures Int32(n)
  {
    var b := DropLeading(s);
    var neg := b != [] && b[0] == '-';
    var rest := if b != [] && (b[0] == '-' || b[0] == '+') then b[1..] else b;
    var v := if neg then -(DigitRun(rest, 0) as int) else DigitRun(rest, 0) as int;
    Low32(if v >= TWO_63 then TWO_63 - 1 else if v < -TWO_63 then -TWO_63 else v)
  }

  /** The (int) cast of a long: the low 32 bits, read as a signed value. */
  function Low32(l: int): (n: int)
    ensures Int32(n)
    ensures Int32(l) ==> n == l
  {
    (l + 0x8000_0000) % 0x1_0000_0000 - 0x8000_0000
  }

  /** The digit run stops at the first character that is not a digit. */
  lemma {:induction false} DigitRunStops(d: string, rest: string, acc: nat)
    requires forall j :: 0 <= j < |d| ==> IsDigit(d[j])
    requires rest == [] || !IsDigit(rest[0])
    ensures DigitRun(d + rest, acc) == DigitRun(d, acc)
    decreases |d|
  {
    if d == [] {
      assert d + rest == rest;
    } else {
      assert (d + rest)[1..] == d[1..] + rest;
      DigitRunStops(d[1..], rest, acc * 10 + DigitVal(d[0]));
    }
  }

  /**
    A decimal number that fits 32 bits reads back as its value, and the
    field ends at the first character that is not a digit (the ',' before a
    sender list, for instance).
  */
  lemma AtoiReadsNumber(d: string, rest: string)
    requires d != [] && forall j :: 0 <= j < |d| ==> IsDigit(d[j])
    requires rest == [] || !IsDigit(rest[0])
    requires DigitRun(d, 0) < 0x8000_0000
    ensures Atoi(d + rest) == DigitRun(d, 0)
  {
    DigitRunStops(d, rest, 0);
    AtoiUnsigned(d + rest);
  }

  /** ... and so does a negative one. */
  lemma AtoiReadsNegative(d: string, rest: string)
    requires d != [] && forall j :: 0 <= j < |d| ==> IsDigit(d[j])
    requires rest == [] || !IsDigit(rest[0])
    requires DigitRun(d, 0) < 0x8000_0000
    ensures Atoi("-" + d + rest) == -(DigitRun(d, 0) as int)
  {
    DigitRunStops(d, rest, 0);
    assert "-" + d + rest == ['-'] + (d + rest);
    AtoiSigned(d + rest);
  }

  lemma AtoiUnsigned(body: string)
    requires body != [] && IsDigit(body[0]) && DigitRun(body, 0) < 0x8000_0000
    ensures Atoi(body) == DigitRun(body, 0)
  {
    assert !IsSpace(body[0]) && body[0] != '-' && body[0] != '+';
    assert DropLeading(body) == body;
    var v := DigitRun(body, 0) as int;
    assert Low32(v) == v;
  }

  lemma AtoiSigned(body: string)
    requires body != [] && IsDigit(body[0]) && DigitRun(body, 0) < 0x8000_0000
    ensures Atoi(['-'] + body) == -(DigitRun(body, 0) as int)
  {
    var s := ['-'] + body;
    assert DropLeading(s) == s;
    assert s[1..] == body;
  }

  /** The type field of a record with senders: "1,host:4560" names message type 1. */
  lemma AtoiStopsAtSenderList()
    ensures Atoi("1,host:4560") == 1
  {
    var d, rest := "1", ",host:4560";
    assert DigitRun(d, 0) == 1 by {
      assert d[1..] == [];
    }
    assert d + rest == "1,host:4560";
    AtoiReadsNumber(d, rest);
  }

  /** A negative type: "-12" reads as -12. */
  lemma AtoiReadsMinusTwelve()
    ensures Atoi("-12") == -12
  {
    var d := "12";
    assert DigitRun(d, 0) == 12 by {
      assert d[1..] == "2" && d[1..][1..] == [];
    }
    assert "-" + d + "" == "-12";
    AtoiReadsNegative(d, "");
  }

  // ---- entries from records ------------------------------------------------------

  /**
    Whether this host takes a record's type field: there is no sender
    list, or the list names this host, or it names one of this host's
    addresses.
  */
  predicate ForMe(ts: string, me: string, ips: Option<seq<string>>) {
    ',' !in ts || me in Tokens(ts, ',', 127) || (ips.Some? && MineIn(Tokens(ts, ',', 127), ips.value))
  }

  /** The sender test build_entry and trash_entry share. */
  method SenderMatches(ts: string, me: string, ips: Option<seq<string>>) returns (ok: bool)
    ensures ok == ForMe(ts, me, ips)
  {
    if ',' !in ts {
      return true;
    }
    var rc := HasStr(ts, me, ',', 127);
    if rc >= 0 {
      return true;
    }
    ok := HasMyIp(Some(ts), ips, ',', 127);
  }

  /** The endpoint names of one round-robin group, less this host's addresses. */
  function GroupToks(g: string, ips: Option<seq<string>>): seq<string> {
    NotMine(Tokens(g, ',', 64), ips)
  }

  /** A group slot after add_ep has been called for every token that is not this host's name. */
  function FillSlot(slot: Option<Group>, toks: seq<string>, me: string): Option<Group>
    decreases |toks|
  {
    if toks == [] then slot
    else
      var p := FillSlot(slot, toks[..|toks| - 1], me);
      if toks[|toks| - 1] != me then AddToSlot(p, toks[|toks| - 1]) else p
  }

  /** The tokens that are not this host's name, in order. */
  function Others(toks: seq<string>, me: string): (r: seq<string>)
    ensures forall i :: 0 <= i < |r| ==> r[i] in toks && r[i] != me
    decreases |toks|
  {
    if toks == [] then []
    else Others(toks[..|toks| - 1], me) + (if toks[|toks| - 1] != me then [toks[|toks| - 1]] else [])
  }

  /** The non-empty names, in order. */
  function NonEmpty(names: seq<string>): (r: seq<string>)
    ensures forall i :: 0 <= i < |r| ==> r[i] in names && r[i] != ""
    decreases |names|
  {
    if names == [] then []
    else NonEmpty(names[..|names| - 1]) + (if names[|names| - 1] != "" then [names[|names| - 1]] else [])
  }

  function Take(s: seq<string>, n: nat): (r: seq<string>)
    ensures |r| <= n && |r| <= |s| && r == s[..|r|] && (|s| <= n ==> r == s)
  {
    if |s| <= n then s else s[..n]
  }

  /**
    What a group ends up holding: no group at all when every token is this
    host's name; otherwise the first MAX_EP_GROUP non-empty names other than
    this host's, in record order, with the round-robin index at 0.
  */
  lemma {:induction false} FillSlotHolds(toks: seq<string>, me: string)
    ensures FillSlot(None, toks, me) ==
      if Others(toks, me) == [] then None else Some(Group(Take(NonEmpty(Others(toks, me)), MAX_EP_GROUP), 0))
    decreases |toks|
  {
    if toks != [] {
      var init := toks[..|toks| - 1];
      var last := toks[|toks| - 1];
      FillSlotHolds(init, me);
      var o := Others(init, me);
      if last != me {
        assert Others(toks, me) == o + [last];
        NonEmptySnoc(o, last);
        TakeSnoc(NonEmpty(o), last, MAX_EP_GROUP);
        var p := FillSlot(None, init, me);
        assert FillSlot(None, toks, me) == AddToSlot(p, last);
        assert Epts(p) == Take(NonEmpty(o), MAX_EP_GROUP);
      } else {
        assert Others(toks, me) == o;
      }
    }
  }

  lemma NonEmptySnoc(s: seq<string>, x: string)
    ensures NonEmpty(s + [x]) == NonEmpty(s) + (if x != "" then [x] else [])
  {
    assert (s + [x])[..|s + [x]| - 1] == s;
  }

  lemma TakeSnoc(s: seq<string>, x: string, n: nat)
    ensures Take(s + (if x != "" then [x] else []), n) ==
      if x != "" && |Take(s, n)| < n then Take(s, n) + [x] else Take(s, n)
  {
    if x != "" && |s| >= n {
      assert (s + [x])[..n] == s[..n];
    }
  }

  /** The endpoint names a group's tokens add to the table. */
  function Names(toks: seq<string>, me: string): set<string> {
    set t | t in toks && t != me && t != ""
  }

  /** The endpoint names every group of a record adds to the table. */
  function EpsOf(gts: seq<string>, ips: Option<seq<string>>, me: string): set<string>
    decreases |gts|
  {
    if gts == [] then {} else EpsOf(gts[..|gts| - 1], ips, me) + Names(GroupToks(gts[|gts| - 1], ips), me)
  }

  /** The group slots of an entry built from a record's group list. */
  function Slots(gts: seq<string>, ips: Option<seq<string>>, me: string): (r: seq<Option<Group>>)
    ensures |r| == |gts|
  {
    seq(|gts|, g requires 0 <= g < |gts| => FillSlot(None, GroupToks(gts[g], ips), me))
  }

  /**
    build_entry's effect on the routing state, given the clipped type field
    `ts` and the record's round-robin groups `gts`: for a record this host
    takes, with at least one group, a fresh entry for the record's key
    replaces the one the key held in the table under construction, its
    groups filled from the record; the table learns the endpoint names.
  */
  function Built(st: RtState, me: string, ips: Option<seq<string>>, ts: string, subId: int, gts: seq<string>): RtState
    requires Int32(subId)
  {
    if !ForMe(ts, me, ips) || gts == [] || st.newRt.None? then st
    else
      var key := BuildRtKey(subId, Atoi(ts));
      var t := st.newRt.value;
      var s := if key in t.entries then ReleaseAll(st.store, {t.entries[key]}) else st.store;
      st.(newRt := Some(t.(entries := t.entries[key := st.nextId], eps := t.eps + EpsOf(gts, ips, me))),
          store := s[st.nextId := Rte(key, 1, Slots(gts, ips, me))],
          nextId := st.nextId + 1)
  }

  /**
    trash_entry's effect, given the clipped type field `ts`: for a record
    this host takes, the key is removed from the table under construction
    and its entry loses that reference.
  */
  function Trashed(st: RtState, me: string, ips: Option<seq<string>>, ts: string, subId: int): RtState
    requires Int32(subId)
  {
    var key := BuildRtKey(subId, Atoi(ts));
    if st.newRt.None? || !ForMe(ts, me, ips) || key !in st.newRt.value.entries then st
    else
      var t := st.newRt.value;
      st.(newRt := Some(t.(entries := t.entries - {key})),
          store := ReleaseAll(st.store, {t.entries[key]}))
  }

  /**
    build_entry: clip both fields, apply the sender test, and for each
    round-robin group add the endpoints other than this host to a fresh
    entry.
  */
  method BuildEntry(r: Routes, me: string, ips: Option<seq<string>>, tsField: string, subId: int, rrField: string)
    requires r.Valid() && Int32(subId)
    modifies r
    ensures r.Valid()
    ensures r.State() == Built(old(r.State()), me, ips, Clipped(tsField), subId, Tokens(Clipped(rrField), ';', 64))
  {
    var ts := Clip(tsField);
    var rr := Clip(rrField);
    var ok := SenderMatches(ts, me, ips);
    if !ok {
      return;
    }
    var key := BuildRtKey(subId, Atoi(ts));
    var gts := Tokenise(Some(rr), ';', 64);
    if |gts| == 0 || r.newRt.None? {
      return;
    }
    ghost var st0 := r.State();
    ghost var t := st0.newRt.value;
    ghost var s := if key in t.entries then ReleaseAll(st0.store, {t.entries[key]}) else st0.store;
    var id := AddRte(r, key, |gts|);
    ghost var s1 := r.store;
    assert s1 == s[st0.nextId := Rte(key, 1, seq(|gts|, _ => None))];
    FillGroups(r, id.value, key, gts, ips, me);
    StoreOverride(s, st0.nextId, Rte(key, 1, seq(|gts|, _ => None)), Rte(key, 1, Slots(gts, ips, me)));
    assert r.newRt == Some(t.(entries := t.entries[key := st0.nextId], eps := t.eps + EpsOf(gts, ips, me)));
  }

  lemma StoreOverride(m: map<nat, Rte>, k: nat, a: Rte, b: Rte)
    ensures m[k := a][k := b] == m[k := b]
  {
  }

  /** The group loop of build_entry, on the entry just added at `id`. */
  method FillGroups(r: Routes, id: nat, key: int, gts: seq<string>, ips: Option<seq<string>>, me: string)
    requires r.Valid() && r.newRt.Some? && id in r.store && r.store[id] == Rte(key, 1, seq(|gts|, _ => None))
    modifies r
    ensures r.Valid()
    ensures r.rt == old(r.rt) && r.oldRt == old(r.oldRt) && r.nextId == old(r.nextId)
    ensures r.newRt == Some(old(r.newRt).value.(eps := old(r.newRt).value.eps + EpsOf(gts, ips, me)))
    ensures r.store == old(r.store)[id := Rte(key, 1, Slots(gts, ips, me))]
  {
    ghost var t1 := r.newRt.value;
    ghost var acc: set<string> := {};
    ghost var slots: seq<Option<Group>> := seq(|gts|, _ => None);
    SlotsStart(gts, ips, me);
    assert t1.(eps := t1.eps + acc) == t1;
    assert old(r.store)[id := Rte(key, 1, slots)] == old(r.store);
    for grp := 0 to |gts|
      invariant r.Valid()
      invariant r.rt == old(r.rt) && r.oldRt == old(r.oldRt) && r.nextId == old(r.nextId)
      invariant r.newRt == Some(t1.(eps := t1.eps + acc))
      invariant r.store == old(r.store)[id := Rte(key, 1, slots)]
      invariant acc == EpsOf(gts[..grp], ips, me)
      invariant slots == Slots(gts[..grp], ips, me) + seq(|gts| - grp, _ => None)
    {
      var toks, n := RmIpTokenise(Some(gts[grp]), ips, 64, ',');
      AddGroup(r, id, grp, toks, me, old(r.store), t1, acc, Rte(key, 1, slots));
      SlotsStep(gts, grp, slots, toks, ips, me);
      EpsOfStep(gts, grp, ips, me);
      acc := acc + Names(toks, me);
      slots := slots[grp := FillSlot(slots[grp], toks, me)];
    }
    assert gts[..|gts|] == gts;
    assert Slots(gts[..|gts|], ips, me) + seq(|gts| - |gts|, _ => None) == Slots(gts, ips, me);
  }

  /**
    The inner loop of build_entry: add_ep for each token of one group that
    is not this host's name.  The ghost parameters describe the state as the
    entry `e0` in `base`, and the table `t0` with `names0` added.
  */
  method AddGroup(r: Routes, id: nat, grp: int, toks: seq<string>, me: string,
                  ghost base: map<nat, Rte>, ghost t0: Table, ghost names0: set<string>, ghost e0: Rte)
    requires r.Valid() && 0 <= grp < |e0.groups|
    requires r.newRt == Some(t0.(eps := t0.eps + names0))
    requires r.store == base[id := e0]
    modifies r
    ensures r.Valid()
    ensures r.rt == old(r.rt) && r.oldRt == old(r.oldRt) && r.nextId == old(r.nextId)
    ensures r.newRt == Some(t0.(eps := t0.eps + (names0 + Names(toks, me))))
    ensures r.store == base[id := e0.(groups := e0.groups[grp := FillSlot(e0.groups[grp], toks, me)])]
  {
    ghost var f := e0.groups[grp];
    ghost var all := names0;
    assert names0 + Names(toks[..0], me) == names0;
    assert e0.(groups := e0.groups[grp := f]) == e0;
    for i := 0 to |toks|
      invariant r.Valid()
      invariant r.rt == old(r.rt) && r.oldRt == old(r.oldRt) && r.nextId == old(r.nextId)
      invariant r.newRt == Some(t0.(eps := t0.eps + all))
      invariant r.store == base[id := e0.(groups := e0.groups[grp := f])]
      invariant all == names0 + Names(toks[..i], me) && f == FillSlot(e0.groups[grp], toks[..i], me)
    {
      NamesStep(toks, i, me);
      FillSlotStep(e0.groups[grp], toks, i, me);
      AddToken(r, id, grp, toks[i], me, base, t0, e0, f, all);
      all := all + (if toks[i] != me && toks[i] != "" then {toks[i]} else {});
      f := if toks[i] != me then AddToSlot(f, toks[i]) else f;
    }
    assert toks[..|toks|] == toks;
  }

  /**
    One token of a group: add_ep unless it is this host's name.  The ghost
    parameters describe the state so far as the entry `e0` of `base` with
    slot `grp` set to `f`, and the table `t0` with `names` added.
  */
  method AddToken(r: Routes, id: nat, grp: int, tok: string, me: string,
                  ghost base: map<nat, Rte>, ghost t0: Table, ghost e0: Rte, ghost f: Option<Group>, ghost names: set<string>)
    requires r.Valid() && 0 <= grp < |e0.groups|
    requires r.newRt == Some(t0.(eps := t0.eps + names))
    requires r.store == base[id := e0.(groups := e0.groups[grp := f])]
    modifies r
    ensures r.Valid()
    ensures r.rt == old(r.rt) && r.oldRt == old(r.oldRt) && r.nextId == old(r.nextId)
    ensures r.newRt == Some(t0.(eps := t0.eps + (names + (if tok != me && tok != "" then {tok} else {}))))
    ensures r.store == base[id := e0.(groups := e0.groups[grp := if tok != me then AddToSlot(f, tok) else f])]
  {
    assert r.store[id].groups[grp] == f;
    assert names + {} == names;
    assert t0.eps + names + {tok} == t0.eps + (names + {tok});
    if tok != me {
      var _ := AddEp(r, Some(id), tok, grp);
      assert e0.groups[grp := f][grp := AddToSlot(f, tok)] == e0.groups[grp := AddToSlot(f, tok)];
    }
  }

  lemma SlotsStart(gts: seq<string>, ips: Option<seq<string>>, me: string)
    ensures Slots(gts[..0], ips, me) + seq(|gts| - 0, _ => None) == seq(|gts|, _ => None)
  {
  }

  lemma SlotsStep(gts: seq<string>, grp: int, gs: seq<Option<Group>>, toks: seq<string>, ips: Option<seq<string>>, me: string)
    requires 0 <= grp < |gts|
    requires gs == Slots(gts[..grp], ips, me) + seq(|gts| - grp, _ => None)
    requires toks == GroupToks(gts[grp], ips)
    ensures gs[grp := FillSlot(gs[grp], toks, me)] == Slots(gts[..grp + 1], ips, me) + seq(|gts| - (grp + 1), _ => None)
  {
    assert gs[grp] == None;
    var l := gs[grp := FillSlot(gs[grp], toks, me)];
    var r := Slots(gts[..grp + 1], ips, me) + seq(|gts| - (grp + 1), _ => None);
    assert |l| == |r|;
    forall j | 0 <= j < |l|
      ensures l[j] == r[j]
    {
      if j < grp {
        assert gts[..grp + 1][j] == gts[..grp][j];
      }
    }
  }

  lemma EpsOfStep(gts: seq<string>, grp: int, ips: Option<seq<string>>, me: string)
    requires 0 <= grp < |gts|
    ensures EpsOf(gts[..grp + 1], ips, me) == EpsOf(gts[..grp], ips, me) + Names(GroupToks(gts[grp], ips), me)
  {
    assert gts[..grp + 1][..grp] == gts[..grp];
  }

  lemma FillSlotStep(slot: Option<Group>, toks: seq<string>, i: int, me: string)
    requires 0 <= i < |toks|
    ensures FillSlot(slot, toks[..i + 1], me) ==
      if toks[i] != me then AddToSlot(FillSlot(slot, toks[..i], me), toks[i]) else FillSlot(slot, toks[..i], me)
  {
    assert toks[..i + 1][..i] == toks[..i];
  }

  lemma NamesStep(toks: seq<string>, i: int, me: string)
    requires 0 <= i < |toks|
    ensures Names(toks[..i + 1], me) == Names(toks[..i], me) + (if toks[i] != me && toks[i] != "" then {toks[i]} else {})
    ensures toks[i] == me ==> Names(toks[..i + 1], me) == Names(toks[..i], me)
    ensures toks[i] != me ==> Names(toks[..i + 1], me) == Names(toks[..i], me) + (if toks[i] != "" then {toks[i]} else {})
  {
    assert toks[..i + 1] == toks[..i] + [toks[i]];
  }

  /**
    trash_entry: nothing without a table under construction; otherwise
    clip the type field, apply the sender test and remove the key.
  */
  method TrashEntry(r: Routes, me: string, ips: Option<seq<string>>, tsField: string, subId: int)
    requires r.Valid() && Int32(subId)
    modifies r
    ensures r.Valid()
    ensures r.State() == Trashed(old(r.State()), me, ips, Clipped(tsField), subId)
  {
    if r.newRt.None? {
      return;
    }
    var ts := Clip(tsField);
    var ok := SenderMatches(ts, me, ips);
    if ok {
      DropEntry(r, BuildRtKey(subId, Atoi(ts)));
    }
  }

  // ---- records -------------------------------------------------------------------

  /** What a route table record asks for, read from its '|'-separated fields. */
  datatype Record =
    | Ignored                                         // blank, comment, unknown or short record
    | Del(ts: string, subId: int)                     // del|[sender,]mtype|sub-id
    | Entry(ts: string, subId: int, rr: string)       // mse and rte records
    | CountOnly                                       // an rte record with no group field
    | NewStart | NewEnd                              // newrt|start, newrt|end
    | UpdStart | UpdEnd(expected: Option<int>)        // update|start, update|end[|count]

  /**
    The record a trimmed line holds, from the first character of its first
    field.  The sub-id of an mse record is its third field and that of an rte
    record its fourth, when present, else UNSET_SUBID.
  */
  function Classify(line: string): (rec: Record)
    ensures rec.Del? || rec.Entry? ==> Int32(rec.subId)
  {
    Kind(Tokens(line, '|', 128))
  }

  /** The record a line's fields hold. */
  function Kind(toks: seq<string>): (rec: Record)
    ensures rec.Del? || rec.Entry? ==> Int32(rec.subId)
  {
    if toks == [] || toks[0] == [] then Ignored
    else if toks[0][0] == 'd' then
      if |toks| < 3 then Ignored else Del(toks[1], Atoi(toks[2]))
    else if toks[0][0] == 'n' then
      if |toks| < 2 then Ignored else if Clipped(toks[1]) == "end" then NewEnd else NewStart
    else if toks[0][0] == 'm' then
      if |toks| < 4 then Ignored else Entry(toks[1], Atoi(toks[2]), toks[3])
    else if toks[0][0] == 'r' then
      if |toks| > 3 then Entry(toks[1], Atoi(toks[3]), toks[2])
      else if |toks| == 3 then Entry(toks[1], UNSET_SUBID, toks[2])
      else CountOnly
    else if toks[0][0] == 'u' then
      if |toks| < 2 then Ignored
      else if Clipped(toks[1]) == "end" then UpdEnd(if |toks| > 2 then Some(Atoi(toks[2])) else None)
      else UpdStart
    else Ignored
  }

  /** The line parse_rt_rec works on: the record without surrounding whitespace. */
  function Line(buf: string): string {
    TrimTrailing(DropLeading(buf))
  }

  /**
    The effect of one record on the routing state.  Entry, delete and
    count-only records need a table in progress and count against it; an
    end record activates the table in progress, unless an update's count
    does not match, in which case the update is discarded.
  */
  function Apply(st: RtState, me: string, ips: Option<seq<string>>, rec: Record): RtState
    requires rec.Del? || rec.Entry? ==> Int32(rec.subId)
  {
    match rec
    case Ignored => st
    case Del(ts, subId) => if st.newRt.None? then st else Counted(Trashed(st, me, ips, Clipped(ts), subId))
    case Entry(ts, subId, rr) =>
      if st.newRt.None? then st else Counted(Built(st, me, ips, Clipped(ts), subId, Tokens(Clipped(rr), ';', 64)))
    case CountOnly => Counted(st)
    case NewStart => StartedNew(st)
    case NewEnd => if st.newRt.Some? then Rotated(st) else st
    case UpdStart => StartedUpdate(st)
    case UpdEnd(expected) =>
      if st.newRt.None? then st
      else if expected.Some? && st.newRt.value.updates != expected.value then Abandoned(st)
      else Rotated(st)
  }

  /** parse_rt_rec's effect: a nil buffer changes nothing. */
  function Parsed(st: RtState, me: string, ips: Option<seq<string>>, buf: Option<string>): RtState {
    if buf.None? then st else Apply(st, me, ips, Classify(Line(buf.value)))
  }

  /** parse_rt_rec: trim the record, split its fields and act on its kind. */
  method ParseRtRec(r: Routes, me: string, ips: Option<seq<string>>, buf: Option<string>)
    requires r.Valid()
    modifies r
    ensures r.Valid()
    ensures r.State() == Parsed(old(r.State()), me, ips, buf)
  {
    if buf.None? {
      return;
    }
    var b := SkipSpace(buf.value);
    var line := TrimEnd(b);
    var toks := Tokenise(Some(line), '|', 128);
    if |toks| == 0 || |toks[0]| == 0 {
      return;
    }
    var c := toks[0][0];
    assert line == Line(buf.value) && toks == Tokens(line, '|', 128);
    if c == 'd' {
      DelRecord(r, me, ips, toks);
    } else if c == 'n' {
      NewRecord(r, me, ips, toks);
    } else if c == 'm' {
      MseRecord(r, me, ips, toks);
    } else if c == 'r' {
      RteRecord(r, me, ips, toks);
    } else if c == 'u' {
      UpdateRecord(r, me, ips, toks);
    }
  }

  /** del|[sender,]mtype|sub-id */
  method DelRecord(r: Routes, me: string, ips: Option<seq<string>>, toks: seq<string>)
    requires r.Valid() && toks != [] && toks[0] != [] && toks[0][0] == 'd'
    modifies r
    ensures r.Valid()
    ensures r.State() == Apply(old(r.State()), me, ips, Kind(toks))
  {
    if r.newRt.None? || |toks| < 3 {
      assert |toks| < 3 ==> Kind(toks) == Ignored;
      return;
    }
    assert Kind(toks) == Del(toks[1], Atoi(toks[2]));
    TrashEntry(r, me, ips, toks[1], Atoi(toks[2]));
    CountUpdate(r);
  }

  /** newrt|start and newrt|end */
  method NewRecord(r: Routes, me: string, ips: Option<seq<string>>, toks: seq<string>)
    requires r.Valid() && toks != [] && toks[0] != [] && toks[0][0] == 'n'
    modifies r
    ensures r.Valid()
    ensures r.State() == Apply(old(r.State()), me, ips, Kind(toks))
  {
    if |toks| < 2 {
      assert Kind(toks) == Ignored;
      return;
    }
    var t1 := Clip(toks[1]);
    assert Kind(toks) == if t1 == "end" then NewEnd else NewStart;
    if t1 == "end" {
      if r.newRt.Some? {
        Rotate(r);
      }
    } else {
      StartNew(r);
    }
  }

  /** mse|[sender,]mtype|sub-id|groups */
  method MseRecord(r: Routes, me: string, ips: Option<seq<string>>, toks: seq<string>)
    requires r.Valid() && toks != [] && toks[0] != [] && toks[0][0] == 'm'
    modifies r
    ensures r.Valid()
    ensures r.State() == Apply(old(r.State()), me, ips, Kind(toks))
  {
    if r.newRt.None? || |toks| < 4 {
      assert |toks| < 4 ==> Kind(toks) == Ignored;
      return;
    }
    assert Kind(toks) == Entry(toks[1], Atoi(toks[2]), toks[3]);
    BuildEntry(r, me, ips, toks[1], Atoi(toks[2]), toks[3]);
    CountUpdate(r);
  }

  /** rte|[sender,]mtype|groups[|sub-id]: counted before the entry is built. */
  method RteRecord(r: Routes, me: string, ips: Option<seq<string>>, toks: seq<string>)
    requires r.Valid() && toks != [] && toks[0] != [] && toks[0][0] == 'r'
    modifies r
    ensures r.Valid()
    ensures r.State() == Apply(old(r.State()), me, ips, Kind(toks))
  {
    if r.newRt.None? {
      return;
    }
    assert Kind(toks) == if |toks| > 3 then Entry(toks[1], Atoi(toks[3]), toks[2])
      else if |toks| == 3 then Entry(toks[1], UNSET_SUBID, toks[2]) else CountOnly;
    ghost var st0 := r.State();
    CountUpdate(r);
    if |toks| > 3 {
      BuildEntry(r, me, ips, toks[1], Atoi(toks[3]), toks[2]);
      CountedThenBuilt(st0, me, ips, Clipped(toks[1]), Atoi(toks[3]), Tokens(Clipped(toks[2]), ';', 64));
    } else if |toks| == 3 {
      BuildEntry(r, me, ips, toks[1], UNSET_SUBID, toks[2]);
      CountedThenBuilt(st0, me, ips, Clipped(toks[1]), UNSET_SUBID, Tokens(Clipped(toks[2]), ';', 64));
    }
  }

  /** Counting a record before building its entry, as rte records do, is counting it after. */
  lemma CountedThenBuilt(st: RtState, me: string, ips: Option<seq<string>>, ts: string, subId: int, gts: seq<string>)
    requires Int32(subId) && st.newRt.Some?
    ensures Built(Counted(st), me, ips, ts, subId, gts) == Counted(Built(st, me, ips, ts, subId, gts))
  {
  }

  /** update|start and update|end[|count] */
  method UpdateRecord(r: Routes, me: string, ips: Option<seq<string>>, toks: seq<string>)
    requires r.Valid() && toks != [] && toks[0] != [] && toks[0][0] == 'u'
    modifies r
    ensures r.Valid()
    ensures r.State() == Apply(old(r.State()), me, ips, Kind(toks))
  {
    if |toks| < 2 {
      assert Kind(toks) == Ignored;
      return;
    }
    var t1 := Clip(toks[1]);
    if t1 == "end" {
      ghost var expected := if |toks| > 2 then Some(Atoi(toks[2])) else None;
      assert Kind(toks) == UpdEnd(expected);
      if r.newRt.None? {
        return;
      }
      if |toks| > 2 && r.newRt.value.updates != Atoi(toks[2]) {
        assert Apply(r.State(), me, ips, UpdEnd(expected)) == Abandoned(r.State());
        Abandon(r);
        return;
      }
      assert Apply(r.State(), me, ips, UpdEnd(expected)) == Rotated(r.State());
      Rotate(r);
    } else {
      assert Kind(toks) == UpdStart;
      StartUpdate(r);
    }
  }

  // ---- properties of records -----------------------------------------------------

  /**
    An entry built from a record is what the table in progress routes the
    record's type and sub-id to: the lookup without fallback finds the new
    entry, which carries the record's key and one slot per group.
  */
  lemma BuiltRoutesRecord(st: RtState, me: string, ips: Option<seq<string>>, ts: string, subId: int, gts: seq<string>)
    requires Int32(subId) && st.newRt.Some? && ForMe(ts, me, ips) && gts != []
    ensures var b := Built(st, me, ips, ts, subId, gts);
      GetRte(b.newRt, subId, Atoi(ts), false) == Some(st.nextId) &&
      b.store[st.nextId] == Rte(BuildRtKey(subId, Atoi(ts)), 1, Slots(gts, ips, me))
  {
  }

  /** A record this host does not take leaves the state alone. */
  lemma BuiltIgnoresOthers(st: RtState, me: string, ips: Option<seq<string>>, ts: string, subId: int, gts: seq<string>)
    requires Int32(subId) && !ForMe(ts, me, ips)
    ensures Built(st, me, ips, ts, subId, gts) == st && Trashed(st, me, ips, ts, subId) == st
  {
  }

  /**
    After a delete record this host takes, the lookup of its type and
    sub-id in the table in progress finds nothing, and every other key
    keeps its entry.
  */
  lemma TrashedUnroutes(st: RtState, me: string, ips: Option<seq<string>>, ts: string, subId: int)
    requires Int32(subId) && st.newRt.Some? && ForMe(ts, me, ips)
    ensures var t := Trashed(st, me, ips, ts, subId);
      var key := BuildRtKey(subId, Atoi(ts));
      t.newRt.Some? && GetRte(t.newRt, subId, Atoi(ts), false) == None &&
      forall k :: k != key ==> (k in t.newRt.value.entries <==> k in st.newRt.value.entries)
  {
  }

  /** Entry, delete and end records do nothing without a table in progress. */
  lemma RecordsNeedTable(st: RtState, me: string, ips: Option<seq<string>>, rec: Record)
    requires rec.Del? || rec.Entry? ==> Int32(rec.subId)
    requires st.newRt.None? && (rec.Del? || rec.Entry? || rec.CountOnly? || rec.NewEnd? || rec.UpdEnd?)
    ensures Apply(st, me, ips, rec) == st
  {
  }

  /** Whether a record counts against the table in progress. */
  predicate Counts(rec: Record) {
    ((rec.Del? || rec.Entry?) && Int32(rec.subId)) || rec.CountOnly?
  }

  /** The records of a session applied in order. */
  function ApplyAll(st: RtState, me: string, ips: Option<seq<string>>, recs: seq<Record>): RtState
    requires forall i :: 0 <= i < |recs| ==> Counts(recs[i])
    decreases |recs|
  {
    if recs == [] then st
    else
      assert Counts(recs[0]);
      ApplyAll(Apply(st, me, ips, recs[0]), me, ips, recs[1..])
  }

  /**
    Every entry, delete or count-only record adds exactly one to the count of
    the table in progress, and none of them touches the active or old table.
  */
  lemma {:induction false} ApplyAllCounts(st: RtState, me: string, ips: Option<seq<string>>, recs: seq<Record>)
    requires forall i :: 0 <= i < |recs| ==> Counts(recs[i])
    requires st.newRt.Some?
    ensures var e := ApplyAll(st, me, ips, recs);
      e.newRt.Some? && e.newRt.value.updates == st.newRt.value.updates + |recs| &&
      e.rt == st.rt && e.oldRt == st.oldRt
    decreases |recs|
  {
    if recs != [] {
      assert Counts(recs[0]);
      var s1 := Apply(st, me, ips, recs[0]);
      ApplyCountsOne(st, me, ips, recs[0]);
      assert forall i :: 0 <= i < |recs[1..]| ==> Counts(recs[1..][i]) by {
        forall i | 0 <= i < |recs[1..]|
          ensures Counts(recs[1..][i])
        {
          assert recs[1..][i] == recs[i + 1];
        }
      }
      ApplyAllCounts(s1, me, ips, recs[1..]);
    }
  }

  lemma ApplyCountsOne(st: RtState, me: string, ips: Option<seq<string>>, rec: Record)
    requires Counts(rec) && st.newRt.Some?
    ensures var e := Apply(st, me, ips, rec);
      e.newRt.Some? && e.newRt.value.updates == st.newRt.value.updates + 1 &&
      e.rt == st.rt && e.oldRt == st.oldRt
  {
  }

  /**
    An update session: after update|start and n counted records,
    update|end|n makes the updated table active, while update|end with any
    other count discards it and keeps the active table.
  */
  lemma UpdateSession(st: RtState, me: string, ips: Option<seq<string>>, recs: seq<Record>, n: int)
    requires forall i :: 0 <= i < |recs| ==> Counts(recs[i])
    ensures var e := ApplyAll(StartedUpdate(st), me, ips, recs);
      var f := Apply(e, me, ips, UpdEnd(Some(n)));
      e.newRt.Some? &&
      (n == |recs| ==> f == Rotated(e) && f.rt == e.newRt && f.oldRt == st.rt) &&
      (n != |recs| ==> f == Abandoned(e) && f.rt == st.rt && f.newRt == None)
  {
    ApplyAllCounts(StartedUpdate(st), me, ips, recs);
  }

  /** A record whose first field starts with '#' is a comment and changes nothing. */
  lemma CommentIgnored(st: RtState, me: string, ips: Option<seq<string>>, buf: string)
    requires Line(buf) != [] && Line(buf)[0] == '#'
    ensures Parsed(st, me, ips, Some(buf)) == st
  {
    var line := Line(buf);
    var toks := Tokens(line, '|', 128);
    assert toks[0] == line || toks[0] == line[..IndexOf(line, '|')];
    if toks[0] != line {
      IndexOfPrefix(line, '|');
      assert IndexOf(line, '|') > 0;
    }
    assert toks[0][0] == '#';
  }

  /** A record written as '|'-joined fields is classified by those fields. */
  lemma ClassifyFields(ts: seq<string>)
    requires 1 <= |ts| <= 128 && ts[0] != []
    requires forall k :: 0 <= k < |ts| ==> '|' !in ts[k]
    ensures Classify(Join(ts, '|')) == Kind(ts)
  {
    SplitJoin(ts, '|', 128);
    if |ts| > 1 {
      assert Join(ts, '|') == ts[0] + ['|'] + Join(ts[1..], '|');
    }
  }

  lemma ClipPlain(s: string)
    requires s != [] && forall k :: 0 <= k < |s| ==> !IsSpace(s[k]) && s[k] != '#'
    ensures Clipped(s) == s
  {
    assert DropLeading(s) == s;
    assert CutComment(s) == s;
  }

  /** A single digit reads as its value. */
  lemma AtoiDigit(c: char)
    requires IsDigit(c)
    ensures Atoi([c]) == DigitVal(c)
  {
    assert DigitRun([c], 0) == DigitVal(c) by {
      assert [c][1..] == [];
    }
    AtoiReadsNumber([c], []);
    assert [c] + [] == [c];
  }

  lemma Join3(a: string, b: string, c: string, sep: char)
    ensures Join([a, b, c], sep) == a + [sep] + b + [sep] + c
  {
    assert [b, c][1..] == [c];
    assert Join([b, c], sep) == b + [sep] + c;
    assert [a, b, c][1..] == [b, c];
    assert Join([a, b, c], sep) == a + [sep] + (b + [sep] + c);
  }

  lemma Join4(a: string, b: string, c: string, d: string, sep: char)
    ensures Join([a, b, c, d], sep) == a + [sep] + b + [sep] + c + [sep] + d
  {
    assert [a, b, c, d][1..] == [b, c, d];
    Join3(b, c, d, sep);
  }

  /** newrt|end is the end of a complete table. */
  lemma NewEndRecord()
    ensures Classify("newrt|end") == NewEnd
  {
    ClipPlain("end");
    ClassifyFields(["newrt", "end"]);
    assert Join(["newrt", "end"], '|') == "newrt|end";
  }

  /** update|end|3 is the end of an update that expects three records. */
  lemma UpdateEndRecord()
    ensures Classify("update|end|3") == UpdEnd(Some(3))
  {
    var ts := ["update", "end", "3"];
    ClipPlain("end");
    AtoiDigit('3');
    assert Kind(ts) == UpdEnd(Some(3));
    Join3("update", "end", "3", '|');
    assert "update" + ['|'] + "end" + ['|'] + "3" == "update|end|3";
    ClassifyFields(ts);
    assert Classify(Join(ts, '|')) == UpdEnd(Some(3));
  }

  /** An mse record carries its sub-id in the third field. */
  lemma MseRecord7()
    ensures Classify("mse|2|7|x:1") == Entry("2", 7, "x:1")
  {
    var ts := ["mse", "2", "7", "x:1"];
    AtoiDigit('7');
    assert Kind(ts) == Entry("2", 7, "x:1");
    Join4("mse", "2", "7", "x:1", '|');
    assert "mse" + ['|'] + "2" + ['|'] + "7" + ['|'] + "x:1" == "mse|2|7|x:1";
    ClassifyFields(ts);
    assert Classify(Join(ts, '|')) == Entry("2", 7, "x:1");
  }

  /** An rte record without a sub-id field gets UNSET_SUBID. */
  lemma RteRecordUnset()
    ensures Classify("rte|1|a:1;b:2") == Entry("1", UNSET_SUBID, "a:1;b:2")
  {
    var ts := ["rte", "1", "a:1;b:2"];
    assert Kind(ts) == Entry("1", UNSET_SUBID, "a:1;b:2");
    Join3("rte", "1", "a:1;b:2", '|');
    assert "rte" + ['|'] + "1" + ['|'] + "a:1;b:2" == "rte|1|a:1;b:2";
    ClassifyFields(ts);
    assert Classify(Join(ts, '|')) == Entry("1", UNSET_SUBID, "a:1;b:2");
  }
}

=== FILE: rtable_si.dfy ===
/*
  The SI route-table operations of rtable_si_static.c: adding an endpoint to
  a round-robin group of an entry, choosing the endpoint a message goes to,
  finding the entry for a message, and the map from connection file
  descriptors back to endpoints.

  Endpoints are known by name.  Whether an endpoint is connected, and
  whether connecting to it succeeds, belong to the transport and are given
  as inputs.
*/
module RtableSi {
  import opened Common
  import opened RouteTable
  import opened Symtab

  /**
    An entry may change its groups without touching the reference counts:
    the key and count stay, and the groups still fit.  The table under
    construction may learn endpoint names meanwhile.
  */
  lemma GroupsChangeKeepsCounts(n: Option<Table>, n': Option<Table>, a: Option<Table>, o: Option<Table>,
                                store: map<nat, Rte>, nextId: nat, id: nat, e: Rte)
    requires RoutesOk(n, a, o, store, nextId) && id in store
    requires n.Some? <==> n'.Some?
    requires n.Some? ==> n'.value.entries == n.value.entries
    requires e.key == store[id].key && e.refs == store[id].refs && GroupsOk(e)
    ensures RoutesOk(n', a, o, store[id := e], nextId)
  {
    assert Ids(n') == Ids(n);
  }

  // ---- uta_add_ep ----------------------------------------------------------------

  /** The endpoints a group slot holds (none for a nil slot). */
  function Epts(slot: Option<Group>): seq<string> {
    if slot.Some? then slot.value.epts else []
  }

  /**
    A group slot after one uta_add_ep: a nil slot becomes an empty group,
    and the name is appended when it is not empty and the group has room.
  */
  function AddToSlot(slot: Option<Group>, name: string): (r: Option<Group>)
    ensures r.Some?
    ensures r.value.epts == if name != "" && |Epts(slot)| < MAX_EP_GROUP then Epts(slot) + [name] else Epts(slot)
    ensures r.value.epIdx == if slot.Some? then slot.value.epIdx else 0
  {
    var g := if slot.Some? then slot.value else Group([], 0);
    Some(if name != "" && |g.epts| < MAX_EP_GROUP then g.(epts := g.epts + [name]) else g)
  }

  /**
    uta_add_ep on the table under construction.  Nothing happens without a
    table or an entry, or when the group is out of range.  Otherwise an empty
    group is allocated in a nil slot, the endpoint name is recorded in the
    table (rt_ensure_ep refuses an empty name), and the endpoint is appended
    at nused unless the group already holds MAX_EP_GROUP endpoints.  An
    empty name is not appended (AddToSlotAsWritten keeps the nil endpoint
    the source appends).
  */
  method AddEp(r: Routes, id: Option<nat>, name: string, group: int) returns (ep: Option<string>)
    requires r.Valid()
    requires id.Some? ==> id.value in r.store
    modifies r
    ensures r.Valid()
    ensures r.rt == old(r.rt) && r.oldRt == old(r.oldRt) && r.nextId == old(r.nextId)
    ensures old(r.newRt).None? || id.None? || !(0 <= group < |old(r.store)[id.value].groups|) ==>
      ep.None? && r.newRt == old(r.newRt) && r.store == old(r.store)
    ensures old(r.newRt).Some? && id.Some? && 0 <= group < |old(r.store)[id.value].groups| ==>
      var t := old(r.newRt).value;
      var e := old(r.store)[id.value];
      var g := AddToSlot(e.groups[group], name);
      ep == (if g.value.epts == Epts(e.groups[group]) then None else Some(name)) &&
      r.newRt == Some(t.(eps := if name != "" then t.eps + {name} else t.eps)) &&
      r.store == old(r.store)[id.value := e.(groups := e.groups[group := g])]
  {
    if r.newRt.None? || id.None? {
      return None;
    }
    var e := r.store[id.value];
    if group < 0 || |e.groups| <= group {
      return None;
    }
    var g := if e.groups[group].Some? then e.groups[group].value else Group([], 0);
    assert Epts(e.groups[group]) == g.epts;
    var t := r.newRt.value;
    var t' := t;
    if name != "" {
      t' := t.(eps := t.eps + {name});
    }
    var g' := g;
    ep := None;
    if name != "" && |g.epts| < MAX_EP_GROUP {
      g' := g.(epts := g.epts + [name]);
      ep := Some(name);
    }
    var e' := e.(groups := e.groups[group := Some(g')]);
    assert Some(g') == AddToSlot(e.groups[group], name);
    GroupsChangeKeepsCounts(r.newRt, Some(t'), r.rt, r.oldRt, r.store, r.nextId, id.value, e');
    r.newRt := Some(t');
    r.store := r.store[id.value := e'];
  }

  /** Endpoint names seen as the endpoint pointers a group holds. */
  function Ptrs(names: seq<string>): (r: seq<Option<string>>)
    ensures |r| == |names| && forall i :: 0 <= i < |r| ==> r[i] == Some(names[i])
  {
    if names == [] then [] else [Some(names[0])] + Ptrs(names[1..])
  }

  /**
    The endpoint pointers of a group slot after uta_add_ep as written:
    rt_ensure_ep gives nil for an empty name, and that nil is appended
    like any endpoint.
  */
  function AddToSlotAsWritten(slot: Option<Group>, name: string): seq<Option<string>> {
    if |Epts(slot)| < MAX_EP_GROUP then Ptrs(Epts(slot)) + [if name == "" then None else Some(name)]
    else Ptrs(Epts(slot))
  }

  /** For a non-empty name the slot as written holds exactly the endpoints AddToSlot gives. */
  lemma AddToSlotAsWrittenAgrees(slot: Option<Group>, name: string)
    requires name != ""
    ensures AddToSlotAsWritten(slot, name) == Ptrs(AddToSlot(slot, name).value.epts)
  {
    var a := Epts(slot);
    if |a| < MAX_EP_GROUP {
      assert Ptrs(a + [name]) == Ptrs(a) + [Some(name)];
    }
  }

  /**
    An empty name as written leaves a nil endpoint in the group, which
    uta_epsock_rr later selects and dereferences; AddToSlot leaves the
    group as it was.
  */
  lemma EmptyNameAddsNilAsWritten(slot: Option<Group>)
    requires |Epts(slot)| < MAX_EP_GROUP
    ensures None in AddToSlotAsWritten(slot, "")
    ensures AddToSlot(slot, "").value.epts == Epts(slot)
  {
    assert AddToSlotAsWritten(slot, "")[|Epts(slot)|] == None;
  }

  // ---- uta_epsock_rr -------------------------------------------------------------

  /** The endpoint a group with several endpoints gives for a given ep_idx. */
  function RrPick(epIdx: int, nused: int): (idx: int)
    requires nused > 0
    ensures 0 <= idx < nused
  {
    epIdx % nused
  }

  /** ep_idx++ on an unsigned 16-bit counter. */
  function NextIdx(epIdx: int): (n: int)
    requires 0 <= epIdx < TWO_16
    ensures 0 <= n < TWO_16
    ensures n == if epIdx == TWO_16 - 1 then 0 else epIdx + 1
  {
    (epIdx + 1) % TWO_16
  }

  /** The only multiple of n strictly between -n and n is 0. */
  lemma MultipleInsideIsZero(d: int, n: int)
    requires n > 0 && -n < d * n < n
    ensures d == 0
  {
  }

  /** Euclidean division is unique: y == q * n + x with x in [0, n) fixes y % n. */
  lemma ModUnique(y: int, n: int, q: int, x: int)
    requires n > 0 && 0 <= x < n && y == q * n + x
    ensures y % n == x
  {
    var d := y / n - q;
    assert y == (y / n) * n + y % n;
    assert d * n == x - y % n;
    MultipleInsideIsZero(d, n);
  }

  /** How many calls after ep_idx `start` endpoint j comes round. */
  function RrWait(start: int, nused: int, j: int): (k: int)
    requires nused > 0
    ensures 0 <= k < nused
  {
    (j - start) % nused
  }

  /**
    Round robin is fair between wraps of the counter: within nused calls
    from any ep_idx, every endpoint of the group comes round.
  */
  lemma RrVisitsEveryEndpoint(start: int, nused: int, j: int)
    requires nused > 0 && 0 <= start && 0 <= j < nused
    ensures RrPick(start + RrWait(start, nused, j), nused) == j
  {
    var q := (j - start) / nused;
    assert j - start == q * nused + RrWait(start, nused, j);
    ModUnique(start + RrWait(start, nused, j), nused, -q, j);
  }

  /** ... and none twice: the picks of nused successive calls differ. */
  lemma RrPicksDistinct(start: int, nused: int, k1: int, k2: int)
    requires nused > 0 && 0 <= start && 0 <= k1 < k2 < nused
    ensures RrPick(start + k1, nused) != RrPick(start + k2, nused)
  {
    var a, b := start + k1, start + k2;
    assert a == (a / nused) * nused + a % nused;
    assert b == (b / nused) * nused + b % nused;
    if a % nused == b % nused {
      assert (b / nused - a / nused) * nused == k2 - k1;
      MultipleInsideIsZero(b / nused - a / nused, nused);
    }
  }

  /**
    Where the 16-bit counter wraps the rotation restarts at endpoint 0, so
    a group of three endpoints gets endpoint 0 twice in a row.
  */
  lemma RrRepeatsAtWrap()
    ensures NextIdx(TWO_16 - 1) == 0
    ensures RrPick(TWO_16 - 1, 3) == RrPick(NextIdx(TWO_16 - 1), 3) == 0
  {
  }

  /**
    uta_epsock_rr: choose the endpoint of `group` in entry `id`.  `hasSock`
    is false when the caller passed no socket pointer; `open` holds the
    endpoints already connected and `linkOk` is what connecting the chosen
    endpoint would return.  `more` reports whether the next group slot is
    in use.  The result is 0 when nothing is chosen, 1 for the only
    endpoint of a group, and the index plus one when the group rotates, in
    which case the group's 16-bit ep_idx advances.
  */
  method EpsockRr(r: Routes, id: Option<nat>, group: int, hasSock: bool, open: set<string>, linkOk: bool)
    returns (state: int, more: bool, ep: Option<string>)
    requires r.Valid()
    requires id.Some? ==> id.value in r.store
    modifies r
    ensures r.Valid()
    ensures r.newRt == old(r.newRt) && r.rt == old(r.rt) && r.oldRt == old(r.oldRt) && r.nextId == old(r.nextId)
    ensures !hasSock || id.None? || !(0 <= group < |old(r.store)[id.value].groups|) ||
            old(r.store)[id.value].groups[group].None? ==>
      state == 0 && !more && ep.None? && r.store == old(r.store)
    ensures hasSock && id.Some? && 0 <= group < |old(r.store)[id.value].groups| &&
            old(r.store)[id.value].groups[group].Some? ==>
      var e := old(r.store)[id.value];
      var g := e.groups[group].value;
      var n := |g.epts|;
      more == (group < |e.groups| - 1 && e.groups[group + 1].Some?) &&
      (n == 0 ==> state == 0 && ep.None? && r.store == old(r.store)) &&
      (n == 1 ==> ep == Some(g.epts[0]) && r.store == old(r.store) &&
                  state == (if g.epts[0] in open || linkOk then 1 else 0)) &&
      (n > 1 ==>
        var idx := RrPick(g.epIdx, n);
        ep == Some(g.epts[idx]) &&
        state == (if g.epts[idx] in open || linkOk then idx + 1 else 0) &&
        r.store == old(r.store)[id.value := e.(groups := e.groups[group := Some(g.(epIdx := NextIdx(g.epIdx)))])])
  {
    if !hasSock || id.None? {
      return 0, false, None;
    }
    var e := r.store[id.value];
    if group < 0 || group >= |e.groups| || e.groups[group].None? {
      return 0, false, None;
    }
    var g := e.groups[group].value;
    more := group < |e.groups| - 1 && e.groups[group + 1].Some?;
    var n := |g.epts|;
    if n == 0 {
      return 0, more, None;
    } else if n == 1 {
      ep := Some(g.epts[0]);
      state := 1;
    } else {
      var idx := RrPick(g.epIdx, n);
      var e' := e.(groups := e.groups[group := Some(g.(epIdx := NextIdx(g.epIdx)))]);
      GroupsChangeKeepsCounts(r.newRt, r.newRt, r.rt, r.oldRt, r.store, r.nextId, id.value, e');
      r.store := r.store[id.value := e'];
      ep := Some(g.epts[idx]);
      state := idx + 1;
    }
    if ep.value !in open && !linkOk {
      state := 0;
    }
  }

  // ---- uta_get_rte ---------------------------------------------------------------

  /**
    uta_get_rte: the entry under the full key; failing that, when the
    caller allows it and the message carries a sub-id, the entry under the
    type-only key.
  */
  function GetRte(t: Option<Table>, sid: int, mtype: int, tryAlt: bool): (id: Option<nat>)
    requires Int32(sid) && Int32(mtype)
    ensures id.Some? ==> id.value in Ids(t)
  {
    if t.None? then None
    else
      var full := BuildRtKey(sid, mtype);
      if full in t.value.entries then Some(t.value.entries[full])
      else if !tryAlt || sid == UNSET_SUBID then None
      else
        var alt := BuildRtKey(UNSET_SUBID, mtype);
        if alt in t.value.entries then Some(t.value.entries[alt]) else None
  }

  /**
    The entry found routes the message's own type, under either the
    message's own sub-id or, only when the fallback is allowed, no sub-id.
  */
  lemma GetRteRoutesOwnType(t: Option<Table>, store: map<nat, Rte>, sid: int, mtype: int, tryAlt: bool)
    requires Int32(sid) && Int32(mtype) && TableOk(t, store)
    ensures GetRte(t, sid, mtype, tryAlt).Some? ==>
      var e := store[GetRte(t, sid, mtype, tryAlt).value];
      e.key % TWO_32 == mtype % TWO_32 &&
      (e.key == BuildRtKey(sid, mtype) || (tryAlt && sid != UNSET_SUBID && e.key == BuildRtKey(UNSET_SUBID, mtype)))
  {
  }

  /** The fallback is tried only when the full key is missing. */
  lemma GetRtePrefersFullKey(t: Table, store: map<nat, Rte>, sid: int, mtype: int, tryAlt: bool)
    requires Int32(sid) && Int32(mtype)
    requires BuildRtKey(sid, mtype) in t.entries
    ensures GetRte(Some(t), sid, mtype, tryAlt) == GetRte(Some(t), sid, mtype, false) == Some(t.entries[BuildRtKey(sid, mtype)])
  {
  }

  /**
    The outcomes of the lookups the route table tests make: with neither
    the full key nor the type-only key present nothing is found; without
    the fallback only the full key counts; with it a sub-id that has no
    entry of its own reaches the type's entry.
  */
  lemma GetRteFallback(t: Table, sid: int, mtype: int)
    requires Int32(sid) && Int32(mtype) && sid != UNSET_SUBID
    requires BuildRtKey(sid, mtype) !in t.entries
    ensures GetRte(Some(t), sid, mtype, false).None?
    ensures GetRte(Some(t), sid, mtype, true) ==
      if BuildRtKey(UNSET_SUBID, mtype) in t.entries then Some(t.entries[BuildRtKey(UNSET_SUBID, mtype)]) else None
  {
  }

  /** A message without a sub-id finds the same entry whether or not the fallback is allowed. */
  lemma GetRteUnsetIgnoresFallback(t: Option<Table>, mtype: int)
    requires Int32(mtype)
    ensures GetRte(t, UNSET_SUBID, mtype, true) == GetRte(t, UNSET_SUBID, mtype, false)
  {
  }

  // ---- fd2ep ---------------------------------------------------------------------

  /** (uint64_t) fd: a negative descriptor is sign-extended. */
  function FdKey(fd: int): (k: nat)
    requires Int32(fd)
    ensures k < TWO_64
    ensures fd >= 0 ==> k == fd
  {
    if fd < 0 then fd + TWO_64 else fd
  }

  /** Distinct descriptors never share a slot in the map. */
  lemma FdKeyInjective(a: int, b: int)
    requires Int32(a) && Int32(b) && FdKey(a) == FdKey(b)
    ensures a == b
  {
  }

  /** fd2ep_add: the descriptor now maps to the endpoint; a context without a map is ignored. */
  method Fd2EpAdd(tab: SymTab?<string>, fd: int, ep: string)
    requires Int32(fd)
    requires tab != null ==> tab.Valid()
    modifies tab
    ensures tab != null ==> tab.Valid() && tab.size == old(tab.size)
    ensures tab != null ==> tab.Entry(Numeric(FdKey(fd))).Some? && tab.Entry(Numeric(FdKey(fd))).value.val == ep
    ensures tab != null ==> forall k :: k != Numeric(FdKey(fd)) ==> tab.Entry(k) == old(tab.Entry(k))
  {
    if tab != null {
      var _ := tab.Map(FdKey(fd), ep);
    }
  }

  /** fd2ep_get: the endpoint the descriptor maps to, or nil; the lookup bumps that entry's reference count. */
  method Fd2EpGet(tab: SymTab?<string>, fd: int) returns (ep: Option<string>)
    requires Int32(fd)
    requires tab != null ==> tab.Valid()
    modifies tab
    ensures tab == null ==> ep.None?
    ensures tab != null ==> tab.Valid() && tab.size == old(tab.size)
    ensures tab != null ==>
      ep == if old(tab.Entry(Numeric(FdKey(fd)))).Some? then Some(old(tab.Entry(Numeric(FdKey(fd)))).value.val) else None
    ensures tab != null ==> (tab.Entry(Numeric(FdKey(fd))) ==
      if old(tab.Entry(Numeric(FdKey(fd)))).Some?
      then Some(old(tab.Entry(Numeric(FdKey(fd)))).value.(rcount := old(tab.Entry(Numeric(FdKey(fd)))).value.rcount + 1))
      else None)
    ensures tab != null ==> forall k :: k != Numeric(FdKey(fd)) ==> tab.Entry(k) == old(tab.Entry(k))
  {
    ep := None;
    if tab != null {
      ep := tab.Get(Numeric(FdKey(fd)));
    }
  }

  /**
    fd2ep_del: the endpoint the descriptor mapped to, or nil; the mapping
    is removed.
  */
  method Fd2EpDel(tab: SymTab?<string>, fd: int) returns (ep: Option<string>)
    requires Int32(fd)
    requires tab != null ==> tab.Valid()
    modifies tab
    ensures tab == null ==> ep.None?
    ensures tab != null ==> tab.Valid() && tab.size == old(tab.size)
    ensures tab != null ==>
      ep == if old(tab.Entry(Numeric(FdKey(fd)))).Some? then Some(old(tab.Entry(Numeric(FdKey(fd)))).value.val) else None
    ensures tab != null ==> tab.Entry(Numeric(FdKey(fd))).None?
    ensures tab != null ==> forall k :: k != Numeric(FdKey(fd)) ==> tab.Entry(k) == old(tab.Entry(k))
  {
    ep := None;
    if tab != null {
      ep := tab.Get(Numeric(FdKey(fd)));
      if ep.Some? {
        tab.Del(Numeric(FdKey(fd)));
      }
    }
  }
}

=== FILE: si_reassembly.dfy ===
/*
  Inbound stream handling of the SI transport (mt_call_si_static.c).

  Bytes arrive on a connection (a "river") in arbitrary pieces.  Each
  message on the wire starts with a four-byte size that counts the whole
  message, size field included.  The data callback gathers the pieces into
  an accumulator until a message is complete and hands complete messages on
  in order; a message larger than the accumulator is skipped.  Complete
  messages are then routed either to the receive ring or to the chute of
  the call that waits for them.

  The reference semantics is `Step`, which takes one byte at a time;
  `River.DataCb`, which moves whole runs of bytes as the source does, is
  proved to agree with it on every input.
*/
module MtCallSi {
  import opened Common
  import opened Mbuf
  import Ring
  import opened RouteTable
  import opened Symtab
  import opened RtableSi

  /** Bytes in the size field at the front of every message (sizeof(int)). */
  const SIZE_LEN: int := 4

  /** Bytes the accumulator holds beyond the largest inbound message. */
  const ACCUM_SLACK: int := 1024

  /** River states: never used, receiving, interrupted. */
  datatype RiverState = RsNew | RsGood | RsReset

  /**
    The value of a river.  `frame` holds the bytes of the message under way
    that have been kept, `ipt` counts the bytes of it received so far;
    `size` is the declared size, or zero or less while the size field is
    incomplete; `drop` says the message under way is being skipped and
    `notified` that a skipped message has been reported.
  */
  datatype Flow = Flow(nbytes: int, frame: seq<byte>, ipt: int, size: int, drop: bool, notified: bool)

  /** The result of feeding bytes: the new flow and the messages completed, in order. */
  datatype Fed = Fed(flow: Flow, out: seq<seq<byte>>)

  /**
    The size field as the receiving host reads it: a signed 32-bit integer
    in little-endian byte order.
  */
  function PrefixValue(p: seq<byte>): (n: int)
    requires |p| == SIZE_LEN
    ensures -0x8000_0000 <= n < 0x8000_0000
  {
    var u := p[0] as int + 0x100 * p[1] as int + 0x1_0000 * p[2] as int + 0x100_0000 * p[3] as int;
    if u >= 0x8000_0000 then u - 0x1_0000_0000 else u
  }

  /** The size field a sender writes for a message of n bytes. */
  function SizeField(n: int): (p: seq<byte>)
    requires 0 <= n < 0x8000_0000
    ensures |p| == SIZE_LEN
  {
    [(n % 0x100) as byte, (n / 0x100 % 0x100) as byte, (n / 0x1_0000 % 0x100) as byte, (n / 0x100_0000) as byte]
  }

  /** Reading back a size field gives the size written. */
  lemma SizeFieldRoundTrip(n: int)
    requires 0 <= n < 0x8000_0000
    ensures PrefixValue(SizeField(n)) == n
  {
    var p := SizeField(n);
    assert p[3] as int == n / 0x100_0000;
    assert n == n % 0x100 + 0x100 * (n / 0x100);
    assert n / 0x100 == n / 0x100 % 0x100 + 0x100 * (n / 0x1_0000);
    assert n / 0x1_0000 == n / 0x1_0000 % 0x100 + 0x100 * (n / 0x100_0000);
  }

  /** The well-formed states of a receiving river. */
  predicate FlowOk(f: Flow)
  {
    f.ipt >= 0 &&
    (f.size <= 0 ==> f.ipt < SIZE_LEN && |f.frame| == f.ipt && !f.drop) &&
    (f.size > 0 ==> SIZE_LEN <= f.size && f.ipt < f.size &&
                    (!f.drop ==> |f.frame| == f.ipt && f.size <= f.nbytes))
  }

  /** A river between messages: nothing of a new message has arrived. */
  predicate Idle(f: Flow)
  {
    f.size <= 0 && f.ipt == 0 && f.frame == [] && !f.drop
  }

  /**
    The size field is complete: the size is recorded, and the message is to
    be skipped when it does not fit the accumulator or declares fewer bytes
    than the size field itself (such a message ends with its size field).
  */
  function Sized(g: Flow): (r: Flow)
  {
    var n := if |g.frame| == SIZE_LEN then PrefixValue(g.frame) else 0;
    g.(size := if n < SIZE_LEN then SIZE_LEN else n, drop := n < SIZE_LEN || n > g.nbytes)
  }

  /** Bytes of the message under way: counted, and kept unless the message is skipped. */
  function Grow(f: Flow, c: seq<byte>): (r: Flow)
  {
    f.(ipt := f.ipt + |c|, frame := if f.drop then f.frame else f.frame + c)
  }

  /**
    The end-of-message check: once `size` bytes have arrived, the message
    is handed on (or, when skipped, reported) and the river waits for the
    next size field.
  */
  function Close(g: Flow): (r: Fed)
  {
    if g.ipt >= g.size then
      Fed(g.(frame := [], ipt := 0, size := -1, drop := false, notified := g.notified || g.drop),
          if g.drop then [] else [g.frame])
    else Fed(g, [])
  }

  /** One byte of input. */
  function Step(f: Flow, b: byte): Fed
  {
    if f.size <= 0 then
      if f.ipt + 1 < SIZE_LEN then Fed(Grow(f, [b]), [])
      else Close(Sized(Grow(f, [b])))
    else Close(Grow(f, [b]))
  }

  /** A run of bytes, one at a time. */
  function FeedAll(f: Flow, d: seq<byte>): Fed
    decreases |d|
  {
    if d == [] then Fed(f, [])
    else
      var s := Step(f, d[0]);
      var t := FeedAll(s.flow, d[1..]);
      Fed(t.flow, s.out + t.out)
  }

  /** One byte keeps a river well formed. */
  lemma StepOk(f: Flow, b: byte)
    requires FlowOk(f)
    ensures FlowOk(Step(f, b).flow) && Step(f, b).flow.nbytes == f.nbytes
  {
  }

  /** Any run of bytes keeps a river well formed; the accumulator size never changes. */
  lemma {:induction false} FeedAllOk(f: Flow, d: seq<byte>)
    requires FlowOk(f)
    ensures FlowOk(FeedAll(f, d).flow) && FeedAll(f, d).flow.nbytes == f.nbytes
    decreases |d|
  {
    if d != [] {
      StepOk(f, d[0]);
      FeedAllOk(Step(f, d[0]).flow, d[1..]);
    }
  }

  /**
    Feeding two runs one after the other is feeding their concatenation:
    how the transport splits the stream does not matter.
  */
  lemma {:induction false} FeedConcat(f: Flow, a: seq<byte>, b: seq<byte>)
    ensures FeedAll(f, a + b) ==
      Fed(FeedAll(FeedAll(f, a).flow, b).flow, FeedAll(f, a).out + FeedAll(FeedAll(f, a).flow, b).out)
    decreases |a|
  {
    if a == [] {
      assert a + b == b;
    } else {
      var s := Step(f, a[0]);
      assert (a + b)[0] == a[0] && (a + b)[1..] == a[1..] + b;
      FeedConcat(s.flow, a[1..], b);
      var x := FeedAll(s.flow, a[1..]);
      var y := FeedAll(x.flow, b);
      assert s.out + (x.out + y.out) == (s.out + x.out) + y.out;
    }
  }

  /** One body byte that does not complete the message. */
  lemma BodyStep(f: Flow, b: byte)
    requires FlowOk(f) && f.size > 0 && f.ipt + 1 < f.size
    ensures Step(f, b) == Fed(Grow(f, [b]), [])
  {
  }

  /** Body bytes taken in two runs are the bytes of both. */
  lemma GrowGrow(f: Flow, a: seq<byte>, c: seq<byte>)
    ensures Grow(Grow(f, a), c) == Grow(f, a + c)
  {
    assert f.frame + a + c == f.frame + (a + c);
  }

  /** A run of one byte is one step. */
  lemma FeedOne(f: Flow, b: byte)
    ensures FeedAll(f, [b]) == Step(f, b)
  {
    assert [b][1..] == [];
  }

  /** One byte of a size field that does not complete it. */
  lemma PrefixStep(f: Flow, b: byte)
    requires FlowOk(f) && f.size <= 0 && f.ipt + 1 < SIZE_LEN
    ensures Step(f, b) == Fed(Grow(f, [b]), [])
  {
  }

  /** Part of a size field: the bytes are kept, nothing completes. */
  lemma {:induction false} PrefixPart(f: Flow, c: seq<byte>)
    requires FlowOk(f) && f.size <= 0 && f.ipt + |c| < SIZE_LEN
    ensures FeedAll(f, c) == Fed(Grow(f, c), [])
    decreases |c|
  {
    if c != [] {
      PrefixStep(f, c[0]);
      PrefixPart(Grow(f, [c[0]]), c[1..]);
      GrowGrow(f, [c[0]], c[1..]);
      assert [c[0]] + c[1..] == c;
    }
  }

  /** The rest of a size field: the size is read, and a four-byte message completes at once. */
  lemma PrefixDone(f: Flow, c: seq<byte>)
    requires FlowOk(f) && f.size <= 0 && c != [] && f.ipt + |c| == SIZE_LEN
    ensures FeedAll(f, c) == Close(Sized(Grow(f, c)))
  {
    var a, z := c[..|c| - 1], c[|c| - 1];
    assert c == a + [z];
    FeedConcat(f, a, [z]);
    PrefixPart(f, a);
    FeedOne(Grow(f, a), z);
    GrowGrow(f, a, [z]);
  }

  /** Part of a message body: counted and kept, nothing completes. */
  lemma {:induction false} BodyPart(f: Flow, c: seq<byte>)
    requires FlowOk(f) && f.size > 0 && f.ipt + |c| < f.size
    ensures FeedAll(f, c) == Fed(Grow(f, c), [])
    decreases |c|
  {
    if c != [] {
      BodyStep(f, c[0]);
      BodyPart(Grow(f, [c[0]]), c[1..]);
      GrowGrow(f, [c[0]], c[1..]);
      assert [c[0]] + c[1..] == c;
    }
  }

  /** The last bytes of a message body: the message completes. */
  lemma BodyDone(f: Flow, c: seq<byte>)
    requires FlowOk(f) && f.size > 0 && c != [] && f.ipt + |c| == f.size
    ensures FeedAll(f, c) == Close(Grow(f, c))
  {
    var a, z := c[..|c| - 1], c[|c| - 1];
    assert c == a + [z];
    FeedConcat(f, a, [z]);
    BodyPart(f, a);
    FeedOne(Grow(f, a), z);
    GrowGrow(f, a, [z]);
  }

  /** A prefix of a sequence, cut in two. */
  lemma SliceJoin(s: seq<byte>, i: int, j: int)
    requires 0 <= i <= j <= |s|
    ensures s[..j] == s[..i] + s[i..j]
  {
  }

  // ---- the data callback ------------------------------------------------------------

  /** The flow a callback starts from: a new river is set up, an interrupted one restarts its message. */
  function Started(f: Flow, st: RiverState, maxIbm: int): (r: Flow)
  {
    match st
    case RsNew => Flow(maxIbm + ACCUM_SLACK, [], 0, 0, false, false)
    case RsReset => f.(ipt := 0, frame := [])
    case RsGood => f
  }

  /** A river: one per connection, indexed by the connection's descriptor. */
  class River {
    var state: RiverState
    var nbytes: int
    var frame: seq<byte>
    var ipt: int
    var msgSize: int
    var drop: bool
    var notified: bool

    function Current(): Flow
      reads this
    {
      Flow(nbytes, frame, ipt, msgSize, drop, notified)
    }

    predicate Valid()
      reads this
    {
      state == RsNew || FlowOk(Current())
    }

    /** A river slot as the context allocates it: zeroed and marked new. */
    constructor ()
      ensures Valid() && state == RsNew
    {
      state := RsNew;
      nbytes, frame, ipt, msgSize, drop, notified := 0, [], 0, 0, false, false;
    }

    /** The message is complete: hand it on, or report that it was skipped; wait for a new size field. */
    method Finish() returns (out: seq<seq<byte>>)
      requires ipt >= msgSize
      modifies this
      ensures Fed(Current(), out) == Close(old(Current())) && state == old(state)
    {
      out := [];
      if !drop {
        out := [frame];
      } else if !notified {
        notified := true;
      }
      frame := [];
      msgSize := -1;
      ipt := 0;
      drop := false;
    }

    /** Bytes of the size field, from the transport buffer at bidx. */
    method TakePrefix(buf: seq<byte>, bidx: int) returns (next: int, out: seq<seq<byte>>)
      requires FlowOk(Current()) && msgSize <= 0 && 0 <= bidx < |buf|
      modifies this
      ensures bidx < next <= |buf| && FlowOk(Current()) && state == old(state)
      ensures Fed(Current(), out) == FeedAll(old(Current()), buf[bidx..next])
    {
      ghost var f := Current();
      var remain := |buf| - bidx;
      var need := SIZE_LEN - ipt;
      if need > remain {
        assert buf[bidx..|buf|] == buf[bidx..];
        PrefixPart(f, buf[bidx..]);
        frame := frame + buf[bidx..];
        ipt := ipt + remain;
        return |buf|, [];
      }
      next := bidx + need;
      PrefixDone(f, buf[bidx..next]);
      frame := frame + buf[bidx..next];
      ipt := SIZE_LEN;
      var n := PrefixValue(frame);
      msgSize := if n < SIZE_LEN then SIZE_LEN else n;
      if n < SIZE_LEN || n > nbytes {
        drop := true;
      }
      out := [];
      if msgSize <= ipt {
        out := Finish();
      }
    }

    /** Bytes of the message body, from the transport buffer at bidx. */
    method TakeBody(buf: seq<byte>, bidx: int) returns (next: int, out: seq<seq<byte>>)
      requires FlowOk(Current()) && msgSize > 0 && 0 <= bidx < |buf|
      modifies this
      ensures bidx < next <= |buf| && FlowOk(Current()) && state == old(state)
      ensures Fed(Current(), out) == FeedAll(old(Current()), buf[bidx..next])
    {
      ghost var f := Current();
      var remain := |buf| - bidx;
      if msgSize > ipt + remain {
        assert buf[bidx..|buf|] == buf[bidx..];
        BodyPart(f, buf[bidx..]);
        if !drop {
          frame := frame + buf[bidx..];
        }
        ipt := ipt + remain;
        return |buf|, [];
      }
      var need := msgSize - ipt;
      next := bidx + need;
      BodyDone(f, buf[bidx..next]);
      if !drop {
        frame := frame + buf[bidx..next];
      }
      ipt := msgSize;
      out := Finish();
    }

    /** A river that is not receiving is set up (when new) or restarts its message (when interrupted). */
    method Start(maxIbm: int)
      requires Valid()
      modifies this
      ensures state == RsGood && Current() == Started(old(Current()), old(state), maxIbm)
      ensures FlowOk(Current())
    {
      if state != RsGood {
        if state == RsNew {
          nbytes := maxIbm + ACCUM_SLACK;
          frame, ipt, msgSize, drop, notified := [], 0, 0, false, false;
        } else {
          ipt := 0;
          frame := [];
        }
      }
      state := RsGood;
    }

    /**
      mt_data_cb for one transport buffer: an empty buffer changes nothing;
      otherwise the river is set up or restarted if need be and every byte
      is consumed, with the state and the completed messages those of
      feeding the bytes one at a time.
    */
    method DataCb(buf: seq<byte>, maxIbm: int) returns (msgs: seq<seq<byte>>)
      requires Valid()
      modifies this
      ensures Valid()
      ensures buf == [] ==> msgs == [] && Current() == old(Current()) && state == old(state)
      ensures buf != [] ==>
        (state == RsGood && Fed(Current(), msgs) == FeedAll(Started(old(Current()), old(state), maxIbm), buf))
    {
      if buf == [] {
        return [];
      }
      Start(maxIbm);
      ghost var f0 := Current();
      var bidx := 0;
      msgs := [];
      while bidx < |buf|
        invariant 0 <= bidx <= |buf| && FlowOk(Current()) && state == RsGood
        invariant Fed(Current(), msgs) == FeedAll(f0, buf[..bidx])
        decreases |buf| - bidx
      {
        var next, out;
        if msgSize <= 0 {
          next, out := TakePrefix(buf, bidx);
        } else {
          next, out := TakeBody(buf, bidx);
        }
        FeedConcat(f0, buf[..bidx], buf[bidx..next]);
        SliceJoin(buf, bidx, next);
        msgs := msgs + out;
        bidx := next;
      }
      assert buf[..bidx] == buf;
    }
  }

  // ---- what the reassembly delivers --------------------------------------------------

  /** A message as it travels: at least a size field, which counts the whole message. */
  predicate Framed(m: seq<byte>)
  {
    SIZE_LEN <= |m| && PrefixValue(m[..SIZE_LEN]) == |m|
  }

  /** The bytes of several messages as they travel on the wire, back to back. */
  function Wire(ms: seq<seq<byte>>): (s: seq<byte>)
  {
    if ms == [] then [] else ms[0] + Wire(ms[1..])
  }

  /** The messages that fit an accumulator of n bytes, in order. */
  function Fitting(ms: seq<seq<byte>>, n: int): (r: seq<seq<byte>>)
    ensures |r| <= |ms|
    ensures forall m :: m in r ==> m in ms && |m| <= n
  {
    if ms == [] then []
    else (if |ms[0]| <= n then [ms[0]] else []) + Fitting(ms[1..], n)
  }

  /**
    One message on an idle river: it comes out whole when it fits, and is
    skipped otherwise; the river is idle again afterwards.
  */
  lemma OneMessage(f: Flow, m: seq<byte>)
    requires FlowOk(f) && Idle(f) && Framed(m)
    ensures Idle(FeedAll(f, m).flow) && FeedAll(f, m).flow.nbytes == f.nbytes
    ensures FeedAll(f, m).out == if |m| <= f.nbytes then [m] else []
  {
    var p, body := m[..SIZE_LEN], m[SIZE_LEN..];
    assert m == p + body;
    assert f.frame + p == p;
    FeedConcat(f, p, body);
    PrefixDone(f, p);
    var g := Sized(Grow(f, p));
    assert g.size == |m| && g.ipt == SIZE_LEN && g.frame == p && (g.drop <==> |m| > f.nbytes);
    var done := g.(frame := [], ipt := 0, size := -1, drop := false, notified := g.notified || g.drop);
    var out: seq<seq<byte>> := if g.drop then [] else [m];
    if body == [] {
      assert p == m;
      assert Close(g) == Fed(done, out);
      assert FeedAll(done, body) == Fed(done, []);
    } else {
      assert Close(g) == Fed(g, []);
      BodyDone(g, body);
      assert g.frame + body == m;
      assert Close(Grow(g, body)) == Fed(done, out);
    }
    assert FeedAll(f, m) == Fed(done, out);
  }

  /**
    Framing round trip: a stream of well-formed messages, split however the
    transport likes, delivers exactly the messages that fit, in order, and
    leaves the river idle.
  */
  lemma {:induction false} DeliversFraming(f: Flow, ms: seq<seq<byte>>)
    requires FlowOk(f) && Idle(f)
    requires forall i :: 0 <= i < |ms| ==> Framed(ms[i])
    ensures Idle(FeedAll(f, Wire(ms)).flow)
    ensures FeedAll(f, Wire(ms)).out == Fitting(ms, f.nbytes)
    decreases |ms|
  {
    if ms == [] {
      assert Wire(ms) == [];
    } else {
      OneMessage(f, ms[0]);
      FeedAllOk(f, ms[0]);
      FeedConcat(f, ms[0], Wire(ms[1..]));
      var g := FeedAll(f, ms[0]).flow;
      assert forall i :: 0 <= i < |ms[1..]| ==> Framed(ms[1..][i]);
      DeliversFraming(g, ms[1..]);
    }
  }

  /** Every message handed on was fully received and fits the accumulator. */
  lemma {:induction false} DeliveredFit(f: Flow, d: seq<byte>)
    requires FlowOk(f)
    ensures forall m :: m in FeedAll(f, d).out ==> SIZE_LEN <= |m| <= f.nbytes
    decreases |d|
  {
    if d != [] {
      StepOk(f, d[0]);
      DeliveredFit(Step(f, d[0]).flow, d[1..]);
    }
  }

  // ---- the callback as written ---------------------------------------------------------

  /** The state after one turn of the receive loop, and the index reached in the buffer. */
  datatype Turn = Turn(flow: Flow, bidx: int, out: seq<seq<byte>>)

  /**
    One turn of the loop of mt_data_cb as the source has it, or None where
    the source would copy a negative number of bytes.  The drop flag is
    never cleared, and a size below the size field's own length is used as
    it stands.
  */
  function AsWrittenTurn(f: Flow, buf: seq<byte>, bidx: int): (r: Option<Turn>)
    requires 0 <= bidx < |buf| && 0 <= f.ipt
    requires f.size <= 0 ==> f.ipt < SIZE_LEN && |f.frame| == f.ipt
    ensures r.Some? ==> bidx <= r.value.bidx <= |buf|
  {
    var remain := |buf| - bidx;
    if f.size <= 0 && SIZE_LEN - f.ipt > remain then
      Some(Turn(f.(frame := f.frame + buf[bidx..], ipt := f.ipt + remain), |buf|, []))
    else
      var (g, b) :=
        if f.size > 0 then (f, bidx)
        else if f.ipt > 0 then
          var fr := f.frame + buf[bidx..bidx + SIZE_LEN - f.ipt];
          var n := PrefixValue(fr);
          (f.(frame := fr, ipt := SIZE_LEN, size := n, drop := f.drop || n > f.nbytes), bidx + SIZE_LEN - f.ipt)
        else
          var n := PrefixValue(buf[bidx..bidx + SIZE_LEN]);
          (f.(size := n, drop := f.drop || n > f.nbytes), bidx);
      var rem := |buf| - b;
      if g.size > g.ipt + rem then
        Some(Turn(g.(frame := if g.drop then g.frame else g.frame + buf[b..], ipt := g.ipt + rem), |buf|, []))
      else
        var need := g.size - g.ipt;
        if need < 0 then None
        else Some(Turn(g.(frame := [], ipt := 0, size := -1, notified := g.notified || g.drop), b + need,
                       if g.drop then [] else [g.frame + buf[b..b + need]]))
  }

  /** A new river with an accumulator of eight bytes. */
  function Small(): Flow { Flow(8, [], 0, 0, false, false) }

  /**
    As written, the drop flag outlives the oversized message that set it:
    after a nine-byte message on a river with room for eight, a five-byte
    message that fits is skipped too.  Fed byte by byte, the five-byte
    message comes out.
  */
  lemma StickyDropAsWritten()
    ensures var big: seq<byte> := [9, 0, 0, 0, 1, 2, 3, 4, 5];
            var small: seq<byte> := [5, 0, 0, 0, 7];
            var t1 := AsWrittenTurn(Small(), big, 0);
            t1.Some? && t1.value.bidx == |big| && t1.value.out == [] && t1.value.flow.size <= 0 &&
            t1.value.flow.ipt == 0 && t1.value.flow.frame == [] &&
            var t2 := AsWrittenTurn(t1.value.flow, small, 0);
            t2.Some? && t2.value.bidx == |small| && t2.value.out == []
  {
    var big: seq<byte> := [9, 0, 0, 0, 1, 2, 3, 4, 5];
    var small: seq<byte> := [5, 0, 0, 0, 7];
    assert PrefixValue(big[0..4]) == 9;
    assert PrefixValue(small[0..4]) == 5;
  }

  /** The corrected reassembly delivers the five-byte message after the skipped one. */
  lemma StickyDropCorrected()
    ensures FeedAll(Small(), [9, 0, 0, 0, 1, 2, 3, 4, 5] + [5, 0, 0, 0, 7]).out == [[5, 0, 0, 0, 7]]
  {
    var big: seq<byte> := [9, 0, 0, 0, 1, 2, 3, 4, 5];
    var small: seq<byte> := [5, 0, 0, 0, 7];
    assert big[..SIZE_LEN] == [9, 0, 0, 0] && small[..SIZE_LEN] == [5, 0, 0, 0];
    assert Wire([big, small]) == big + small by {
      assert Wire([big, small][1..]) == small + Wire([]);
    }
    DeliversFraming(Small(), [big, small]);
    assert Fitting([big, small], 8) == [small] by {
      assert Fitting([big, small][1..], 8) == [small] + Fitting([], 8);
    }
  }

  /**
    As written, a size field of zero at the start of a buffer makes no
    progress: the turn hands on an empty message, consumes nothing and
    leaves the river as it found it, so the loop never ends.
  */
  lemma ZeroSizeStallsAsWritten(f: Flow)
    requires Idle(f) && f.size == -1 && f.nbytes >= 0
    ensures AsWrittenTurn(f, [0, 0, 0, 0], 0) == Some(Turn(f, 0, [[]]))
  {
    var z: seq<byte> := [0, 0, 0, 0];
    assert z[0..SIZE_LEN] == z;
    assert PrefixValue(z) == 0;
    var g := f.(size := 0, drop := f.drop || 0 > f.nbytes);
    assert g == f.(size := 0);
    assert f.frame + z[0..0] == [];
    assert g.(frame := [], ipt := 0, size := -1, notified := g.notified || g.drop) == f;
    var t := AsWrittenTurn(f, z, 0);
    assert t.Some?;
    assert t.value.bidx == 0;
    assert t.value.out == [[]];
    assert t.value.flow == f;
  }

  /** The corrected reassembly consumes a zero size field as a skipped message. */
  lemma ZeroSizeCorrected(f: Flow)
    requires FlowOk(f) && Idle(f)
    ensures Idle(FeedAll(f, [0, 0, 0, 0]).flow) && FeedAll(f, [0, 0, 0, 0]).out == []
    ensures FeedAll(f, [0, 0, 0, 0]).flow.notified
  {
    var z: seq<byte> := [0, 0, 0, 0];
    assert PrefixValue(z) == 0;
    ShortSizeCorrected(f, z);
  }

  /**
    As written, a size field of 1 to 3 at the start of a buffer is used as
    it stands: the turn hands on a fragment of that many bytes, cut out of
    the size field itself, and the next size is read from the bytes that
    follow it inside the old field.
  */
  lemma SmallSizeFragmentAsWritten(f: Flow)
    requires Idle(f) && f.size == -1 && f.nbytes >= SIZE_LEN
    ensures AsWrittenTurn(f, [2, 0, 0, 0], 0) == Some(Turn(f, 2, [[2, 0]]))
  {
    var z: seq<byte> := [2, 0, 0, 0];
    assert z[0..SIZE_LEN] == z;
    assert PrefixValue(z) == 2;
    var g := f.(size := 2);
    assert g.(frame := [], ipt := 0, size := -1, notified := g.notified || g.drop) == f;
    assert f.frame + z[0..2] == [2, 0];
  }

  /**
    As written, a negative size field, or a size of 1 to 3 whose field was
    split across two buffers, leaves `need` negative: the source then hands
    memcpy a negative length (the turn has no defined result).
  */
  lemma NegativeNeedAsWritten(f: Flow)
    requires Idle(f) && f.size == -1
    ensures AsWrittenTurn(f, [255, 255, 255, 255], 0).None?
    ensures AsWrittenTurn(f.(frame := [2, 0], ipt := 2), [0, 0], 0).None?
  {
    var m: seq<byte> := [255, 255, 255, 255];
    assert m[0..SIZE_LEN] == m;
    assert PrefixValue(m) == -1;
    var h: seq<byte> := [0, 0];
    assert h[0..SIZE_LEN - 2] == h;
    assert PrefixValue([2, 0] + h) == 2;
  }

  /**
    The corrected reassembly consumes any size field below the field's own
    length (zero, 1 to 3, or negative) as a skipped, reported message and is
    idle again: nothing is handed on and no byte is read twice.
  */
  lemma ShortSizeCorrected(f: Flow, p: seq<byte>)
    requires FlowOk(f) && Idle(f) && |p| == SIZE_LEN && PrefixValue(p) < SIZE_LEN
    ensures Idle(FeedAll(f, p).flow) && FeedAll(f, p).out == []
    ensures FeedAll(f, p).flow.notified && FeedAll(f, p).flow.nbytes == f.nbytes
  {
    PrefixDone(f, p);
    assert f.frame + p == p;
  }

  // ---- routing a complete message -------------------------------------------------------

  /** Where buf2mbuf puts a message: the receive ring, or the chute of a waiting call. */
  datatype Route = Normal | ToChute(id: int)

  /**
    Messages generated by a call, messages without d1 data and messages
    whose call id is zero go to the ring; any other goes to the chute its
    call id names.
  */
  function RouteOf(h: Header): (r: Route)
    ensures r.ToChute? ==> 1 <= r.id <= MAX_CALL_ID && |h.d1| > D1_CALLID_IDX && r.id == h.d1[D1_CALLID_IDX] as int
    ensures r.ToChute? ==> !HasFlag(h.flags, HFL_CALL_MSG)
  {
    if HasFlag(h.flags, HFL_CALL_MSG) then Normal
    else if |h.d1| <= D1_CALLID_IDX then Normal
    else if h.d1[D1_CALLID_IDX] as int == NO_CALL_ID then Normal
    else ToChute(h.d1[D1_CALLID_IDX] as int)
  }

  /** A message sent through a wormhole, whose call id is blanked, goes to the ring. */
  lemma WormholeMessagesGoNormal(h: Header)
    requires |h.d1| > D1_CALLID_IDX
    ensures RouteOf(h.(d1 := h.d1[D1_CALLID_IDX := NO_CALL_ID as byte])) == Normal
  {
  }

  /** A message that names a call goes to that call's chute unless it is itself call-generated. */
  lemma CallIdSelectsChute(h: Header, id: int)
    requires 1 <= id <= MAX_CALL_ID && |h.d1| > D1_CALLID_IDX && !HasFlag(h.flags, HFL_CALL_MSG)
    ensures RouteOf(h.(d1 := h.d1[D1_CALLID_IDX := id as byte])) == ToChute(id)
  {
  }

  /** queue_normal: the message goes on the ring, or is dropped (freed) when the ring is full. */
  method QueueNormal<T(0)>(ring: Ring.Ring<T>, m: T) returns (queued: bool)
    requires ring.Valid()
    modifies ring, ring.data
    ensures ring.Valid() && ring.data == old(ring.data) && ring.nelements == old(ring.nelements)
    ensures queued <==> |old(ring.Contents)| < Ring.Capacity(ring.nelements)
    ensures ring.Contents == if queued then old(ring.Contents) + [m] else old(ring.Contents)
  {
    queued := ring.Insert(m);
  }

  /**
    buf2mbuf's hand-off of a built message: to the ring through QueueNormal,
    or into the chute the call id names (replacing what the chute held).
  */
  method Deliver<T(0)>(ring: Ring.Ring<T>, chutes: array<Option<T>>, h: Header, m: T)
    requires ring.Valid() && chutes.Length == MAX_CALL_ID + 1 && chutes as object != ring.data as object
    modifies ring, ring.data, chutes
    ensures ring.Valid() && ring.data == old(ring.data)
    ensures RouteOf(h) == Normal ==>
      (chutes[..] == old(chutes[..]) &&
       ring.Contents == if |old(ring.Contents)| < Ring.Capacity(ring.nelements) then old(ring.Contents) + [m] else old(ring.Contents))
    ensures RouteOf(h).ToChute? ==>
      (ring.Contents == old(ring.Contents) && chutes[..] == old(chutes[..])[RouteOf(h).id := Some(m)])
  {
    var r := RouteOf(h);
    if r == Normal {
      var _ := QueueNormal(ring, m);
    } else {
      chutes[r.id] := Some(m);
    }
  }

  /**
    mt_disc_cb: the endpoint the closed descriptor belonged to is removed
    from the descriptor map and marked not open, so the next send
    reconnects.  An unknown descriptor changes nothing.
  */
  method MtDiscCb(tab: SymTab?<string>, fd: int, open: set<string>) returns (open': set<string>)
    requires Int32(fd)
    requires tab != null ==> tab.Valid()
    modifies tab
    ensures tab != null ==> tab.Valid() && tab.Entry(Numeric(FdKey(fd))).None?
    ensures tab != null ==> forall k :: k != Numeric(FdKey(fd)) ==> tab.Entry(k) == old(tab.Entry(k))
    ensures tab != null && old(tab.Entry(Numeric(FdKey(fd)))).Some? ==>
      open' == open - {old(tab.Entry(Numeric(FdKey(fd)))).value.val}
    ensures tab == null || old(tab.Entry(Numeric(FdKey(fd)))).None? ==> open' == open
  {
    var ep := Fd2EpDel(tab, fd);
    open' := open;
    if ep.Some? {
      open' := open - {ep.value};
    }
  }
}

=== FILE: stretch.dfy ===
/*
  The convenience drain of the Python binding (stretch.py): receive with a
  zero wait until a receive reports anything but "RMR_OK", keeping the
  summaries of the messages whose type passes the filter.  The receives
  are modelled by the summaries they produce: `received` lists the
  summaries of the messages a zero-wait receive finds, in order, and once
  they are used up a receive times out.
*/
module Stretch {
  import opened Common
  import opened PyRmr

  /** pass_filter: absent, a single message type, or a list of them. */
  datatype Filter = NoFilter | OneType(t: int) | Types(ts: seq<int>)

  /** The filter after a single type is wrapped into a list; None when no filter was passed. */
  function Wrapped(f: Filter): (r: Option<seq<int>>)
    ensures r.None? <==> f.NoFilter?
    ensures f.OneType? ==> r == Some([f.t])
  {
    match f
    case NoFilter => None
    case OneType(t) => Some([t])
    case Types(ts) => Some(ts)
  }

  /** `(not pass_filter) or (summary["message type"] in pass_filter)`: an empty list lets everything pass. */
  predicate Passes(pf: Option<seq<int>>, s: Summary) {
    pf.None? || pf.value == [] || (s.Summary? && s.mtype in pf.value)
  }

  /** A summary reporting a received message: its status is "RMR_OK". */
  predicate Received(s: Summary) {
    s.Summary? && s.status == "RMR_OK"
  }

  /** How many summaries, from the front, report received messages. */
  function OkRun(rs: seq<Summary>): (n: nat)
    ensures n <= |rs|
    ensures forall i :: 0 <= i < n ==> Received(rs[i])
    ensures n < |rs| ==> !Received(rs[n])
  {
    if rs == [] || !Received(rs[0]) then 0 else 1 + OkRun(rs[1..])
  }

  /** The summaries that pass the filter, in their order. */
  function Kept(rs: seq<Summary>, pf: Option<seq<int>>): (r: seq<Summary>)
    ensures |r| <= |rs|
    ensures forall i :: 0 <= i < |r| ==> Passes(pf, r[i])
  {
    if rs == [] then []
    else (if Passes(pf, rs[0]) then [rs[0]] else []) + Kept(rs[1..], pf)
  }

  /** Filtering keeps relative order: it distributes over concatenation. */
  lemma {:induction false} KeptConcat(a: seq<Summary>, b: seq<Summary>, pf: Option<seq<int>>)
    ensures Kept(a + b, pf) == Kept(a, pf) + Kept(b, pf)
    decreases |a|
  {
    if a == [] {
      assert a + b == b;
    } else {
      assert (a + b)[1..] == a[1..] + b;
      KeptConcat(a[1..], b, pf);
    }
  }

  /** A summary is kept exactly when it is one of the input and passes the filter. */
  lemma {:induction false} KeptMembers(rs: seq<Summary>, pf: Option<seq<int>>, s: Summary)
    ensures s in Kept(rs, pf) <==> s in rs && Passes(pf, s)
    decreases |rs|
  {
    if rs != [] {
      KeptMembers(rs[1..], pf, s);
      assert rs == [rs[0]] + rs[1..];
    }
  }

  /** With no filter, or an empty list, everything is kept. */
  lemma {:induction false} KeptAll(rs: seq<Summary>, pf: Option<seq<int>>)
    requires pf.None? || pf.value == []
    ensures Kept(rs, pf) == rs
    decreases |rs|
  {
    if rs != [] {
      KeptAll(rs[1..], pf);
      assert rs == [rs[0]] + rs[1..];
    }
  }

  /** The messages the drain returns. */
  function Drain(received: seq<Summary>, f: Filter): seq<Summary> {
    Kept(received[..OkRun(received)], Wrapped(f))
  }

  /**
    rmr_rcvall_msgs (without the two stray lines at its head; see
    RcvallAsWritten): receives with a zero wait, stopping at the first
    summary that is not "RMR_OK" (a malformed one included), keeping the
    received messages that pass the filter.  `waits` lists the timeout of
    each receive and `frees` counts the frees of the probe buffer.
  */
  method RcvallMsgs(received: seq<Summary>, filter: Filter) returns (msgs: seq<Summary>, waits: seq<int>, frees: int)
    ensures msgs == Drain(received, filter)
    ensures |waits| == OkRun(received) + 1 && forall k :: 0 <= k < |waits| ==> waits[k] == 0
    ensures frees == 1
  {
    var pf := Wrapped(filter);
    msgs, waits, frees := [], [], 0;
    var i := 0;
    while true
      invariant 0 <= i <= OkRun(received)
      invariant frees == 0
      invariant msgs == Kept(received[..i], pf)
      invariant |waits| == i && forall k :: 0 <= k < |waits| ==> waits[k] == 0
      decreases |received| - i
    {
      waits := waits + [0];
      if i == |received| || !Received(received[i]) {
        break;
      }
      var s := received[i];
      if Passes(pf, s) {
        msgs := msgs + [s];
      }
      KeptConcat(received[..i], [s], pf);
      assert received[..i + 1] == received[..i] + [s];
      i := i + 1;
    }
    frees := frees + 1;
  }

  /**
    What the drain returns: received messages only, each passing the
    filter, exactly the passing ones before the first summary that is not
    "RMR_OK", in the order they were received.
  */
  lemma DrainReturns(received: seq<Summary>, f: Filter, s: Summary)
    ensures forall i :: 0 <= i < |Drain(received, f)| ==> Passes(Wrapped(f), Drain(received, f)[i])
    ensures s in Drain(received, f) <==> s in received[..OkRun(received)] && Passes(Wrapped(f), s)
    ensures s in Drain(received, f) ==> Received(s)
  {
    KeptMembers(received[..OkRun(received)], Wrapped(f), s);
  }

  /** Without a filter (or with an empty list) every received message is returned, in order. */
  lemma DrainUnfiltered(received: seq<Summary>, f: Filter)
    requires f.NoFilter? || f == Types([])
    ensures Drain(received, f) == received[..OkRun(received)]
  {
    KeptAll(received[..OkRun(received)], Wrapped(f));
  }

  /** A single type filters as the one-element list does. */
  lemma SingleTypeIsList(received: seq<Summary>, t: int)
    ensures Drain(received, OneType(t)) == Drain(received, Types([t]))
  {
  }

  // ---- the function as written ---------------------------------------------------

  /** How a call of the drain as written ends: with a list, or with a Python exception. */
  datatype Outcome = Returned(msgs: seq<Summary>) | Raised(error: string)

  /**
    rmr_rcvall_msgs as written: its first statement calls _get_constants,
    which stretch.py neither defines nor imports, so every call raises
    NameError before the first receive.
  */
  function RcvallAsWritten(received: seq<Summary>, filter: Filter): Outcome {
    Raised("NameError")
  }

  /** Even with a message waiting, the function as written returns nothing, where the drain returns it. */
  lemma RcvallAsWrittenRaises(s: Summary)
    requires Received(s)
    ensures RcvallAsWritten([s], NoFilter).Raised?
    ensures Drain([s], NoFilter) == [s]
  {
    assert [s][..1] == [s];
  }

  /**
    The loop of the function as written, from the receive on: the status is
    read with `summary["message status"]`, which raises TypeError when the
    summary is the malformed-message text rather than a dict.
  */
  function DrainAsWritten(rs: seq<Summary>, pf: Option<seq<int>>): Outcome {
    if rs == [] then Returned([])
    else if rs[0].Malformed? then Raised("TypeError")
    else if rs[0].status != "RMR_OK" then Returned([])
    else match DrainAsWritten(rs[1..], pf)
      case Raised(e) => Raised(e)
      case Returned(rest) => Returned((if Passes(pf, rs[0]) then [rs[0]] else []) + rest)
  }

  /** Where no summary is malformed, the loop as written returns what the drain returns. */
  lemma {:induction false} DrainAsWrittenAgrees(rs: seq<Summary>, pf: Option<seq<int>>)
    requires forall i :: 0 <= i < |rs| ==> rs[i].Summary?
    ensures DrainAsWritten(rs, pf) == Returned(Kept(rs[..OkRun(rs)], pf))
    decreases |rs|
  {
    if rs != [] && Received(rs[0]) {
      DrainAsWrittenAgrees(rs[1..], pf);
      assert rs[..OkRun(rs)][1..] == rs[1..][..OkRun(rs[1..])];
    }
  }

  /** A message longer than RMR_MAX_RCV_BYTES makes the loop as written raise; the drain stops there. */
  lemma MalformedRaisesAsWritten(pf: Option<seq<int>>, f: Filter)
    ensures DrainAsWritten([Malformed(MALFORMED)], pf) == Raised("TypeError")
    ensures Drain([Malformed(MALFORMED)], f) == []
  {
  }
}

=== FILE: symtab.dfy ===
/*
  The chained hash table of symtab.c. An entry is keyed either by a string
  name within a class (class > 0) or by an unsigned 64-bit number (class 0).
  Each bucket's chain is a sequence whose first element is the head of the
  C list; new entries are pushed at the head.
*/
module Symtab {
  import opened Common

  const TWO_63: int := 0x8000_0000_0000_0000

  /** The smallest table rmr_sym_alloc will build. */
  const MIN_SIZE: int := 11

  /** A lookup key: a name in a class, or a numeric key (class 0). */
  datatype Key = Named(name: string, cls: nat) | Numeric(nkey: nat)

  /** Keys the public API can produce: named keys have a non-zero class. */
  predicate KeyOk(k: Key)
  {
    match k
    case Named(_, c) => c > 0
    case Numeric(x) => x < TWO_64
  }

  /** One Sym_ele: the key, the user value and the modify / reference counters. */
  datatype Ele<V> = Ele(key: Key, val: V, mcount: nat, rcount: nat)

  /** The nkey field as the C element holds it: 0 for a string-keyed entry. */
  function NKey<V>(e: Ele<V>): nat
  {
    if e.key.Numeric? then e.key.nkey else 0
  }

  // ---------------------------------------------------------------- hashing

  /** A C `char` read as a signed byte. */
  function SignedChar(c: char): int
  {
    var b := (c as int) % 256;
    if b < 128 then b else b - 256
  }

  /** Two's-complement wrap-around of a signed 64-bit `long`. */
  function Wrap64(x: int): (r: int)
    ensures -TWO_63 <= r < TWO_63
  {
    (x + TWO_63) % TWO_64 - TWO_63
  }

  /** The running value of `t = t * 79 + *p` over the characters of s. */
  function HashAcc(s: string): (t: int)
    ensures -TWO_63 <= t < TWO_63
  {
    if s == [] then 0 else Wrap64(HashAcc(s[..|s| - 1]) * 79 + SignedChar(s[|s| - 1]))
  }

  /** sym_hash: the bucket of a string key. */
  function StringBucket(s: string, size: int): (h: int)
    requires size > 0
    ensures 0 <= h < size
  {
    var t := HashAcc(s);
    (if t < 0 then -t - 1 else t) % size
  }

  /** The bucket a key lives in: sym_hash for names, nkey % size for numbers. */
  function BucketOf(k: Key, size: int): (h: int)
    requires size > 0
    ensures 0 <= h < size
  {
    match k
    case Named(n, _) => StringBucket(n, size)
    case Numeric(x) => x % size
  }

  /** sym_hash as the source computes it, one character at a time. */
  method SymHash(name: string, size: int) returns (h: int)
    requires size > 0
    ensures h == StringBucket(name, size)
  {
    var t := 0;
    var i := 0;
    while i < |name|
      invariant 0 <= i <= |name|
      invariant t == HashAcc(name[..i])
    {
      assert name[..i + 1][..i] == name[..i];
      t := Wrap64(t * 79 + SignedChar(name[i]));
      i := i + 1;
    }
    assert name[..i] == name;
    if t < 0 {
      t := -t - 1;
    }
    h := t % size;
  }

  // ------------------------------------------------------- chain look-ups

  /** The first element of a chain holding key k. */
  function Lookup<V>(chain: seq<Ele<V>>, k: Key): (r: Option<Ele<V>>)
    ensures r.Some? ==> r.value in chain && r.value.key == k
    ensures r.None? ==> forall i :: 0 <= i < |chain| ==> chain[i].key != k
  {
    if chain == [] then None
    else if chain[0].key == k then Some(chain[0])
    else Lookup(chain[1..], k)
  }

  /** No key appears twice in a chain. */
  predicate UniqueKeys<V>(chain: seq<Ele<V>>)
  {
    forall i, j :: 0 <= i < j < |chain| ==> chain[i].key != chain[j].key
  }

  /** In a chain without duplicates, the element holding k is the one found. */
  lemma {:induction false} LookupAt<V>(chain: seq<Ele<V>>, i: int)
    requires UniqueKeys(chain) && 0 <= i < |chain|
    ensures Lookup(chain, chain[i].key) == Some(chain[i])
  {
    if i > 0 {
      assert chain[0].key != chain[i].key;
      assert UniqueKeys(chain[1..]) by {
        forall a, b | 0 <= a < b < |chain| - 1 ensures chain[1..][a].key != chain[1..][b].key {
          assert chain[1..][a] == chain[a + 1] && chain[1..][b] == chain[b + 1];
        }
      }
      LookupAt(chain[1..], i - 1);
      assert chain[1..][i - 1] == chain[i];
    }
  }

  /**
    Replacing an element by one with the same key changes only that key's
    result; removing it makes that key absent and leaves the others alone.
  */
  lemma LookupAfterReplace<V>(chain: seq<Ele<V>>, i: int, e: Ele<V>, k: Key)
    requires UniqueKeys(chain) && 0 <= i < |chain| && e.key == chain[i].key
    ensures UniqueKeys(chain[i := e])
    ensures Lookup(chain[i := e], k) == if k == e.key then Some(e) else Lookup(chain, k)
  {
    var c' := chain[i := e];
    if k == e.key {
      LookupAt(c', i);
    } else if Lookup(chain, k).Some? {
      var j :| 0 <= j < |chain| && chain[j] == Lookup(chain, k).value;
      LookupAt(chain, j);
      LookupAt(c', j);
    }
  }

  lemma LookupAfterRemove<V>(chain: seq<Ele<V>>, i: int, k: Key)
    requires UniqueKeys(chain) && 0 <= i < |chain|
    ensures UniqueKeys(chain[..i] + chain[i + 1..])
    ensures Lookup(chain[..i] + chain[i + 1..], k) == if k == chain[i].key then None else Lookup(chain, k)
  {
    var c' := chain[..i] + chain[i + 1..];
    assert forall j :: 0 <= j < |c'| ==> c'[j] == chain[if j < i then j else j + 1];
    if k != chain[i].key && Lookup(chain, k).Some? {
      var j :| 0 <= j < |chain| && chain[j] == Lookup(chain, k).value;
      assert j != i;
      LookupAt(chain, j);
      LookupAt(c', if j < i then j else j - 1);
    }
  }

  lemma LookupAfterPush<V>(chain: seq<Ele<V>>, e: Ele<V>, k: Key)
    requires UniqueKeys(chain) && Lookup(chain, e.key) == None
    ensures UniqueKeys([e] + chain)
    ensures Lookup([e] + chain, k) == if k == e.key then Some(e) else Lookup(chain, k)
  {
    assert ([e] + chain)[1..] == chain;
  }

  // ------------------------------------------ the numeric-key match as written

  /**
    The match putin, rmr_sym_get and rmr_sym_del apply while walking a chain:
    string keys compare class and name, but a numeric key compares only the
    nkey field, which is 0 in every string-keyed element.
  */
  predicate MatchesAsWritten<V>(e: Ele<V>, k: Key)
  {
    match k
    case Named(_, _) => e.key == k
    case Numeric(x) => NKey(e) == x
  }

  function LookupAsWritten<V>(chain: seq<Ele<V>>, k: Key): Option<Ele<V>>
  {
    if chain == [] then None
    else if MatchesAsWritten(chain[0], k) then Some(chain[0])
    else LookupAsWritten(chain[1..], k)
  }

  /**
    The name "M" hashes to bucket 0 of an 11-slot table, the bucket numeric key
    0 lives in; pulling key 0 then returns the value stored under "M".
  */
  lemma NumericKeyZeroFindsStringEntry()
    ensures BucketOf(Named("M", 1), MIN_SIZE) == 0 == BucketOf(Numeric(0), MIN_SIZE)
    ensures LookupAsWritten([Ele(Named("M", 1), 7, 1, 0)], Numeric(0)) == Some(Ele(Named("M", 1), 7, 1, 0))
    ensures Lookup([Ele(Named("M", 1), 7, 1, 0)], Numeric(0)) == None
  {
    assert HashAcc("M"[..0]) == 0;
    assert HashAcc("M") == 77;
  }

  // ------------------------------------------------------------------ table

  function Total<V>(bs: seq<seq<Ele<V>>>): nat
  {
    if bs == [] then 0 else Total(bs[..|bs| - 1]) + |bs[|bs| - 1]|
  }

  lemma {:induction false} TotalUpdate<V>(bs: seq<seq<Ele<V>>>, i: int, c: seq<Ele<V>>)
    requires 0 <= i < |bs|
    ensures Total(bs[i := c]) == Total(bs) - |bs[i]| + |c|
  {
    var n := |bs| - 1;
    assert bs[i := c][..n] == if i == n then bs[..n] else bs[..n][i := c];
    if i < n {
      TotalUpdate(bs[..n], i, c);
    }
  }

  /** Every element of a chain is well keyed, unique, and hashes to that bucket. */
  predicate ChainOk<V>(chain: seq<Ele<V>>, b: int, size: int)
    requires size >= 1
  {
    UniqueKeys(chain) &&
    forall i :: 0 <= i < |chain| ==> KeyOk(chain[i].key) && BucketOf(chain[i].key, size) == b
  }

  lemma ChainOkAfterRemove<V>(chain: seq<Ele<V>>, i: int, b: int, size: int)
    requires size >= 1 && ChainOk(chain, b, size) && 0 <= i < |chain|
    ensures ChainOk(chain[..i] + chain[i + 1..], b, size)
  {
    var c' := chain[..i] + chain[i + 1..];
    assert forall j :: 0 <= j < |c'| ==> c'[j] == chain[if j < i then j else j + 1];
  }

  /** Pushing an element with a new key keeps the chain well formed and changes only that key. */
  lemma PushKeepsChain<V>(chain: seq<Ele<V>>, e: Ele<V>, b: int, size: int)
    requires size >= 1 && ChainOk(chain, b, size) && Lookup(chain, e.key) == None
    requires KeyOk(e.key) && BucketOf(e.key, size) == b
    ensures ChainOk([e] + chain, b, size)
    ensures forall k' :: Lookup([e] + chain, k') == if k' == e.key then Some(e) else Lookup(chain, k')
  {
    forall k' ensures Lookup([e] + chain, k') == if k' == e.key then Some(e) else Lookup(chain, k') {
      LookupAfterPush(chain, e, k');
    }
    assert forall j :: 1 <= j < |[e] + chain| ==> ([e] + chain)[j] == chain[j - 1];
  }

  /** Replacing an element by one with the same key keeps the chain well formed. */
  lemma ReplaceKeepsChain<V>(chain: seq<Ele<V>>, i: int, e: Ele<V>, b: int, size: int)
    requires size >= 1 && ChainOk(chain, b, size) && 0 <= i < |chain| && e.key == chain[i].key
    ensures ChainOk(chain[i := e], b, size)
    ensures forall k' :: Lookup(chain[i := e], k') == if k' == e.key then Some(e) else Lookup(chain, k')
  {
    forall k' ensures Lookup(chain[i := e], k') == if k' == e.key then Some(e) else Lookup(chain, k') {
      LookupAfterReplace(chain, i, e, k');
    }
    LookupAfterReplace(chain, i, e, e.key);
  }

  /** Unlinking the element at i keeps the chain well formed and makes its key absent. */
  lemma RemoveKeepsChain<V>(chain: seq<Ele<V>>, i: int, b: int, size: int)
    requires size >= 1 && ChainOk(chain, b, size) && 0 <= i < |chain|
    ensures ChainOk(chain[..i] + chain[i + 1..], b, size)
    ensures forall k' :: Lookup(chain[..i] + chain[i + 1..], k') == if k' == chain[i].key then None else Lookup(chain, k')
  {
    forall k' ensures Lookup(chain[..i] + chain[i + 1..], k') == if k' == chain[i].key then None else Lookup(chain, k') {
      LookupAfterRemove(chain, i, k');
    }
    LookupAfterRemove(chain, i, chain[i].key);
    ChainOkAfterRemove(chain, i, b, size);
  }

  /** The element reached by looking k up in bucket list bs. */
  function EntryIn<V>(bs: seq<seq<Ele<V>>>, size: int, k: Key): Option<Ele<V>>
    requires size >= 1 && |bs| == size
  {
    Lookup(bs[BucketOf(k, size)], k)
  }

  /** Rewriting k's chain so that only k's result changes leaves every other key alone. */
  lemma EntryAfterChainUpdate<V>(bs: seq<seq<Ele<V>>>, size: int, k: Key, c: seq<Ele<V>>, r: Option<Ele<V>>)
    requires size >= 1 && |bs| == size
    requires forall k' :: Lookup(c, k') == if k' == k then r else Lookup(bs[BucketOf(k, size)], k')
    ensures forall k' :: EntryIn(bs[BucketOf(k, size) := c], size, k') == if k' == k then r else EntryIn(bs, size, k')
  {
    var hv := BucketOf(k, size);
    forall k' ensures EntryIn(bs[hv := c], size, k') == if k' == k then r else EntryIn(bs, size, k') {
      if BucketOf(k', size) == hv {
        assert Lookup(c, k') == if k' == k then r else Lookup(bs[hv], k');
      }
    }
  }

  /** Every chain of a bucket list is well formed for its bucket. */
  predicate ChainsOk<V>(bs: seq<seq<Ele<V>>>, size: int)
    requires size >= 1 && |bs| == size
  {
    forall b :: 0 <= b < size ==> ChainOk(bs[b], b, size)
  }

  class SymTab<V> {
    var buckets: seq<seq<Ele<V>>>
    var size: int
    var inhabitants: int
    var deaths: int

    ghost predicate Valid()
      reads this
    {
      size >= 1 && |buckets| == size && inhabitants == Total(buckets) && ChainsOk(buckets, size)
    }


    /** The element a get of key k reaches, if any. */
    function Entry(k: Key): Option<Ele<V>>
      reads `buckets, `size
      requires size >= 1 && |buckets| == size
    {
      EntryIn(buckets, size, k)
    }

    /** rmr_sym_alloc: an empty table; sizes below 11 are raised to 11. */
    constructor Alloc(requested: int)
      ensures Valid() && size == (if requested < MIN_SIZE then MIN_SIZE else requested)
      ensures inhabitants == 0 && deaths == 0
      ensures forall k :: Entry(k) == None
    {
      var n := if requested < MIN_SIZE then MIN_SIZE else requested;
      size := n;
      buckets := seq(n, _ => []);
      inhabitants := 0;
      deaths := 0;
      new;
      assert forall j :: 0 <= j <= n ==> Total(buckets[..j]) == 0 by {
        forall j | 0 <= j <= n ensures Total(buckets[..j]) == 0 {
          TotalZero(buckets, j);
        }
      }
      assert buckets[..n] == buckets;
    }

    static lemma {:induction false} TotalZero(bs: seq<seq<Ele<V>>>, j: int)
      requires 0 <= j <= |bs| && forall b :: 0 <= b < |bs| ==> bs[b] == []
      ensures Total(bs[..j]) == 0
    {
      if j > 0 {
        assert bs[..j][..j - 1] == bs[..j - 1];
        TotalZero(bs, j - 1);
      }
    }

    /** Walks chain b looking for k; returns its index or |chain| when absent. */
    method Find(b: int, k: Key) returns (i: int)
      requires Valid() && 0 <= b < size
      ensures 0 <= i <= |buckets[b]|
      ensures i < |buckets[b]| ==> buckets[b][i].key == k
      ensures i == |buckets[b]| ==> Lookup(buckets[b], k) == None
    {
      var chain := buckets[b];
      i := 0;
      while i < |chain| && chain[i].key != k
        invariant 0 <= i <= |chain|
        invariant forall j :: 0 <= j < i ==> chain[j].key != k
      {
        i := i + 1;
      }
    }

    /**
      putin: 1 when k was absent (a new element is pushed at the head of its
      chain), 0 when it existed; the value is replaced either way and the
      element's modify count goes up by one.
    */
    method Putin(k: Key, v: V) returns (rc: int)
      requires Valid() && KeyOk(k)
      modifies this
      ensures Valid() && size == old(size) && deaths == old(deaths)
      ensures rc == (if old(Entry(k)).None? then 1 else 0)
      ensures inhabitants == old(inhabitants) + rc
      ensures Entry(k) == Some(match old(Entry(k))
                               case None => Ele(k, v, 1, 0)
                               case Some(e) => e.(val := v, mcount := e.mcount + 1))
      ensures forall k' :: k' != k ==> Entry(k') == old(Entry(k'))
    {
      var hv := if k.Named? then 0 else k.nkey % size;
      if k.Named? {
        hv := SymHash(k.name, size);
      }
      var chain := buckets[hv];
      var i := Find(hv, k);
      ghost var before := Entry(k);
      if i == |chain| {
        rc := 1;
        assert before == None;
        assert ChainOk(chain, hv, size);
        PushKeepsChain(chain, Ele(k, v, 1, 0), hv, size);
        SetChain(hv, [Ele(k, v, 1, 0)] + chain, k, Some(Ele(k, v, 1, 0)));
      } else {
        rc := 0;
        assert ChainOk(chain, hv, size);
        LookupAt(chain, i);
        var e := chain[i];
        assert before == Some(e);
        ReplaceKeepsChain(chain, i, e.(val := v, mcount := e.mcount + 1), hv, size);
        SetChain(hv, chain[i := e.(val := v, mcount := e.mcount + 1)], k, Some(e.(val := v, mcount := e.mcount + 1)));
      }
      inhabitants := inhabitants + rc;
    }

    /**
      Installs a rewritten chain for bucket hv; only key k's element
      changes (to r).  The caller settles the population count.
    */
    method SetChain(hv: int, c: seq<Ele<V>>, ghost k: Key, ghost r: Option<Ele<V>>)
      requires size >= 1 && |buckets| == size && ChainsOk(buckets, size)
      requires 0 <= hv < size && BucketOf(k, size) == hv && ChainOk(c, hv, size)
      requires forall k' :: Lookup(c, k') == if k' == k then r else Lookup(buckets[hv], k')
      modifies this
      ensures size == old(size) && inhabitants == old(inhabitants) && deaths == old(deaths)
      ensures |buckets| == size && ChainsOk(buckets, size)
      ensures Total(buckets) == old(Total(buckets)) - |old(buckets[hv])| + |c|
      ensures Entry(k) == r
      ensures forall k' :: k' != k ==> Entry(k') == old(Entry(k'))
    {
      EntryAfterChainUpdate(buckets, size, k, c, r);
      TotalUpdate(buckets, hv, c);
      buckets := buckets[hv := c];
    }

    /** rmr_sym_put: a string key; class 0 is forced to class 1. */
    method Put(name: string, cls: nat, v: V) returns (rc: int)
      requires Valid()
      modifies this
      ensures Valid() && size == old(size)
      ensures var k := Named(name, if cls == 0 then 1 else cls);
              rc == (if old(Entry(k)).None? then 1 else 0) && Entry(k).Some? && Entry(k).value.val == v &&
              forall k' :: k' != k ==> Entry(k') == old(Entry(k'))
    {
      rc := Putin(Named(name, if cls == 0 then 1 else cls), v);
    }

    /** rmr_sym_map: a numeric (class 0) key. */
    method Map(nkey: nat, v: V) returns (rc: int)
      requires Valid() && nkey < TWO_64
      modifies this
      ensures Valid() && size == old(size)
      ensures rc == (if old(Entry(Numeric(nkey))).None? then 1 else 0)
      ensures Entry(Numeric(nkey)).Some? && Entry(Numeric(nkey)).value.val == v
      ensures forall k' :: k' != Numeric(nkey) ==> Entry(k') == old(Entry(k'))
    {
      rc := Putin(Numeric(nkey), v);
    }

    /**
      rmr_sym_get (and rmr_sym_pull for a numeric key): the stored value, or
      None (nil) when absent; a hit bumps the element's reference count.
    */
    method Get(k: Key) returns (r: Option<V>)
      requires Valid()
      modifies this
      ensures Valid() && size == old(size) && inhabitants == old(inhabitants) && deaths == old(deaths)
      ensures r == if old(Entry(k)).Some? then Some(old(Entry(k)).value.val) else None
      ensures Entry(k) == if old(Entry(k)).Some? then Some(old(Entry(k)).value.(rcount := old(Entry(k)).value.rcount + 1)) else None
      ensures forall k' :: k' != k ==> Entry(k') == old(Entry(k'))
    {
      var hv := BucketOf(k, size);
      if k.Named? {
        hv := SymHash(k.name, size);
      }
      var chain := buckets[hv];
      var i := Find(hv, k);
      if i == |chain| {
        return None;
      }
      assert ChainOk(chain, hv, size);
      LookupAt(chain, i);
      var e := chain[i];
      ReplaceKeepsChain(chain, i, e.(rcount := e.rcount + 1), hv, size);
      SetChain(hv, chain[i := e.(rcount := e.rcount + 1)], k, Some(e.(rcount := e.rcount + 1)));
      r := Some(e.val);
    }

    /**
      rmr_sym_del / rmr_sym_ndel: unlink the element holding k and count the
      death; a missing key changes nothing.
    */
    method Del(k: Key)
      requires Valid()
      modifies this
      ensures Valid() && size == old(size)
      ensures Entry(k) == None
      ensures forall k' :: k' != k ==> Entry(k') == old(Entry(k'))
      ensures old(Entry(k)).Some? ==> inhabitants == old(inhabitants) - 1 && deaths == old(deaths) + 1
      ensures old(Entry(k)).None? ==> inhabitants == old(inhabitants) && deaths == old(deaths) && buckets == old(buckets)
    {
      var hv := BucketOf(k, size);
      if k.Named? {
        hv := SymHash(k.name, size);
      }
      var chain := buckets[hv];
      var i := Find(hv, k);
      if i == |chain| {
        return;
      }
      assert ChainOk(chain, hv, size);
      LookupAt(chain, i);
      RemoveKeepsChain(chain, i, hv, size);
      SetChain(hv, chain[..i] + chain[i + 1..], k, None);
      inhabitants := inhabitants - 1;
      deaths := deaths + 1;
    }

    /**
      rmr_sym_foreach_class: the elements the callback is driven for, bucket
      by bucket and in chain order, keeping only those of the given class.
    */
    method ForeachClass(cls: nat) returns (visited: seq<Ele<V>>)
      requires Valid()
      ensures visited == ClassMembers(buckets, cls)
      ensures forall i :: 0 <= i < |visited| ==>
                (ClassOf(visited[i].key) == cls && exists b :: 0 <= b < size && visited[i] in buckets[b])
      ensures forall b, i :: 0 <= b < size && 0 <= i < |buckets[b]| && ClassOf(buckets[b][i].key) == cls ==>
                buckets[b][i] in visited
    {
      visited := [];
      var b := 0;
      while b < size
        invariant 0 <= b <= size
        invariant visited == ClassMembers(buckets[..b], cls)
      {
        var chain := buckets[b];
        var i := 0;
        var here := [];
        while i < |chain|
          invariant 0 <= i <= |chain|
          invariant here == OfClass(chain[..i], cls)
        {
          assert chain[..i + 1][..i] == chain[..i];
          if ClassOf(chain[i].key) == cls {
            here := here + [chain[i]];
          }
          i := i + 1;
        }
        assert chain[..i] == chain;
        assert buckets[..b + 1][..b] == buckets[..b];
        visited := visited + here;
        b := b + 1;
      }
      assert buckets[..b] == buckets;
      ClassMembersIn(buckets, cls);
    }
  }

  /** The class an element is stored under; numeric keys are class 0. */
  function ClassOf(k: Key): nat
  {
    if k.Named? then k.cls else 0
  }

  /** The elements of one chain in the given class, in chain order. */
  function OfClass<V>(chain: seq<Ele<V>>, cls: nat): (r: seq<Ele<V>>)
    ensures forall i :: 0 <= i < |r| ==> r[i] in chain && ClassOf(r[i].key) == cls
    ensures forall i :: 0 <= i < |chain| && ClassOf(chain[i].key) == cls ==> chain[i] in r
  {
    if chain == [] then []
    else OfClass(chain[..|chain| - 1], cls) +
         (if ClassOf(chain[|chain| - 1].key) == cls then [chain[|chain| - 1]] else [])
  }

  function ClassMembers<V>(bs: seq<seq<Ele<V>>>, cls: nat): seq<Ele<V>>
  {
    if bs == [] then [] else ClassMembers(bs[..|bs| - 1], cls) + OfClass(bs[|bs| - 1], cls)
  }

  lemma {:induction false} ClassMembersIn<V>(bs: seq<seq<Ele<V>>>, cls: nat)
    ensures forall i :: 0 <= i < |ClassMembers(bs, cls)| ==>
              (ClassOf(ClassMembers(bs, cls)[i].key) == cls &&
               exists b :: 0 <= b < |bs| && ClassMembers(bs, cls)[i] in bs[b])
    ensures forall b, i :: 0 <= b < |bs| && 0 <= i < |bs[b]| && ClassOf(bs[b][i].key) == cls ==>
              bs[b][i] in ClassMembers(bs, cls)
  {
    if bs != [] {
      var n := |bs| - 1;
      ClassMembersIn(bs[..n], cls);
      var r := ClassMembers(bs, cls);
      var left := ClassMembers(bs[..n], cls);
      var right := OfClass(bs[n], cls);
      assert r == left + right;
      forall i | 0 <= i < |r|
        ensures ClassOf(r[i].key) == cls && exists b :: 0 <= b < |bs| && r[i] in bs[b]
      {
        if i < |left| {
          assert r[i] == left[i];
          var b :| 0 <= b < n && left[i] in bs[..n][b];
          assert r[i] in bs[b];
        } else {
          assert r[i] == right[i - |left|];
        }
      }
      forall b, i | 0 <= b < |bs| && 0 <= i < |bs[b]| && ClassOf(bs[b][i].key) == cls
        ensures bs[b][i] in r
      {
        if b < n {
          assert bs[..n][b] == bs[b];
        }
      }
    }
  }
}

=== FILE: tools.dfy ===
/*
  String helpers of tools_static.c: the bounded NUL-terminated copy, the
  in-place tokeniser and the searches built on it. A C string is modelled as
  the characters before its terminating NUL; an address list (if_addrs_t) as
  the sequence of its address strings.
*/
module Tools {
  import opened Common

  /** A C string's contents hold no NUL. */
  predicate CStr(s: string)
  {
    '\0' !in s
  }

  /** strchr: the first index of c in s. */
  function IndexOf(s: string, c: char): (i: int)
    requires c in s
    ensures 0 <= i < |s| && s[i] == c
  {
    if s[0] == c then 0 else 1 + IndexOf(s[1..], c)
  }

  lemma IndexOfPrefix(s: string, c: char)
    requires c in s
    ensures c !in s[..IndexOf(s, c)]
  {
    forall j | 0 <= j < IndexOf(s, c) ensures s[j] != c {
      IndexOfFirst(s, c, j);
    }
  }

  /** strchr finds the first occurrence: no c comes before it. */
  lemma {:induction false} IndexOfFirst(s: string, c: char, j: int)
    requires c in s && 0 <= j < IndexOf(s, c)
    ensures s[j] != c
  {
    if j > 0 {
      IndexOfFirst(s[1..], c, j - 1);
    }
  }

  // ------------------------------------------------------------ zt_buf_fill

  /**
    zt_buf_fill: copy src into dest until src ends or len - 1 characters have
    moved, then write the NUL; -1 when either pointer is nil.
  */
  method ZtBufFill(dest: array?<char>, src: Option<string>, len: int) returns (n: int)
    requires src.Some? ==> CStr(src.value)
    requires dest != null ==> dest.Length >= 1 && dest.Length >= len
    modifies dest
    ensures dest == null || src.None? ==> n == -1 && (dest != null ==> dest[..] == old(dest[..]))
    ensures dest != null && src.Some? ==>
              n == Min(|src.value|, if len - 1 > 0 then len - 1 else 0) &&
              dest[..n] == src.value[..n] && dest[n] == '\0' &&
              dest[n + 1..] == old(dest[n + 1..])
  {
    if dest == null || src == None {
      return -1;
    }
    var s := src.value;
    n := 0;
    while n < |s| && n < len - 1
      invariant 0 <= n <= |s| && (n == 0 || n <= len - 1)
      invariant dest[..n] == s[..n]
      invariant dest[n..] == old(dest[n..])
    {
      dest[n] := s[n];
      n := n + 1;
      assert dest[..n] == s[..n] by {
        assert forall j :: 0 <= j < n ==> dest[j] == s[j];
      }
    }
    dest[n] := '\0';
  }

  /** The string dest holds after a fill: its length is the count returned. */
  lemma FillIsTerminated(dest: seq<char>, s: string, n: int)
    requires CStr(s) && 0 <= n < |dest| && n <= |s| && dest[..n] == s[..n] && dest[n] == '\0'
    ensures CStr(dest[..n]) && '\0' in dest && IndexOf(dest, '\0') == n
  {
    assert forall j :: 0 <= j < n ==> dest[j] == s[j] && dest[j] != '\0';
    if IndexOf(dest, '\0') > n {
      IndexOfFirst(dest, '\0', n);
    }
  }

  // ------------------------------------------------------------- tokenising

  /**
    The tokens uta_tokenise records for buf once room tokens may still be
    recorded: each separator becomes the end of a token, and the last token
    keeps the remainder (separators included) once room runs out.
  */
  function Split(s: string, sep: char, room: int): (ts: seq<string>)
    ensures 1 <= |ts| && (room >= 1 ==> |ts| <= room)
    decreases |s|
  {
    if room <= 1 || sep !in s then [s]
    else
      var i := IndexOf(s, sep);
      [s[..i]] + Split(s[i + 1..], sep, room - 1)
  }

  /** uta_tokenise's result: no tokens for an empty buffer. */
  function Tokens(buf: string, sep: char, max: int): seq<string>
  {
    if buf == [] then [] else Split(buf, sep, max)
  }

  /** One turn of uta_tokenise's loop keeps "recorded tokens + split of the rest" fixed. */
  lemma SplitAdvance(tokens: seq<string>, rest: string, i: int, sep: char, max: int, all: seq<string>)
    requires |tokens| + 1 < max && sep in rest && i == IndexOf(rest, sep)
    requires tokens + Split(rest, sep, max - |tokens|) == all
    ensures (tokens + [rest[..i]]) + Split(rest[i + 1..], sep, max - |tokens + [rest[..i]]|) == all
  {
    var room := max - |tokens|;
    var head := [rest[..i]];
    var tail := Split(rest[i + 1..], sep, room - 1);
    assert Split(rest, sep, room) == head + tail;
    assert max - |tokens + head| == room - 1;
    assert (tokens + head) + tail == tokens + (head + tail);
  }

  /** The inverse of tokenising: put a separator back between tokens. */
  function Join(ts: seq<string>, sep: char): string
  {
    if ts == [] then []
    else if |ts| == 1 then ts[0]
    else ts[0] + [sep] + Join(ts[1..], sep)
  }

  /** Writing the separators back over the NULs restores the buffer. */
  lemma {:induction false} JoinSplit(s: string, sep: char, room: int)
    ensures Join(Split(s, sep, room), sep) == s
    decreases |s|
  {
    if room > 1 && sep in s {
      var i := IndexOf(s, sep);
      JoinSplit(s[i + 1..], sep, room - 1);
      JoinSplitStep(s, sep, room);
    } else {
      assert Split(s, sep, room) == [s];
    }
  }

  /** One separator: the head token, the separator, and the join of the rest. */
  lemma JoinSplitStep(s: string, sep: char, room: int)
    requires room > 1 && sep in s
    requires Join(Split(s[IndexOf(s, sep) + 1..], sep, room - 1), sep) == s[IndexOf(s, sep) + 1..]
    ensures Join(Split(s, sep, room), sep) == s
  {
    var i := IndexOf(s, sep);
    var rest := Split(s[i + 1..], sep, room - 1);
    assert Split(s, sep, room) == [s[..i]] + rest;
    JoinAround(s, i, sep, rest);
  }

  /** The token before the separator at i joined onto tokens that join to the rest. */
  lemma JoinAround(s: string, i: int, sep: char, rest: seq<string>)
    requires 0 <= i < |s| && s[i] == sep && rest != [] && Join(rest, sep) == s[i + 1..]
    ensures Join([s[..i]] + rest, sep) == s
  {
    JoinCons(s[..i], rest, sep);
    Reassemble(s, i, sep);
  }

  /** Joining a token onto a non-empty list puts one separator between. */
  lemma JoinCons(h: string, rest: seq<string>, sep: char)
    requires rest != []
    ensures Join([h] + rest, sep) == h + [sep] + Join(rest, sep)
  {
    assert ([h] + rest)[1..] == rest;
  }

  /** A string is its prefix, the separator at i, and its suffix. */
  lemma Reassemble(s: string, i: int, sep: char)
    requires 0 <= i < |s| && s[i] == sep
    ensures s[..i] + [sep] + s[i + 1..] == s
  {
  }

  lemma JoinTokens(buf: string, sep: char, max: int)
    ensures Join(Tokens(buf, sep, max), sep) == buf
    ensures buf == [] <==> Tokens(buf, sep, max) == []
    ensures max >= 1 ==> |Tokens(buf, sep, max)| <= max
  {
    if buf != [] {
      JoinSplit(buf, sep, max);
    }
  }

  /** Every token but the last ends at a separator, so holds none. */
  lemma {:induction false} InnerTokensHaveNoSep(s: string, sep: char, room: int, k: int)
    requires 0 <= k < |Split(s, sep, room)| - 1
    ensures sep !in Split(s, sep, room)[k]
    decreases |s|
  {
    var i := IndexOf(s, sep);
    var rest := Split(s[i + 1..], sep, room - 1);
    assert Split(s, sep, room) == [s[..i]] + rest;
    if k > 0 {
      InnerTokensHaveNoSep(s[i + 1..], sep, room - 1, k - 1);
      assert Split(s, sep, room)[k] == rest[k - 1];
    } else {
      IndexOfPrefix(s, sep);
    }
  }

  /**
    uta_tokenise: record tokens front to back, ending each at the next
    separator (where the source writes a NUL), until max tokens are recorded
    or no separator remains.
  */
  method Tokenise(buf: Option<string>, sep: char, max: int) returns (tokens: seq<string>)
    ensures buf.None? ==> tokens == []
    ensures buf.Some? ==> tokens == Tokens(buf.value, sep, max)
  {
    if buf.None? || buf.value == [] {
      return [];
    }
    var s := buf.value;
    var rest := s;     // the characters after the last separator replaced so far
    tokens := [];
    assert tokens + Split(rest, sep, max) == Split(s, sep, max);
    while |tokens| + 1 < max && rest != [] && sep in rest
      invariant tokens + Split(rest, sep, max - |tokens|) == Split(s, sep, max)
      decreases |rest|
    {
      var i := IndexOf(rest, sep);
      SplitAdvance(tokens, rest, i, sep, max, Split(s, sep, max));
      tokens := tokens + [rest[..i]];
      rest := rest[i + 1..];
    }
    tokens := tokens + [rest];
  }

  /** The names in the test buffer of the tokeniser and token-search tests. */
  const FlintstoneNames: seq<string> :=
    ["2", "Fred", "Wilma", "Barney", "Betty", "Dino", "Pebbles", "Bambam", "Mr. Slate", "Gazoo"]

  /** The test buffer: "2,Fred,Wilma,Barney,Betty,Dino,Pebbles,Bambam,Mr. Slate,Gazoo". */
  const Flintstones: string := Join(FlintstoneNames, ',')

  /** One tokenising step on a buffer made of a separator-free head, sep, and a tail. */
  lemma SplitCons(head: string, sep: char, tail: string, room: int)
    requires sep !in head && room > 1
    ensures Split(head + [sep] + tail, sep, room) == [head] + Split(tail, sep, room - 1)
  {
    var s := head + [sep] + tail;
    assert s[|head|] == sep;
    var i := IndexOf(s, sep);
    assert s[..|head|] == head;
    if i > |head| {
      IndexOfFirst(s, sep, |head|);
    }
    assert i == |head|;
    assert s[i + 1..] == tail;
  }

  /** Tokenising a joined list of separator-free tokens gives the list back. */
  lemma {:induction false} SplitJoin(ts: seq<string>, sep: char, room: int)
    requires |ts| >= 1 && |ts| <= room
    requires forall k :: 0 <= k < |ts| ==> sep !in ts[k]
    ensures Split(Join(ts, sep), sep, room) == ts
  {
    if |ts| > 1 {
      assert forall k :: 0 <= k < |ts[1..]| ==> sep !in ts[1..][k] by {
        forall k | 0 <= k < |ts[1..]|
          ensures sep !in ts[1..][k]
        {
          assert ts[1..][k] == ts[k + 1];
        }
      }
      SplitJoin(ts[1..], sep, room - 1);
      SplitJoinStep(ts, sep, room);
    }
  }

  lemma SplitJoinStep(ts: seq<string>, sep: char, room: int)
    requires 1 < |ts| <= room && sep !in ts[0]
    requires Split(Join(ts[1..], sep), sep, room - 1) == ts[1..]
    ensures Split(Join(ts, sep), sep, room) == ts
  {
    assert Join(ts, sep) == ts[0] + [sep] + Join(ts[1..], sep);
    SplitCons(ts[0], sep, Join(ts[1..], sep), room);
    assert [ts[0]] + ts[1..] == ts;
  }

  /** A character that is neither the separator nor in any token is not in the join. */
  lemma {:induction false} NotInJoin(ts: seq<string>, sep: char, c: char)
    requires c != sep && forall k :: 0 <= k < |ts| ==> c !in ts[k]
    ensures c !in Join(ts, sep)
  {
    if |ts| > 1 {
      NotInJoin(ts[1..], sep, c);
    }
  }

  /** Splitting the test buffer on ',' gives 10 tokens with "Betty" fifth; on '|', one. */
  lemma FlintstonesTokens()
    ensures Tokens(Flintstones, ',', 64) == FlintstoneNames
    ensures |Tokens(Flintstones, ',', 64)| == 10 && Tokens(Flintstones, ',', 64)[4] == "Betty"
    ensures |Tokens(Flintstones, '|', 64)| == 1
  {
    var ts := FlintstoneNames;
    assert forall k :: 0 <= k < |ts| ==> ',' !in ts[k] && '|' !in ts[k];
    SplitJoin(ts, ',', 64);
    NotInJoin(ts, ',', '|');
    assert Flintstones != [] by {
      assert Flintstones == ts[0] + [','] + Join(ts[1..], ',');
    }
  }

  // --------------------------------------------------------- token searches

  /**
    uta_has_str: -1 when max < 2; otherwise the index of the first token of
    buf equal to str, or -1 when none is.
  */
  method HasStr(buf: string, str: string, sep: char, max: int) returns (rc: int)
    ensures max < 2 ==> rc == -1
    ensures max >= 2 ==> var ts := Tokens(buf, sep, max);
              (rc == -1 && str !in ts) ||
              (0 <= rc < |ts| && ts[rc] == str && str !in ts[..rc])
  {
    if max < 2 {
      return -1;
    }
    var tokens := Tokenise(Some(buf), sep, max);
    rc := -1;
    var i := 0;
    while rc < 0 && i < |tokens|
      invariant 0 <= i <= |tokens|
      invariant rc == -1 ==> str !in tokens[..i]
      invariant rc != -1 ==> 0 <= rc < |tokens| && tokens[rc] == str && str !in tokens[..rc]
    {
      if tokens[i] == str {
        rc := i;
      }
      i := i + 1;
    }
    assert rc == -1 ==> tokens[..i] == tokens;
  }

  /** is_this_myip: true when addr is non-nil and equal to an address of the list. */
  method IsThisMyIp(list: Option<seq<string>>, addr: Option<string>) returns (r: bool)
    ensures r <==> list.Some? && addr.Some? && addr.value in list.value
  {
    if list.None? || addr.None? {
      return false;
    }
    var l := list.value;
    var i := 0;
    while i < |l|
      invariant 0 <= i <= |l|
      invariant addr.value !in l[..i]
    {
      if addr.value == l[i] {
        return true;
      }
      i := i + 1;
    }
    assert l[..i] == l;
    return false;
  }

  /** A token of buf that is one of the listed addresses. */
  predicate MineIn(ts: seq<string>, list: seq<string>)
  {
    exists i :: 0 <= i < |ts| && ts[i] in list
  }

  /**
    has_myip: false for max < 2 or a nil buffer or list; otherwise true iff
    some token of buf is exactly one of the listed addresses.
  */
  method HasMyIp(buf: Option<string>, list: Option<seq<string>>, sep: char, max: int) returns (r: bool)
    ensures r <==> max >= 2 && buf.Some? && list.Some? && MineIn(Tokens(buf.value, sep, max), list.value)
  {
    if max < 2 || buf.None? || list.None? {
      return false;
    }
    var tokens := Tokenise(buf, sep, max);
    var i := 0;
    while i < |tokens|
      invariant 0 <= i <= |tokens|
      invariant forall j :: 0 <= j < i ==> tokens[j] !in list.value
    {
      r := IsThisMyIp(list, Some(tokens[i]));
      if r {
        return true;
      }
      i := i + 1;
    }
    return false;
  }

  /** The tokens that are not one of the listed addresses, in their original order. */
  function NotMine(ts: seq<string>, list: Option<seq<string>>): (r: seq<string>)
    ensures |r| <= |ts|
    ensures forall i :: 0 <= i < |r| ==> r[i] in ts && (list.Some? ==> r[i] !in list.value)
    ensures forall i :: 0 <= i < |ts| && (list.None? || ts[i] !in list.value) ==> ts[i] in r
  {
    if ts == [] then []
    else
      var rest := NotMine(ts[..|ts| - 1], list);
      var t := ts[|ts| - 1];
      if list.Some? && t in list.value then rest else rest + [t]
  }

  /**
    uta_rmip_tokenise: tokenise buf, then keep the tokens that are not one
    of our own addresses; the count returned is the number kept.
  */
  method RmIpTokenise(buf: Option<string>, list: Option<seq<string>>, max: int, sep: char)
    returns (toks: seq<string>, pcount: int)
    ensures buf.Some? ==> toks == NotMine(Tokens(buf.value, sep, max), list)
    ensures buf.None? ==> toks == []
    ensures pcount == |toks|
  {
    var all := Tokenise(buf, sep, max);
    pcount := |all|;
    toks := [];
    var i := 0;
    while i < |all|
      invariant 0 <= i <= |all|
      invariant toks == NotMine(all[..i], list)
      invariant pcount == |all| - i + |toks|
    {
      assert all[..i + 1][..i] == all[..i];
      var mine := IsThisMyIp(list, Some(all[i]));
      if mine {
        pcount := pcount - 1;
      } else {
        toks := toks + [all[i]];
      }
      i := i + 1;
    }
    assert all[..i] == all;
  }

  /** get_default_ip: a copy of the first address, or None for a nil or empty list. */
  function DefaultIp(list: Option<seq<string>>): (r: Option<string>)
    ensures r.Some? <==> list.Some? && |list.value| > 0
    ensures r.Some? ==> r.value == list.value[0] && r.value in list.value
  {
    if list.Some? && |list.value| > 0 then Some(list.value[0]) else None
  }
}

=== FILE: wormholes.dfy ===
/*
  The wormhole table of wormholes.c: direct-send slots that name an
  endpoint.  The context's wormhole manager holds an array of slots (nil or
  an endpoint), grown sixteen at a time.  Endpoints are identified by their
  target name (rt_ensure_ep returns the one endpoint the route table keeps
  for a name); whether an endpoint's session is open is a set of names.
*/
module Wormholes {
  import opened Common
  import opened Mbuf

  /** Slots wh_init allocates and wh_extend adds. */
  const WH_GROW: int := 16

  /** A wormhole slot: nil, or the endpoint (by name) it leads to. */
  type Slot = Option<string>

  /** The wormhole part of a context, as a value. */
  datatype WhTable = WhTable(ready: bool, slots: seq<Slot>, open: set<string>)

  /** No endpoint sits in two slots. */
  predicate NoDup(slots: seq<Slot>)
  {
    forall i, j :: 0 <= i < j < |slots| && slots[i].Some? ==> slots[i] != slots[j]
  }

  /** WH_GROW nil slots. */
  function Nils(): (s: seq<Slot>)
    ensures |s| == WH_GROW && forall i :: 0 <= i < |s| ==> s[i].None?
  {
    seq(WH_GROW, _ => None)
  }

  /** The first slot holding x, or |slots| when none does. */
  function FirstIndex(slots: seq<Slot>, x: Slot): (i: int)
    ensures 0 <= i <= |slots|
    ensures i < |slots| ==> slots[i] == x
    ensures forall j :: 0 <= j < i ==> slots[j] != x
  {
    if slots == [] then 0
    else if slots[0] == x then 0
    else
      var r := 1 + FirstIndex(slots[1..], x);
      assert forall j :: 1 <= j < r ==> slots[j] == slots[1..][j - 1];
      r
  }

  /** FirstIndex is the only index with its defining properties. */
  lemma FirstIndexIs(slots: seq<Slot>, x: Slot, k: int)
    requires 0 <= k <= |slots| && (k < |slots| ==> slots[k] == x)
    requires forall j :: 0 <= j < k ==> slots[j] != x
    ensures FirstIndex(slots, x) == k
  {
  }

  /**
    The slot rmr_wh_open settles on for target t: the slot already holding
    it, else the first nil slot, else the first slot past the end (the
    table is then extended).
  */
  function Chosen(slots: seq<Slot>, t: string): (c: int)
    ensures 0 <= c <= |slots|
  {
    var f := FirstIndex(slots, Some(t));
    if f < |slots| then f else FirstIndex(slots, None)
  }

  /** wh_init's effect: a table that was never set up gets WH_GROW nil slots. */
  function Prepared(w: WhTable): (p: WhTable)
    ensures p.ready
  {
    if w.ready then w else w.(ready := true, slots := Nils())
  }

  /**
    rmr_wh_open for a non-empty target: the wormhole id and the new table.
    `hasRt` says whether the context has a route table (rt_ensure_ep needs
    one); `connects` is the outcome of connecting a session that is not
    yet open.
  */
  function Opened(w: WhTable, t: string, hasRt: bool, connects: bool): (WhTable, int)
  {
    var p := Prepared(w);
    var c := Chosen(p.slots, t);
    if !hasRt then (p, -1)
    else if c < |p.slots| && p.slots[c] == Some(t) && t in p.open then (p, c)
    else
      var g := if c < |p.slots| then p.slots else p.slots + Nils();
      if !(t in p.open || connects) then (p.(slots := g), -1)
      else (p.(slots := g[c := Some(t)], open := p.open + {t}), c)
  }

  /**
    rmr_wh_state: BADARG for a nil context, NOWHOPEN before any wormhole
    was opened, WHID for an id that names no slot or a nil one; otherwise
    OK when the endpoint's session is open and NOENDPT when it is not.
  */
  function StateOf(w: Option<WhTable>, whid: int): (rc: int)
    ensures rc in {RMR_OK, RMR_ERR_BADARG, RMR_ERR_NOWHOPEN, RMR_ERR_WHID, RMR_ERR_NOENDPT}
  {
    if w.None? then RMR_ERR_BADARG
    else if !w.value.ready then RMR_ERR_NOWHOPEN
    else if whid < 0 || whid >= |w.value.slots| || w.value.slots[whid].None? then RMR_ERR_WHID
    else if w.value.slots[whid].value in w.value.open then RMR_OK
    else RMR_ERR_NOENDPT
  }

  /** rmr_wh_close: the slot is cleared; a bad id or a table never set up changes nothing. */
  function Closed(w: WhTable, whid: int): (r: WhTable)
    ensures r.ready == w.ready && r.open == w.open && |r.slots| == |w.slots|
  {
    if !w.ready || whid < 0 || whid >= |w.slots| || w.slots[whid].None? then w
    else w.(slots := w.slots[whid := None])
  }

  /**
    The wormhole state of a context: `ready` is false while the manager is
    nil; `eps` is the slot array (its length is nalloc); `open` the names of
    the endpoints whose session is open; `hasRt` whether a route table exists.
  */
  class WhCtx {
    var ready: bool
    var eps: array<Slot>
    var open: set<string>
    var hasRt: bool

    function State(): WhTable
      reads this, eps
    {
      WhTable(ready, if ready then eps[..] else [], open)
    }

    /** A context whose wormhole manager has not been allocated. */
    constructor (hasRt: bool, open: set<string>)
      ensures State() == WhTable(false, [], open) && this.hasRt == hasRt
    {
      ready := false;
      eps := new Slot[0];
      this.open := open;
      this.hasRt := hasRt;
    }
  }

  /** wh_init: allocate WH_GROW nil slots unless the manager already exists. */
  method WhInit(ctx: WhCtx?) returns (ok: bool)
    modifies ctx
    ensures ctx == null ==> !ok
    ensures ctx != null ==> ok && ctx.State() == Prepared(old(ctx.State())) && ctx.hasRt == old(ctx.hasRt)
    ensures ctx != null && old(ctx.ready) ==> ctx.eps == old(ctx.eps)
    ensures ctx != null && !old(ctx.ready) ==> fresh(ctx.eps)
  {
    if ctx == null {
      return false;
    }
    if ctx.ready {
      return true;
    }
    var a := new Slot[WH_GROW](_ => None);
    ctx.eps := a;
    ctx.ready := true;
    assert a[..] == Nils();
    ok := true;
  }

  /** wh_extend: the slot array grows by WH_GROW, the new slots nil. */
  method WhExtend(ctx: WhCtx)
    requires ctx.ready
    modifies ctx
    ensures ctx.ready && ctx.open == old(ctx.open) && ctx.hasRt == old(ctx.hasRt)
    ensures fresh(ctx.eps) && ctx.eps[..] == old(ctx.eps[..]) + Nils()
  {
    var n := ctx.eps.Length;
    var a := new Slot[n + WH_GROW](_ => None);
    var i := 0;
    while i < n
      modifies a
      invariant 0 <= i <= n
      invariant a[..i] == ctx.eps[..i]
      invariant forall j :: n <= j < n + WH_GROW ==> a[j].None?
    {
      a[i] := ctx.eps[i];
      i := i + 1;
    }
    assert a[..] == ctx.eps[..] + Nils();
    ctx.eps := a;
  }

  /**
    rmr_wh_open: -1 for a nil context or a nil or empty target; otherwise
    the table is set up if need be and the id and new table are those
    `Opened` gives.
  */
  method WhOpen(ctx: WhCtx?, target: Option<string>, connects: bool) returns (whid: int)
    modifies ctx, if ctx != null then {ctx.eps} else {}
    ensures ctx == null || target.None? || target == Some("") ==> whid == -1
    ensures ctx != null && (target.None? || target == Some("")) ==> ctx.State() == old(ctx.State())
    ensures ctx != null && target.Some? && target.value != "" ==>
      (ctx.State(), whid) == Opened(old(ctx.State()), target.value, ctx.hasRt, connects)
    ensures ctx != null ==> ctx.hasRt == old(ctx.hasRt)
  {
    if ctx == null || target.None? || target.value == "" {
      return -1;
    }
    var t := target.value;
    ghost var w0 := ctx.State();
    var _ := WhInit(ctx);
    ghost var p := ctx.State();
    assert p == Prepared(w0);
    if !ctx.hasRt {
      return -1;
    }
    var c := Scan(ctx.eps, t);
    if c < ctx.eps.Length && ctx.eps[c] == Some(t) && t in ctx.open {
      return c;
    }
    if c >= ctx.eps.Length {
      WhExtend(ctx);
    }
    if !(t in ctx.open || connects) {
      return -1;
    }
    ctx.eps[c] := Some(t);
    ctx.open := ctx.open + {t};
    whid := c;
  }

  /**
    The search loop of rmr_wh_open: the slot holding t, or else the first
    nil slot seen, or else the length of the array.
  */
  method Scan(eps: array<Slot>, t: string) returns (whid: int)
    ensures whid == Chosen(eps[..], t)
  {
    var n := eps.Length;
    whid := n;
    var i := 0;
    while i < n
      invariant 0 <= i <= n
      invariant forall j :: 0 <= j < i ==> eps[j] != Some(t)
      invariant 0 <= whid <= n
      invariant whid == n ==> forall j :: 0 <= j < i ==> eps[j].Some?
      invariant whid < n ==> whid < i && eps[whid].None? && forall j :: 0 <= j < whid ==> eps[j].Some?
    {
      if whid == n && eps[i].None? {
        whid := i;
      }
      if eps[i] == Some(t) {
        whid := i;
        break;
      }
      i := i + 1;
    }
    ChosenIs(eps[..], t, whid, i);
  }

  /** What the open loop leaves in whid is the slot Chosen names. */
  lemma ChosenIs(slots: seq<Slot>, t: string, whid: int, i: int)
    requires 0 <= whid <= |slots| && 0 <= i <= |slots|
    requires i < |slots| ==> slots[i] == Some(t) && whid == i
    requires i == |slots| ==> forall j :: 0 <= j < |slots| ==> slots[j] != Some(t)
    requires i == |slots| && whid == |slots| ==> forall j :: 0 <= j < |slots| ==> slots[j].Some?
    requires i == |slots| && whid < |slots| ==> slots[whid].None? && forall j :: 0 <= j < whid ==> slots[j].Some?
    requires i < |slots| ==> forall j :: 0 <= j < i ==> slots[j] != Some(t)
    ensures whid == Chosen(slots, t)
  {
    if i < |slots| {
      FirstIndexIs(slots, Some(t), i);
    } else {
      FirstIndexIs(slots, Some(t), |slots|);
      FirstIndexIs(slots, None, whid);
    }
  }

  /** rmr_wh_close: clears the slot; a nil context or a bad id changes nothing. */
  method WhClose(ctx: WhCtx?, whid: int)
    modifies if ctx != null then {ctx.eps} else {}
    ensures ctx != null ==> ctx.State() == Closed(old(ctx.State()), whid)
  {
    if ctx == null || !ctx.ready {
      return;
    }
    if whid >= ctx.eps.Length || whid < 0 {
      return;
    }
    if ctx.eps[whid].None? {
      return;
    }
    ctx.eps[whid] := None;
  }

  /** rmr_wh_state on a context reference. */
  method WhState(ctx: WhCtx?, whid: int) returns (rc: int)
    ensures rc == StateOf(if ctx == null then None else Some(ctx.State()), whid)
  {
    if ctx == null {
      return RMR_ERR_BADARG;
    }
    if !ctx.ready {
      return RMR_ERR_NOWHOPEN;
    }
    if whid < 0 || whid >= ctx.eps.Length || ctx.eps[whid].None? {
      return RMR_ERR_WHID;
    }
    rc := if ctx.eps[whid].value in ctx.open then RMR_OK else RMR_ERR_NOENDPT;
  }

  /**
    The checks of rmr_wh_send_msg before it hands the message to the
    transport: a nil message is returned as is, a nil context marks it
    BADARG, an unset manager NOWHOPEN, a bad id WHID and a missing header
    NOHDR.  Otherwise the call id in d1 is blanked so that the far end does
    not queue the message on a chute, and a closed session is reopened as
    rmr_wh_open would open it (an empty name is refused and changes
    nothing), the only change to the table; `send` says the message goes on
    to the endpoint (send2ep is not part of this model).
  */
  method WhSendChecks(ctx: WhCtx?, whid: int, msg: Msg?, connects: bool) returns (send: bool)
    requires msg != null && msg.hasTp ==> |msg.hdr.d1| > D1_CALLID_IDX
    modifies msg, ctx, if ctx != null then {ctx.eps} else {}
    ensures msg == null ==> !send
    ensures msg != null && ctx == null ==> !send && msg.state == RMR_ERR_BADARG
    ensures msg != null && ctx != null ==>
      var st := StateOf(Some(old(ctx.State())), whid);
      (!old(ctx.ready) ==> !send && msg.state == RMR_ERR_NOWHOPEN) &&
      (old(ctx.ready) && st == RMR_ERR_WHID ==> !send && msg.state == RMR_ERR_WHID) &&
      (old(ctx.ready) && st != RMR_ERR_WHID && !old(msg.hasTp) ==> !send && msg.state == RMR_ERR_NOHDR) &&
      (old(ctx.ready) && st != RMR_ERR_WHID && old(msg.hasTp) ==>
        send && msg.state == RMR_OK && msg.hdr == old(msg.hdr).(d1 := old(msg.hdr).d1[D1_CALLID_IDX := NO_CALL_ID as byte]))
    ensures msg != null ==> msg.payload == old(msg.payload) && msg.len == old(msg.len) && msg.hasTp == old(msg.hasTp)
    ensures msg != null && !send ==> msg.hdr == old(msg.hdr)
    ensures ctx != null ==> ctx.hasRt == old(ctx.hasRt)
    ensures ctx != null ==> (ctx.State() ==
      if msg != null && old(msg.hasTp) && StateOf(Some(old(ctx.State())), whid) == RMR_ERR_NOENDPT &&
         old(ctx.State()).slots[whid].value != ""
      then Opened(old(ctx.State()), old(ctx.State()).slots[whid].value, ctx.hasRt, connects).0
      else old(ctx.State()))
  {
    if ctx == null || msg == null {
      if msg != null {
        msg.state := RMR_ERR_BADARG;
      }
      return false;
    }
    msg.state := RMR_OK;
    if !ctx.ready {
      msg.state := RMR_ERR_NOWHOPEN;
      return false;
    }
    if whid < 0 || whid >= ctx.eps.Length || ctx.eps[whid].None? {
      msg.state := RMR_ERR_WHID;
      return false;
    }
    if !msg.hasTp {
      msg.state := RMR_ERR_NOHDR;
      return false;
    }
    msg.hdr := msg.hdr.(d1 := msg.hdr.d1[D1_CALLID_IDX := NO_CALL_ID as byte]);
    var name := ctx.eps[whid].value;
    if name !in ctx.open {
      var _ := WhOpen(ctx, Some(name), connects);
    }
    send := true;
  }

  // ---- properties ------------------------------------------------------------------

  /** An open that succeeds leaves the target in its slot with its session open. */
  lemma OpenedHolds(w: WhTable, t: string, hasRt: bool, connects: bool)
    requires t != ""
    ensures var (w', id) := Opened(w, t, hasRt, connects);
      id != -1 ==> 0 <= id < |w'.slots| && w'.slots[id] == Some(t) && StateOf(Some(w'), id) == RMR_OK
  {
  }

  /** Opening a target that is already open gives the same id and changes nothing. */
  lemma OpenTwiceSameId(w: WhTable, t: string, hasRt: bool, connects: bool, connects2: bool)
    requires t != "" && NoDup(Prepared(w).slots)
    requires Opened(w, t, hasRt, connects).1 != -1
    ensures var (w1, id1) := Opened(w, t, hasRt, connects);
      Opened(w1, t, hasRt, connects2) == (w1, id1)
  {
    var (w1, id1) := Opened(w, t, hasRt, connects);
    var p := Prepared(w);
    var c := Chosen(p.slots, t);
    assert w1.ready && w1.slots[id1] == Some(t) && t in w1.open;
    OpenedKeepsNoDup(w, t, hasRt, connects);
    FirstOf(w1.slots, Some(t), id1);
  }

  /** In a table without duplicates, the slot holding x is the first one holding it. */
  lemma FirstOf(slots: seq<Slot>, x: Slot, k: int)
    requires NoDup(slots) && x.Some? && 0 <= k < |slots| && slots[k] == x
    ensures FirstIndex(slots, x) == k
  {
    FirstIndexIs(slots, x, k);
  }

  /** Opening never files an endpoint in a second slot. */
  lemma OpenedKeepsNoDup(w: WhTable, t: string, hasRt: bool, connects: bool)
    requires NoDup(Prepared(w).slots)
    ensures NoDup(Opened(w, t, hasRt, connects).0.slots)
  {
    var p := Prepared(w);
    var c := Chosen(p.slots, t);
    var g := if c < |p.slots| then p.slots else p.slots + Nils();
    assert NoDup(g);
    if FirstIndex(p.slots, Some(t)) == |p.slots| {
      assert forall j :: 0 <= j < |g| ==> g[j] != Some(t);
    }
  }

  /** A target not yet in the table takes the first nil slot, or the first new one. */
  lemma OpenReusesFirstNil(w: WhTable, t: string, connects: bool)
    requires w.ready && t != "" && Some(t) !in w.slots && t in w.open
    ensures Opened(w, t, true, connects).1 == FirstIndex(w.slots, None)
    ensures None !in w.slots ==> Opened(w, t, true, connects).1 == |w.slots|
  {
    FirstIndexIs(w.slots, Some(t), |w.slots|);
    if None !in w.slots {
      FirstIndexIs(w.slots, None, |w.slots|);
    }
  }

  /** A closed wormhole id no longer names a slot; the others keep their state. */
  lemma CloseThenState(w: WhTable, whid: int, other: int)
    requires w.ready && 0 <= whid < |w.slots| && w.slots[whid].Some? && other != whid
    ensures StateOf(Some(Closed(w, whid)), whid) == RMR_ERR_WHID
    ensures StateOf(Some(Closed(w, whid)), other) == StateOf(Some(w), other)
  {
  }
}

=== FILE: wrapper.dfy ===
/*
  The constant table handed to language wrappers (wrapper.c): each
  constant is formatted as a JSON member `"name": value`, and the members
  are appended into a fixed 2048-byte buffer between "{ " and " }".  A
  member that no longer fits is skipped, never cut.
*/
module Wrapper {
  import opened Common
  import opened RouteTable
  import RtGeneric

  /** The size of the buffers build_ival and build_sval format into. */
  const PHRASE_BUF: int := 512
  /** The size of the buffer the constant table is built in. */
  const CONSTS_BUF: int := 2048
  /** Bytes held back at the end of that buffer for the closing brace. */
  const CLOSE_RESERVE: int := 10
  /** What is left for members once "{ " is in place. */
  const CONSTS_ROOM: int := CONSTS_BUF - 2 - CLOSE_RESERVE

  /** A C string: no NUL inside. */
  predicate NoNul(s: string) {
    forall i :: 0 <= i < |s| ==> s[i] != '\0'
  }

  predicate NoQuote(s: string) {
    forall i :: 0 <= i < |s| ==> s[i] != '"'
  }

  // ---- %d ------------------------------------------------------------------------

  function DigitChar(d: int): (c: char)
    requires 0 <= d < 10
    ensures RtGeneric.IsDigit(c) && RtGeneric.DigitVal(c) == d
  {
    ('0' as int + d) as char
  }

  /** The decimal digits of v, most significant first, without leading zeros. */
  function Digits(v: nat): (s: string)
    ensures s != [] && forall i :: 0 <= i < |s| ==> RtGeneric.IsDigit(s[i])
    decreases v
  {
    if v < 10 then [DigitChar(v)] else Digits(v / 10) + [DigitChar(v % 10)]
  }

  /** printf's %d. */
  function Decimal(v: int): (s: string)
    ensures s != [] && NoNul(s) && NoQuote(s)
    ensures forall i :: 0 <= i < |s| ==> s[i] != ','
  {
    if v < 0 then "-" + Digits(-v) else Digits(v)
  }

  lemma {:induction false} DigitRunAppend(a: string, c: char, acc: nat)
    requires forall i :: 0 <= i < |a| ==> RtGeneric.IsDigit(a[i])
    requires RtGeneric.IsDigit(c)
    ensures RtGeneric.DigitRun(a + [c], acc) == RtGeneric.DigitRun(a, acc) * 10 + RtGeneric.DigitVal(c)
    decreases |a|
  {
    if a == [] {
      assert ([] + [c])[1..] == [];
    } else {
      assert (a + [c])[1..] == a[1..] + [c];
      DigitRunAppend(a[1..], c, acc * 10 + RtGeneric.DigitVal(a[0]));
    }
  }

  /** Reading the digits back in base ten gives the number. */
  lemma {:induction false} DigitsReadBack(v: nat)
    ensures RtGeneric.DigitRun(Digits(v), 0) == v
    decreases v
  {
    if v < 10 {
      assert Digits(v)[1..] == [];
    } else {
      DigitsReadBack(v / 10);
      DigitRunAppend(Digits(v / 10), DigitChar(v % 10), 0);
    }
  }

  /**
    A formatted number reads back with the library's own atoi, whatever
    follows it (a ',' separator, for instance).
  */
  lemma DecimalReadsBack(v: int, rest: string)
    requires -0x8000_0000 < v < 0x8000_0000
    requires rest == [] || !RtGeneric.IsDigit(rest[0])
    ensures RtGeneric.Atoi(Decimal(v) + rest) == v
  {
    if v < 0 {
      DigitsReadBack(-v);
      RtGeneric.AtoiReadsNegative(Digits(-v), rest);
    } else {
      DigitsReadBack(v);
      RtGeneric.AtoiReadsNumber(Digits(v), rest);
    }
  }

  // ---- build_ival, build_sval ----------------------------------------------------

  /** snprintf into a buffer of `size` bytes: the text, cut to leave room for the NUL. */
  function Snprintf(text: string, size: nat): (r: string)
    requires size > 0
    ensures |r| < size && |r| <= |text| && r == text[..|r|]
    ensures |text| < size ==> r == text
  {
    if |text| < size then text else text[..size - 1]
  }

  function Sep(addSep: bool): string {
    if addSep then "," else ""
  }

  /** The member `"name": val`, with a ',' when a separator is asked for. */
  function IvalText(name: string, val: int, addSep: bool): string {
    "\"" + name + "\": " + Decimal(val) + Sep(addSep)
  }

  /** The member `"name": "val"`, with a ',' when a separator is asked for. */
  function SvalText(name: string, val: string, addSep: bool): string {
    "\"" + name + "\": \"" + val + "\"" + Sep(addSep)
  }

  /**
    build_ival: the member text as it fits a 512-byte buffer, a prefix of
    the whole member and all of it when it is shorter than the buffer.
  */
  function BuildIval(name: string, val: int, addSep: bool): (r: string)
    ensures |r| < PHRASE_BUF && |r| <= |IvalText(name, val, addSep)| && r == IvalText(name, val, addSep)[..|r|]
    ensures |IvalText(name, val, addSep)| < PHRASE_BUF ==> r == IvalText(name, val, addSep)
  {
    Snprintf(IvalText(name, val, addSep), PHRASE_BUF)
  }

  /** build_sval, likewise for a string value. */
  function BuildSval(name: string, val: string, addSep: bool): (r: string)
    ensures |r| < PHRASE_BUF && |r| <= |SvalText(name, val, addSep)| && r == SvalText(name, val, addSep)[..|r|]
    ensures |SvalText(name, val, addSep)| < PHRASE_BUF ==> r == SvalText(name, val, addSep)
  {
    Snprintf(SvalText(name, val, addSep), PHRASE_BUF)
  }

  /** The text before the first '"' of s, and the rest of s from that quote on. */
  function UpToQuote(s: string): (r: (string, string))
    ensures NoQuote(r.0) && r.0 + r.1 == s
    ensures r.1 == [] || r.1[0] == '"'
  {
    if s == [] then ([], [])
    else if s[0] == '"' then ([], s)
    else
      var t := UpToQuote(s[1..]);
      assert [s[0]] + t.0 + t.1 == [s[0]] + (t.0 + t.1);
      ([s[0]] + t.0, t.1)
  }

  lemma {:induction false} UpToQuoteFinds(a: string, b: string)
    requires NoQuote(a) && b != [] && b[0] == '"'
    ensures UpToQuote(a + b) == (a, b)
    decreases |a|
  {
    if a == [] {
      assert a + b == b;
    } else {
      assert (a + b)[1..] == a[1..] + b;
      UpToQuoteFinds(a[1..], b);
      assert [a[0]] + a[1..] == a;
    }
  }

  /** A quoted name at the front of s: the name and what follows its closing quote. */
  function Quoted(s: string): Option<(string, string)> {
    if s == [] || s[0] != '"' then None
    else var t := UpToQuote(s[1..]);
      if t.1 == [] then None else Some((t.0, t.1[1..]))
  }

  /** A member's trailing ',' separated from its value. */
  function SplitSep(s: string): (string, bool) {
    if s != [] && s[|s| - 1] == ',' then (s[..|s| - 1], true) else (s, false)
  }

  /** Reads an integer member back: its name, its value read with atoi, and whether a ',' ends it. */
  function ParseIval(s: string): Option<(string, int, bool)> {
    match Quoted(s)
    case None => None
    case Some((name, rest)) =>
      if |rest| < 2 || rest[..2] != ": " then None
      else var v := SplitSep(rest[2..]); Some((name, RtGeneric.Atoi(v.0), v.1))
  }

  /** Reads a string member back: its name, its value, and whether a ',' ends it. */
  function ParseSval(s: string): Option<(string, string, bool)> {
    match Quoted(s)
    case None => None
    case Some((name, rest)) =>
      if |rest| < 2 || rest[..2] != ": " then None
      else match Quoted(rest[2..])
        case None => None
        case Some((val, tail)) =>
          if tail == [] then Some((name, val, false))
          else if tail == "," then Some((name, val, true))
          else None
  }

  /** A quote-free name with something after it comes back out of its quotes. */
  lemma QuotedName(name: string, after: string)
    requires NoQuote(name)
    ensures Quoted("\"" + name + "\"" + after) == Some((name, after))
  {
    var s := "\"" + name + "\"" + after;
    assert s[1..] == name + ("\"" + after);
    UpToQuoteFinds(name, "\"" + after);
  }

  /** An integer member that fits its buffer reads back as the name, value and separator it was built from. */
  lemma IvalRoundTrip(name: string, val: int, addSep: bool)
    requires NoQuote(name) && -0x8000_0000 < val < 0x8000_0000
    requires |IvalText(name, val, addSep)| < PHRASE_BUF
    ensures ParseIval(BuildIval(name, val, addSep)) == Some((name, val, addSep))
  {
    var d := Decimal(val);
    var after := ": " + d + Sep(addSep);
    assert IvalText(name, val, addSep) == "\"" + name + "\"" + after;
    QuotedName(name, after);
    assert after[..2] == ": " && after[2..] == d + Sep(addSep);
    var v := SplitSep(d + Sep(addSep));
    if addSep {
      assert (d + ",")[..|d + ","| - 1] == d;
      assert v == (d, true);
    } else {
      assert d + "" == d;
      assert v == (d, false);
    }
    DecimalReadsBack(val, []);
    assert d + [] == d;
  }

  /** A string member that fits its buffer reads back as the name, value and separator it was built from. */
  lemma SvalRoundTrip(name: string, val: string, addSep: bool)
    requires NoQuote(name) && NoQuote(val)
    requires |SvalText(name, val, addSep)| < PHRASE_BUF
    ensures ParseSval(BuildSval(name, val, addSep)) == Some((name, val, addSep))
  {
    var after := ": " + ("\"" + val + "\"" + Sep(addSep));
    assert SvalText(name, val, addSep) == "\"" + name + "\"" + after;
    QuotedName(name, after);
    assert after[..2] == ": " && after[2..] == "\"" + val + "\"" + Sep(addSep);
    QuotedName(val, Sep(addSep));
  }

  /** The two members the library's own tests expect. */
  lemma SvalExamples()
    ensures BuildSval("foobar", "value", true) == "\"foobar\": \"value\","
    ensures BuildSval("foobar", "value", false) == "\"foobar\": \"value\""
  {
  }

  // ---- bang_on, rmr_get_consts ---------------------------------------------------

  /**
    strncat: at most n bytes of src appended to the C string of length
    tlen in target, then a NUL.  `k` is the number of bytes appended.
  */
  method Strncat(target: array<char>, tlen: nat, src: string, n: nat) returns (k: nat)
    requires tlen < target.Length && target[tlen] == '\0'
    requires tlen + Min(|src|, n) < target.Length
    modifies target
    ensures k == Min(|src|, n)
    ensures target[..tlen] == old(target[..tlen])
    ensures target[tlen..tlen + k] == src[..k] && target[tlen + k] == '\0'
  {
    k := Min(|src|, n);
    var j := 0;
    while j < k
      invariant 0 <= j <= k
      invariant target[..tlen] == old(target[..tlen])
      invariant target[tlen..tlen + j] == src[..j]
    {
      target[tlen + j] := src[j];
      j := j + 1;
    }
    target[tlen + k] := '\0';
  }

  /**
    bang_on: appends src to the C string of length tlen in target when src
    is no longer than max, and returns its length; otherwise (or with a nil
    target or src) leaves target alone and returns 0.  The caller promises
    that target can take max more bytes and the NUL.
  */
  method BangOn(target: array?<char>, tlen: nat, src: Option<string>, max: int) returns (rc: int)
    requires target != null ==> tlen < target.Length && target[tlen] == '\0'
    requires target != null && src.Some? && |src.value| <= max ==> tlen + |src.value| < target.Length
    modifies target
    ensures rc == (if target != null && src.Some? && |src.value| <= max then |src.value| else 0)
    ensures target != null ==>
      target[..tlen] == old(target[..tlen]) &&
      target[tlen..tlen + rc] == (if rc > 0 then src.value else []) && target[tlen + rc] == '\0'
  {
    rc := 0;
    if src.Some? && target != null {
      var len := |src.value|;
      rc := if len <= max then len else 0;
      if rc > 0 {
        var _ := Strncat(target, tlen, src.value, len);
      }
    }
  }

  /** The text of several members written one after another. */
  function MembersText(ps: seq<string>): string {
    if ps == [] then [] else MembersText(ps[..|ps| - 1]) + ps[|ps| - 1]
  }

  /**
    The members that made it into the table, and the room left after them,
    when members are appended in order into CONSTS_ROOM bytes and each one
    that does not fit what remains is skipped.
  */
  function Packed(ps: seq<string>): (r: (string, int))
    ensures 0 <= r.1 <= CONSTS_ROOM && |r.0| + r.1 == CONSTS_ROOM
  {
    if ps == [] then ([], CONSTS_ROOM)
    else
      var prev := Packed(ps[..|ps| - 1]);
      var p := ps[|ps| - 1];
      if |p| <= prev.1 then (prev.0 + p, prev.1 - |p|) else prev
  }

  /** Members that fit together are all kept, in order. */
  lemma {:induction false} PackedKeepsAll(ps: seq<string>)
    requires |MembersText(ps)| <= CONSTS_ROOM
    ensures Packed(ps) == (MembersText(ps), CONSTS_ROOM - |MembersText(ps)|)
    decreases |ps|
  {
    if ps != [] {
      PackedKeepsAll(ps[..|ps| - 1]);
    }
  }

  lemma PackedStep(ps: seq<string>, k: nat)
    requires k < |ps|
    ensures Packed(ps[..k + 1]) ==
      if |ps[k]| <= Packed(ps[..k]).1 then (Packed(ps[..k]).0 + ps[k], Packed(ps[..k]).1 - |ps[k]|)
      else Packed(ps[..k])
  {
    assert ps[..k + 1][..k] == ps[..k];
  }

  lemma Joined(a: seq<char>, i: nat, n: nat)
    requires i + n <= |a|
    ensures a[..i + n] == a[..i] + a[i..i + n]
  {
  }

  /** The members of a table: every constant but the last takes a separator. */
  function Members(consts: seq<(string, int)>): (ps: seq<string>)
    ensures |ps| == |consts|
  {
    seq(|consts|, i requires 0 <= i < |consts| => BuildIval(consts[i].0, consts[i].1, i < |consts| - 1))
  }

  /** The whole table text for the members that were kept and the room that was left. */
  function ConstsText(packed: (string, int)): string
    requires 0 <= packed.1
  {
    "{ " + packed.0 + " }"[..Min(2, packed.1)]
  }

  /** The members appended one by one after "{ ", each with bang_on against the room that remains. */
  method AppendMembers(wbuf: array<char>, ps: seq<string>) returns (used: nat, remain: int)
    requires wbuf.Length == CONSTS_BUF && wbuf[..2] == "{ " && wbuf[2] == '\0'
    modifies wbuf
    ensures remain == Packed(ps).1 && used == 2 + |Packed(ps).0|
    ensures wbuf[..used] == "{ " + Packed(ps).0 && wbuf[used] == '\0'
  {
    used := 2;
    remain := CONSTS_BUF - 2 - CLOSE_RESERVE;
    for k := 0 to |ps|
      invariant Packed(ps[..k]).1 == remain
      invariant used == 2 + |Packed(ps[..k]).0| && wbuf[used] == '\0'
      invariant wbuf[..used] == "{ " + Packed(ps[..k]).0
    {
      ghost var pk := Packed(ps[..k]);
      PackedStep(ps, k);
      var rc := BangOn(wbuf, used, Some(ps[k]), remain);
      assert wbuf[..used] == "{ " + pk.0;
      Joined(wbuf[..], used, rc);
      remain := remain - rc;
      used := used + rc;
    }
    assert ps[..|ps|] == ps;
  }

  /**
    rmr_get_consts over the library's constant table, given here as a
    parameter: "{ ", then the members in order as long as they fit, then as
    much of " }" as the reserved room allows.
  */
  method GetConsts(consts: seq<(string, int)>) returns (r: string)
    ensures r == ConstsText(Packed(Members(consts)))
    ensures |r| < CONSTS_BUF && r[0] == '{'
  {
    var wbuf := new char[CONSTS_BUF](_ => '\0');
    wbuf[0], wbuf[1] := '{', ' ';
    var used, remain := AppendMembers(wbuf, Members(consts));
    var k := Strncat(wbuf, used, " }", remain);
    Joined(wbuf[..], used, k);
    r := wbuf[..used + k];
  }

  /**
    A table whose members fit together comes out as every member, in order,
    framed by "{ " and " }", as a JSON object is.
  */
  lemma ConstsFramed(consts: seq<(string, int)>)
    requires |MembersText(Members(consts))| <= CONSTS_ROOM - 2
    ensures ConstsText(Packed(Members(consts))) == "{ " + MembersText(Members(consts)) + " }"
    ensures ConstsText(Packed(Members(consts)))[|ConstsText(Packed(Members(consts)))| - 1] == '}'
  {
    PackedKeepsAll(Members(consts));
  }

  function TotalLen(ps: seq<string>): nat {
    if ps == [] then 0 else TotalLen(ps[..|ps| - 1]) + |ps[|ps| - 1]|
  }

  lemma {:induction false} ConcatLen(ps: seq<string>)
    ensures |MembersText(ps)| == TotalLen(ps)
    decreases |ps|
  {
    if ps != [] {
      ConcatLen(ps[..|ps| - 1]);
    }
  }

  lemma {:induction false} TotalLenBound(ps: seq<string>, b: nat)
    requires forall i :: 0 <= i < |ps| ==> |ps[i]| <= b
    ensures TotalLen(ps) <= |ps| * b
    decreases |ps|
  {
    if ps != [] {
      TotalLenBound(ps[..|ps| - 1], b);
    }
  }

  /** 10 to the power k. */
  function Pow10(k: nat): (p: nat)
    ensures p >= 1
  {
    if k == 0 then 1 else 10 * Pow10(k - 1)
  }

  /** A number below 10^k has at most k digits. */
  lemma {:induction false} DigitsShort(a: nat, k: nat)
    requires 1 <= k && a < Pow10(k)
    ensures |Digits(a)| <= k
    decreases k
  {
    if a >= 10 {
      DigitsShort(a / 10, k - 1);
    }
  }

  lemma DecimalShort(v: int)
    requires -100000 < v < 100000
    ensures |Decimal(v)| <= 6
  {
    assert Pow10(5) == 100000;
    DigitsShort(if v < 0 then -v else v, 5);
  }

  /**
    A table the size of the library's (at most 40 constants, names of at
    most 24 characters, values below 100000 in magnitude; the library's has
    27, the largest value being RMR_MAX_RCV_BYTES) always fits, so the text
    is a complete JSON object.
  */
  lemma ShortTableFits(consts: seq<(string, int)>)
    requires |consts| <= 40
    requires forall i :: 0 <= i < |consts| ==> |consts[i].0| <= 24 && -100000 < consts[i].1 < 100000
    ensures |MembersText(Members(consts))| <= CONSTS_ROOM - 2
  {
    var ps := Members(consts);
    forall i | 0 <= i < |ps|
      ensures |ps[i]| <= 35
    {
      DecimalShort(consts[i].1);
      assert |IvalText(consts[i].0, consts[i].1, i < |consts| - 1)| <= 35;
    }
    TotalLenBound(ps, 35);
    ConcatLen(ps);
  }
}
